=== FILE: README.md ===
# LibreTranslate core, modelled in Dafny

This project models the server-side bookkeeping of LibreTranslate, a
self-hosted machine-translation API, and proves properties of that model.
It covers the parts that decide whether and how a request is served, and the
start-up and maintenance logic around them:

- **Storage** (`libretranslate/storage.py`): the shared key/value store holds scalars and integer hashes; `setup` picks a backend from the URI.
- **Flood protection** (`libretranslate/flood.py`, and the older `app/flood.py`): violation counters per client address, banning at a threshold, and periodic forgiveness.
- **Request secrets** (`libretranslate/secret.py`) and the **scheduler** that rotates them and forgives bans (`libretranslate/scheduler.py`).
- **Request gate and limits** (`libretranslate/app.py`):
  - the access check (ban, API key, origin and secret);
  - the client address;
  - per-key request and character limits, and the minute, decaying hourly and daily rate tiers;
  - request cost, de-duplication of language lists, and the download file name.
- **API key database** (`libretranslate/api_keys.py`, `app/api_keys.py`), including its in-process lookup cache.
- **Translation cache** (`libretranslate/cache.py`) and **translation memory** (`libretranslate/tm_db.py`).
- **Post-translation formatting** (`libretranslate/language.py`) and the **path-traversal check** (`libretranslate/security.py`).
- **Configuration defaults** read from `LT_*` environment variables (`libretranslate/default_values.py`, `app/default_values.py`).
- **UI locales** (`libretranslate/locales.py`): the locale list, alternate links and the Swagger-text traversal.
- **Model installation at boot** (`libretranslate/init.py`, `app/init.py`).
- **Gunicorn keyword arguments** and the argument vector built from them (`scripts/gunicorn_conf.py`, `wsgi.py`).
- **Placeholder masking** in the locale-translation scripts (`scripts/update_locales.py`, `update_locales.py`).

## How the model is organised

Each Python module is one Dafny module of the same name. Every function is
pure: the store, a database table or a cache is passed in and a new one is
returned. Dafny's `Result` stands for an exception and `Option` for `None`.
Randomness, the clock, hashing, JSON, gzip, regular expressions and the
machine translator are not computed. They are function parameters or plain
inputs:
- the random index source for secrets;
- `now`;
- `md5`, `compress` and `decompress`;
- the `re.findall` / `re.sub` results;
- `html` / `plain` translators;
- the version order `older`;
- `archiveExists`.

Shared helpers:
- `Wrappers`: `Option` and `Result`.
- `Text`: Python's `str.replace`, `split`, `join`, `strip` and `lower`/`upper`, with their algebra. Examples: `ReplaceIsJoinOfSplit`, `JoinSplitRoundTrip`, `ReplaceSkip`.
- `Numbers`: `str(n)`, `int(s)`, truncating division and ceiling division.
- `Sorting`: a stable, lexicographic sort by key.

## Model

| member | source | states |
|---|---|---|
| Storage.Setup | libretranslate/storage.py:158-165 | a `memory://` URI selects memory storage, a `redis://` URI selects Redis, anything else is the error "Invalid storage URI: " followed by the URI (both directions) |
| Storage.AbsentDefaults | libretranslate/storage.py:56-72 | a missing key reads as 0 for ints, "" for strings and 0 for hash fields; `get_bool` of a missing key is a KeyError |
| Storage.SetThenGet | libretranslate/storage.py:47-63 | a value written with set_int/set_str/set_bool reads back unchanged, and every other key is untouched |
| Storage.SetHashThenGet | libretranslate/storage.py:65-72 | set_hash_int creates the namespace when absent; the field reads back; other fields and other keys are untouched |
| Storage.IncHashIntSpec | libretranslate/storage.py:74-81 | inc_hash_int on the memory store stores 0 for an absent field and adds 1 to a present one |
| Storage.MemoryAndRedisIncrement | libretranslate/storage.py:74-81 | the memory store and Redis (HINCRBY) disagree only on the first increment of a field (0 against 1); afterwards both add 1 and neither touches other fields (with libretranslate/storage.py:146-147) |
| Storage.DecHashIntHasNoFloor | libretranslate/storage.py:83-90 | dec_hash_int stores 0 for an absent field, otherwise subtracts 1, and can go below zero |
| Storage.DelHashSpec | libretranslate/storage.py:98-99 | del_hash succeeds exactly when the field exists (KeyError otherwise) and removes only that field |
| Storage.ScalarsAndNamespacesShareKeys | libretranslate/storage.py:42-72 | scalars and hash namespaces live in one dictionary, so hash operations on a key holding an int fail |
| Flood.Setup | libretranslate/flood.py:22-28 | a positive threshold activates flood protection with that threshold; otherwise the configuration is unchanged |
| Flood.Report | libretranslate/flood.py:30-32 | when active, the reporting address's counter starts at 0 or goes up by one; when inactive nothing changes; other addresses are unchanged |
| Flood.Decrease | libretranslate/flood.py:34-37 | a positive counter goes down by one, a zero or negative one is left alone, and other addresses are unchanged |
| Flood.Forgive | libretranslate/flood.py:6-20 | addresses with counter <= 0 are deleted; every other counter becomes min(threshold, count) - 1 |
| Flood.ForgiveAsWritten | libretranslate/flood.py:11-15 | with the memory store's list-of-dicts get_all_hash_int, forgive_banned fails on any non-empty banned namespace (with libretranslate/storage.py:92-96) |
| Flood.ForgiveStore | libretranslate/flood.py:6-20 | on the dict form, forgiving rewrites only the banned namespace, to Forgive of its contents |
| Flood.NonNegativeInvariant | libretranslate/flood.py:6-37 | report, decrease and forgive keep every counter non-negative |
| Flood.BanBoundary | libretranslate/flood.py:43-47 | an inactive configuration bans nobody; an address is banned at exactly the threshold and not one below it |
| Flood.BannedAfterSetup | libretranslate/flood.py:22-28 | after setup, an address is banned iff the threshold is positive and its counter reaches it (with libretranslate/flood.py:43-47) |
| Flood.ForgiveLiftsBans | libretranslate/flood.py:6-20 | one forgiveness pass lifts every ban (with libretranslate/flood.py:43-47) |
| Flood.ForgiveCountsDown | libretranslate/flood.py:6-20 | an address with counter c <= threshold disappears after c + 1 passes |
| Flood.ForgiveAbsentStaysAbsent | libretranslate/flood.py:6-20 | forgiveness never creates a counter |
| Flood.ForgiveDeletesEventually | libretranslate/flood.py:6-20 | any positive counter disappears after min(threshold, c) + 1 passes |
| Flood.ReportsFromClean | libretranslate/flood.py:30-32 | n reports from a clean address leave the counter at n - 1, so the ban starts at report threshold + 1 (with libretranslate/flood.py:43-47) |
| Flood.ReportThroughStore | libretranslate/flood.py:30-32 | report through the store's inc_hash_int is Report applied to the banned namespace (with libretranslate/storage.py:74-81) |
| LegacyFlood.ClearBanned | app/flood.py:10-12 | clearing empties every counter and keeps the configuration |
| LegacyFlood.Setup | app/flood.py:15-24 | setup always activates protection with the given threshold, keeps the existing counts, and starts a new scheduler whose one job is `clear_banned` every four weeks (40320 minutes), on every call |
| LegacyFlood.ScheduledClearUnbans | app/flood.py:10-24 | once the job that setup schedules has run, every count is 0, so an address is banned only when the threshold is at most 0, and the guard stays active with its threshold |
| LegacyFlood.Report | app/flood.py:30-33 | when active, the address's counter goes up by one (starting from 0) and every other counter, the active flag and the threshold are kept; when inactive nothing changes |
| LegacyFlood.ReportsCount | app/flood.py:30-38 | n reports from a clean address give counter n, so the ban starts at report number threshold |
| LegacyFlood.DefaultSetupBansAtHundred | app/flood.py:15-20 | without setup nobody is banned; with the default setup the ban starts at 100 reports (with app/flood.py:36-38) |
| LegacyFlood.InactiveReportsNoop | app/flood.py:30-33 | reports before setup change nothing |
| Secret.GenerateSecret | libretranslate/secret.py:11-12 | a secret is 7 characters, each an upper-case ASCII letter or digit |
| Secret.EverySecretIsGenerated | libretranslate/secret.py:11-12 | every such 7-character string is produced by some random choice sequence |
| Secret.Setup | libretranslate/secret.py:27-42 | the first call sets the flag, stores two fresh secrets in secret_0 and secret_1 without touching other keys, and starts its own scheduler with a 30-minute rotation job; later calls change nothing and start nothing |
| Secret.SetupIsOnce | libretranslate/secret.py:27-42 | a second setup leaves the flag and store as the first left them and starts no scheduler |
| Secret.TwoRotationJobs | libretranslate/secret.py:36-39 | with API keys and key secrets on, the secret module's scheduler and the process scheduler (libretranslate/scheduler.py:19-20) together hold two rotation jobs |
| Secret.SetupVia | libretranslate/secret.py:27 | `setup` takes no argument: a call with one raises TypeError, and a call without one is the setup above |
| Secret.SetupAsWrittenRaises | libretranslate/app.py:254 | `secret.setup(args)` raises TypeError before seeding anything; the call without the argument seeds both slots |
| Secret.RotateSpec | libretranslate/secret.py:14-18 | rotation moves the current secret to secret_0, stores the new one in secret_1 and touches no other key |
| Secret.MatchSpec | libretranslate/secret.py:20-22 | a secret matches iff it equals secret_0 or secret_1; a missing secret never matches |
| Secret.PreviousMatchesAfterRotation | libretranslate/secret.py:14-22 | after one rotation both the old current secret and the new one are accepted |
| Secret.TwoRotations | libretranslate/secret.py:14-22 | after two rotations exactly the two newest secrets are accepted |
| Secret.CurrentAfterRotation | libretranslate/secret.py:14-25 | get_current_secret returns the newest secret after a rotation |
| Scheduler.Setup | libretranslate/scheduler.py:13-22 | the first setup starts a scheduler with a 10-minute forgive job iff the flood threshold is positive and a 30-minute rotation job iff API keys and key secrets are both on; a second setup keeps the existing scheduler |
| Scheduler.SetupOnce | libretranslate/scheduler.py:13 | setup is idempotent whatever the second call's arguments |
| Limits.RemoteAddress | libretranslate/app.py:84-90 | the address is the first comma-separated field of the first X-Forwarded-For value, else the remote address, else 127.0.0.1 |
| Limits.RemoteAddressIsFirstHop | libretranslate/app.py:84-88 | any prefix of the first header value that ends at a comma or at its end and contains no comma is the address |
| Limits.GetReqLimits | libretranslate/app.py:93-104 | the limit is the key's limit times the database multiplier (default limit if there is no key), times a fractional multiplier, truncated |
| Limits.GetReqLimitsSpec | libretranslate/app.py:93-104 | with unit multipliers the limit is exactly the key's stored limit or the default |
| Limits.GetCharLimit | libretranslate/app.py:107-119 | a known key's own character limit wins, otherwise the default |
| Limits.Tiers | libretranslate/app.py:140-149 | the tiers are the minute tier, then hourly tiers 1..decay+1 when the hourly limit is positive, then the daily tier iff the daily limit is positive |
| Limits.HourlyDbMultiplier | libretranslate/app.py:134 | without the environment variable the hourly key multiplier is 60·n; with it, the string is repeated n times and parsed |
| Limits.TierLimit | libretranslate/app.py:122-138 | the minute tier uses the request limit (unlimited for -1); the hourly and daily tiers fail exactly when their multiplier does not parse |
| Limits.TierText | libretranslate/app.py:128-138 | the tier text is exactly the limit followed by " per minute", " per n hour" or " per day": it starts with the limit, ends with the period and is no longer than the two together |
| Limits.HourlyTierWithoutKey | libretranslate/app.py:131-135 | without a key, hourly tier n allows floor(hourly·n·0.75^(n-1)); tier 1 allows exactly the hourly limit |
| Limits.HourlyTierWithKey | libretranslate/app.py:131-135 | with a key, hourly tier n allows floor(keyLimit·60·n·0.75^(n-1)) |
| Limits.ThirdHourlyTierExample | libretranslate/app.py:131-135 | an hourly limit of 100 gives 168 requests on tier 3 |
| Limits.MultiplierStringIsRepeated | libretranslate/app.py:134 | the multiplier "2" on tier 2 is read as the number 22 |
| Limits.LimitsCost | libretranslate/app.py:227-232 | with a time cost, a request costs the larger of its own cost and ceil(duration / time cost); without one, its own cost (default 1) |
| Limits.CostIsPositive | libretranslate/app.py:227-232 | every request costs at least 1 |
| Limits.SlowRequestCost | libretranslate/app.py:227-232 | a request lasting k time-cost units costs k (at least 1) |
| Limits.BatchCost | libretranslate/app.py:648-649 | a batch costs its length, at least 1 |
| Limits.FileCost | libretranslate/app.py:852-853 | with a character limit, a file costs floor(size / limit), at least 1; the cost is 1 exactly when the file is shorter than twice the limit |
| Limits.FilterUnique | libretranslate/app.py:151-154 | filter_unique keeps first occurrences, dropping the extra value and "" |
| Limits.FirstOccurrencesSpec | libretranslate/app.py:151-154 | the result holds exactly the non-excluded elements of the input, each once |
| Limits.FirstOccurrencesOrder | libretranslate/app.py:151-154 | the kept elements appear in the order of their first occurrence |
| Limits.DownloadName | libretranslate/app.py:895-897 | the download name is everything after the first '.', or "" when there is none |
| Limits.DownloadNameRoundTrip | libretranslate/app.py:895-897 | the first dot-field, a '.', and the download name rebuild the file name |
| Gate.Status | libretranslate/app.py:285-331 | a ban or an invalid key is 403, a required key is 400, the bogus-secret placeholder is 200, and proceeding has no status |
| Gate.AccessCheck | libretranslate/app.py:285-331 | the outcome of each check, in order: ban first, then an unknown key, then the bogus-secret reply, then origin/secret key requirements, otherwise proceed |
| Gate.BanComesFirst | libretranslate/app.py:290-291 | a banned address always gets 403 |
| Gate.KeysOffOnlyBanChecked | libretranslate/app.py:290-294 | without API keys only the ban is checked |
| Gate.KnownKeyProceeds | libretranslate/app.py:294-303 | a known key is always let through when not banned |
| Gate.BogusPreemptsKeyRequired | libretranslate/app.py:310-320 | a bogus secret gets the 200 placeholder even when the origin check also failed |
| Gate.ProceedMeans | libretranslate/app.py:285-331 | a request proceeds iff it is not banned and, with keys on, any key given is known and neither the origin nor the secret requirement fails |
| Gate.SlowDown | libretranslate/app.py:370-373 | the 429 handler replies "Slowdown: " plus the description with status 429 |
| Gate.RepeatedSlowDownsBan | libretranslate/app.py:285-291 | a clean client that is rate-limited n times is banned by the gate iff n >= threshold + 1 (with libretranslate/flood.py:30-47) |
| ApiKeys.Lookup | libretranslate/api_keys.py:45-63 | a cached entry answers without the table; on a miss the table row (or None) is answered and cached |
| ApiKeys.LookupCoherent | libretranslate/api_keys.py:45-63 | while the cache agrees with the table, lookup answers the table row and keeps the cache in agreement |
| ApiKeys.LookupIdempotent | libretranslate/api_keys.py:45-63 | a second lookup of the same key gives the same answer and changes nothing |
| ApiKeys.Add | libretranslate/api_keys.py:65-77 | add stores (req_limit, char_limit) under the given key, or under a fresh key for "auto", and a char limit of 0 is stored as none |
| ApiKeys.Remove | libretranslate/api_keys.py:79-82 | remove deletes the key's row and returns the key |
| ApiKeys.LegacyAdd | app/api_keys.py:44-54 | the older add stores only the request limit, with the same "auto" rule |
| ApiKeys.Expire | libretranslate/api_keys.py:14 | dropping one cache entry leaves the table and the other entries alone |
| ApiKeys.AddThenLookup | libretranslate/api_keys.py:45-77 | once the cache entry has expired, a freshly added key is found with its row |
| ApiKeys.CachedMissIsStale | libretranslate/api_keys.py:45-77 | a key looked up before it was added keeps reading as unknown while the cached miss lives |
| ApiKeys.CachedRowOutlivesRemoval | libretranslate/api_keys.py:45-82 | a removed key keeps being accepted while its cached row lives |
| ApiKeys.AddReplaces | libretranslate/api_keys.py:65-77 | adding an existing key replaces its row rather than adding a second one |
| TranslationCache.Init | libretranslate/cache.py:11-14 | the cache is enabled iff keys were given; "all" in any case turns on caching for everyone and is not kept as a key |
| TranslationCache.ShouldCheckFromSettings | libretranslate/cache.py:11-21 | a request is checked iff "all" was configured or its key is one of the configured keys |
| TranslationCache.AllInAnyCase | libretranslate/cache.py:14-21 | "ALL" enables caching for every request, with or without a key |
| TranslationCache.Fingerprint | libretranslate/cache.py:24-25 | the fingerprint is the text blob followed by ":source:target:format:alternatives", with the alternatives count written in decimal |
| TranslationCache.CacheKey | libretranslate/cache.py:26 | the cache key is "tcache_" followed by the md5 of the fingerprint |
| TranslationCache.ListAndJoinedTextShareKey | libretranslate/cache.py:24-26 | a list of texts has the same key as the texts joined with "\|" |
| TranslationCache.DifferentBatchesShareKey | libretranslate/cache.py:24-26 | the batches ["a\|b"] and ["a","b"] collide on the same key |
| TranslationCache.Read | libretranslate/cache.py:28-38 | corrected `hit` read: a store error propagates, and an empty or missing value is a miss |
| TranslationCache.ReadVia | libretranslate/cache.py:28 | passing any keyword argument to `get_str` raises TypeError |
| TranslationCache.Write | libretranslate/cache.py:40-48 | corrected `cache` write: only dict content is stored, under its key, and other keys are untouched |
| TranslationCache.WriteVia | libretranslate/cache.py:46 | passing an extra argument to `set_str` stores nothing, as the exception is swallowed |
| TranslationCache.CorrectedCalls | libretranslate/cache.py:28-46 | without the extra arguments, the calls as written are the corrected read and write |
| TranslationCache.CacheAsWrittenIsInert | libretranslate/cache.py:28-48 | as written, every lookup raises TypeError and no write changes the store |
| TranslationCache.AsWrittenRoundTripFails | libretranslate/cache.py:28-48 | a dict cached into an empty store reads back with the corrected pair, but as written the key is never stored and the lookup raises |
| TranslationCache.WriteThenRead | libretranslate/cache.py:28-48 | with the corrected calls, what was cached is read back when decompression inverts compression |
| TranslationMemory.AddEntry | libretranslate/tm_db.py:60-83 | add_entry appends one row with a fresh, larger id and both timestamps set to now |
| TranslationMemory.BestIndex | libretranslate/tm_db.py:85-112 | the chosen row matches; it ranks by last use, then confidence, then earlier row over every other match |
| TranslationMemory.LookupEntry | libretranslate/tm_db.py:85-112 | lookup finds nothing iff no row matches the text and language pair, else the best row's target text and id |
| TranslationMemory.UpdateLastUsed | libretranslate/tm_db.py:114-132 | only rows with the given id get last_used_at = now |
| TranslationMemory.Without | libretranslate/tm_db.py:190-208 | the rows left by a delete are exactly those with another id, still in ascending id order |
| TranslationMemory.DeleteEntry | libretranslate/tm_db.py:190-208 | delete reports whether the id existed and removes exactly its rows |
| TranslationMemory.GetEntryById | libretranslate/tm_db.py:210-234 | get by id finds a row with that id iff one exists |
| TranslationMemory.MatchingNewestFirst | libretranslate/tm_db.py:134-188 | listing keeps exactly the rows of the language filter, newest id first |
| TranslationMemory.PageBounds | libretranslate/tm_db.py:134-188 | LIMIT/OFFSET bounds: the page starts at (page-1)·per_page, clamped to the count, and holds at most per_page rows |
| TranslationMemory.PagesAreConsecutive | libretranslate/tm_db.py:134-188 | page n+1 starts where page n ends |
| TranslationMemory.ListEntries | libretranslate/tm_db.py:134-188 | list_entries returns the requested page of the filtered, newest-first rows and the total count |
| TranslationMemory.ConsecutivePagesJoin | libretranslate/tm_db.py:134-188 | two consecutive pages together are the contiguous slice of the listing |
| TranslationMemory.DeletedIsGone | libretranslate/tm_db.py:85-112 | after deleting an id, neither get-by-id nor lookup returns it (with libretranslate/tm_db.py:190-234) |
| TranslationMemory.NewestEntryWins | libretranslate/tm_db.py:60-112 | a just-added entry is what lookup returns for its text |
| TranslationMemory.UsedRowWins | libretranslate/tm_db.py:85-132 | a row whose use was just recorded becomes the lookup answer |
| TranslationMemory.SameSecondUseKeepsConfidenceOrder | libretranslate/tm_db.py:85-132 | two uses in the same second fall back to confidence, so recording a use need not make the row win |
| Language.PunctuationIsFiveMarks | libretranslate/language.py:94 | only ! ? . , ; count as punctuation; the mis-encoded sixth entry never matches a character |
| Language.Punctuate | libretranslate/language.py:90-102 | for a given list of marks: when the source ends in a mark, the result ends in it: a translation already ending in that mark is kept, a different final mark is replaced, and otherwise the mark is appended; without a final mark in the source, a trailing mark of the translation is dropped |
| Language.TransferCase | libretranslate/language.py:104-116 | a lower-case source lower-cases the translation, an upper-case one upper-cases it, otherwise the first letter's case is copied; an empty translation with a cased first source letter fails |
| Language.ImproveFormatting | libretranslate/language.py:81-116 | a blank source gives "", an empty translation gives the stripped source, otherwise punctuation then case handling |
| Language.EmptiedTranslationFails | libretranslate/language.py:101-114 | a mixed-case source that starts with a capital and has no final mark, given a translation that is one mark, raises IndexError (source "Hi", translation "!") |
| Language.ImproveFormattingGuarded | libretranslate/language.py:81-116 | the corrected formatting never fails: a blank source gives "", an empty translation the stripped source, and otherwise the result is within one character of the translation's length |
| Language.GuardedAgrees | libretranslate/language.py:81-116 | the guarded version agrees with the original wherever the original succeeds |
| Language.FinalMarkIsCopied | libretranslate/language.py:95-100 | with punctuation handling on, the result ends with the source's final mark |
| Language.CaseKeepsFinalMark | libretranslate/language.py:104-116 | the case step succeeds on a translation ending in an uncased character (any mark), keeps its length and leaves that final character unchanged |
| Language.IntendedHasFullStop | libretranslate/language.py:94 | the ideographic full stop U+3002 is a mark of the intended list but not of the list as written |
| Language.IdeographicStopDropped | libretranslate/language.py:81-116 | as written, source "你好。" with translation "Hello." gives "Hello": the full stop is not recognised and the translation's '.' is removed |
| Language.IntendedStopCopied | libretranslate/language.py:90-116 | with the intended list, every source whose stripped text ends in U+3002 gives a formatted translation ending in U+3002 |
| Security.CommonPrefix | libretranslate/security.py:12 | the common prefix is a prefix of both strings and cannot be extended |
| Security.PathJoin | libretranslate/app.py:882 | `os.path.join` returns an absolute file name as it is; otherwise it keeps the directory as a prefix, ends with the file name and adds one "/" between them unless the directory is empty or ends in "/" |
| Security.UploadFilePasses | libretranslate/app.py:882-884 | the download handler's joined path for a plain file name inside a normal upload directory passes and is returned as that directory plus the name |
| Security.AbsoluteNameEscapes | libretranslate/app.py:882-884 | an absolute file name replaces the upload directory in the join, and then passes exactly when its normalised form starts with the normalised upload directory |
| Security.AbsPathIdempotent | libretranslate/security.py:9-10 | `os.path.abspath` is absolute and idempotent: normalising a normalised path changes nothing |
| Security.RootedShape | libretranslate/security.py:9-10 | an absolute path normalises to one or two leading slashes followed by plain names joined by "/" (no "", "." or ".." left) |
| Security.PathTraversalCheck | libretranslate/security.py:8-16 | the check returns the absolute, normalised unsafe path, which then starts with the normalised safe directory, or fails with "<normalised path> is not safe" |
| Security.PassesIffPrefix | libretranslate/security.py:12-16 | a path passes iff the normalised safe directory is a string prefix of the normalised path |
| Security.SafePathPasses | libretranslate/security.py:8-16 | the safe directory itself passes, as its normalised form |
| Security.ClimbOutFails | libretranslate/security.py:9-14 | for every normal directory, "<dir>/.." fails and the message names the parent directory |
| Security.TrailingSlashDropped | libretranslate/security.py:9-10 | a trailing "/" is dropped by normalisation |
| Security.CurrentDirDropped | libretranslate/security.py:9-10 | a "." component is dropped by normalisation |
| Security.RelativeInsideCwd | libretranslate/security.py:9-10 | a relative path is resolved against the working directory |
| Security.NormalPrefixPasses | libretranslate/security.py:12-16 | for normal paths the check is a plain prefix test and returns the path itself |
| Security.SiblingDirectoryPasses | libretranslate/security.py:12-16 | "/tmp/upload-x/f" passes for "/tmp/up": the check compares characters, not path components |
| Security.ParentDirectoryFails | libretranslate/security.py:12-14 | "/etc/passwd" fails for "/tmp/up" |
| Security.DotDotExampleFails | libretranslate/security.py:9-14 | "/tmp/up/.." fails for "/tmp/up" with "/tmp is not safe" |
| Security.DotExamplePasses | libretranslate/security.py:9-16 | "/tmp/up/./f" passes for "/tmp/up" and is returned as "/tmp/up/f" |
| Defaults.GetValueStr | libretranslate/default_values.py:6-8 | a set variable is taken verbatim, even when empty; otherwise the default |
| Defaults.GetValueInt | libretranslate/default_values.py:11-15 | a variable that int() accepts gives its value; a missing or unparseable one gives the default |
| Numbers.ParseIntToString | libretranslate/default_values.py:13 | `int(str(i)) == i` for every integer |
| Numbers.AsciiDecimal | libretranslate/default_values.py:13 | below U+0660 the characters `int()` reads as digits are exactly '0' to '9', with their usual values |
| Numbers.ArabicIndicDigits | libretranslate/default_values.py:13 | `int()` reads the Arabic-Indic digits U+0664 U+0662 as 42 |
| Numbers.DecimalZero | libretranslate/default_values.py:13 | a character is a digit for `int()` only inside a run of ten code points starting at that run's zero |
| Defaults.GetValueBool | libretranslate/default_values.py:18-24 | the four false spellings give False, the four true spellings give True, anything else the default |
| Defaults.GetValue | libretranslate/default_values.py:27-35 | the LT_-prefixed variable is read by the option's type; an unknown type or a missing variable gives the default |
| Defaults.BoolSpellings | libretranslate/default_values.py:18-24 | only FALSE/False/false/0 and TRUE/True/true/1 are recognised, so "yes" yields the default |
| Defaults.EmptyVariable | libretranslate/default_values.py:6-15 | an empty variable is the empty string for a str option and the default for an int option |
| Defaults.DefaultArguments | libretranslate/default_values.py:38-197 | DEFAULT_ARGUMENTS has one entry per option name, each the value read for that option |
| Defaults.LegacyDefaultArguments | app/default_values.py:5-117 | the same for the older option list |
| Defaults.UnsetEnvironmentGivesDefaults | libretranslate/default_values.py:197 | with no LT_ variables every option takes its declared default |
| Defaults.PortFromEnvironment | libretranslate/default_values.py:11-13 | LT_PORT set to the decimal text of any n gives port n |
| Defaults.PortFallsBack | libretranslate/default_values.py:11-15 | LT_PORT set to a word that int() rejects (one starting with a lower-case letter, such as "eighty") keeps 5000 |
| Defaults.OptionNamesDistinct | libretranslate/default_values.py:38-194 | no option name is listed twice |
| Defaults.PortIsListed | libretranslate/default_values.py:38-48 | PORT is the int option with default 5000 in both option lists |
| Locales.Collect | libretranslate/locales.py:17-31 | a directory is listed iff it has LC_MESSAGES and a JSON-object meta.json that is reviewed (or review is not required); an unreadable meta.json is skipped; a meta.json that is JSON but not an object fails, and the error names the first such directory in listing order |
| Locales.Assemble | libretranslate/locales.py:15 | English comes first, then the collected locales; sorting by name keeps the same multiset and orders by name (with libretranslate/locales.py:33-36) |
| Sorting.SortBy | libretranslate/locales.py:33-34 | `res.sort(key=...)` gives a permutation of the list ordered by the string key |
| Locales.AvailableLocalesAsWritten | libretranslate/locales.py:11-36 | the locale list with the skip test as written, comparing the joined path with 'en' |
| Locales.WrittenSkipNeverHolds | libretranslate/locales.py:13-18 | a joined path "dir/name" is never equal to "en" |
| Locales.AvailableLocales | libretranslate/locales.py:11-36 | the corrected list: English first when unsorted and listed exactly once; a non-English entry is listed iff it comes from a qualifying non-English directory; the list fails iff some non-English directory with LC_MESSAGES has a meta.json that is not an object |
| Locales.EnglishNotCollected | libretranslate/locales.py:15-31 | the corrected loop never yields the English entry, so the list holds it once |
| Locales.EnglishListedTwice | libretranslate/locales.py:15-31 | a reviewed "en" directory makes the list as written contain English twice, against once in the corrected one |
| Locales.LinkFor | libretranslate/locales.py:51-53 | the link replaces {LANG} with the code; for English it also deletes every "en." |
| Locales.AlternateLinks | libretranslate/locales.py:43-55 | without a template there are no links; with one, one link per locale code, in order |
| Locales.TemplateWithoutSlot | libretranslate/locales.py:51-53 | a template without {LANG} is the link for every non-English code |
| Locales.SubdomainTemplateOther | libretranslate/locales.py:51 | "{LANG}.x.io" gives "de.x.io" for German |
| Locales.SubdomainTemplateEnglish | libretranslate/locales.py:51-53 | "{LANG}.x.io" gives "x.io" for English |
| Locales.SwagEval | libretranslate/locales.py:77-94 | the traversal keeps every key in place |
| Locales.EvalValue | libretranslate/locales.py:81-92 | non-empty summary/description strings and tag lists are translated, "consumes" lists and other strings are kept, nested objects are traversed entry by entry, and other lists have their items traversed |
| Locales.EvalItems | libretranslate/locales.py:87-92 | list items that are not objects are returned unchanged, and object items are traversed |
| Locales.IdentityChangesNothing | libretranslate/locales.py:77-94 | traversing with the identity function changes nothing |
| Init.Missing | libretranslate/init.py:31-33 | the missing codes are exactly the requested codes that no package mentions |
| Init.UnavailableCodes | libretranslate/init.py:31-37 | the error lists each unavailable code once, sorted |
| Init.Keep | libretranslate/init.py:40-44 | kept packages are exactly those whose both codes were requested |
| Init.Select | libretranslate/init.py:28-46 | no filter keeps all packages; an unknown code is the "Unavailable language codes" error; an empty selection is "no available package" |
| Init.OneUnknownCode | libretranslate/init.py:31-38 | a single unknown code gives the message "Unavailable language codes: <code>." |
| Init.Matching | libretranslate/init.py:53-57 | the installed packages with the same language pair |
| Init.Updates | libretranslate/init.py:59-63 | an update is planned for each matching installed package with an older version |
| Init.PlanFor | libretranslate/init.py:50-68 | with force a package is installed; otherwise it is installed iff no installed package has its pair, and updated over each older installed one |
| Init.Plan | libretranslate/init.py:49-68 | over all kept packages: installs and updates as above, and nothing else |
| Init.CheckAndInstall | libretranslate/init.py:18-68 | nothing happens with two or more installed packages unless forced or updating; when the block runs it fails exactly when the `load_only` selection fails, with that ValueError; otherwise a selected package is installed iff forced or no installed package has its pair, and an installed package is updated to a selected one iff not forced, the pair matches and its version is older |
| Init.Boot | libretranslate/init.py:8-15 | a failing selection is swallowed and nothing is installed or updated; with neither flag and two or more installed packages nothing happens; updating updates exactly the older packages of a selected pair and installs exactly the selected packages whose pair is absent; installing (forced) installs every selected package and updates nothing; otherwise, when the block runs, it installs only the selected packages whose pair is absent and updates exactly the older installed packages of a selected pair |
| Init.LegacyCheckAndInstall | app/init.py:17-46 | the older check runs with fewer than two installed packages or when forced, and selects as above |
| Init.TransliterationCandidates | app/init.py:66-69 | every loaded code except "en" |
| Init.MissingArchives | app/init.py:72-79 | the candidates whose transliteration archive does not exist |
| Init.TransliterationNeeded | app/init.py:65-81 | with force, all candidates; otherwise the non-English codes without an archive |
| Init.LegacyBoot | app/init.py:9-14 | a selection error skips transliteration and installs nothing; a successful selection installs exactly the kept packages; whenever no selection error is raised, the transliteration languages are exactly the loaded codes other than "en" without an archive |
| Argv.Put | scripts/gunicorn_conf.py:28 | kwargs[k] = v: k then reads v, other keys read as before; a known key keeps its position, a new key is appended |
| Argv.PutKeepsDistinct | scripts/gunicorn_conf.py:28 | assigning into the dictionary never makes a second entry for a key |
| Argv.BuildArgv | scripts/gunicorn_conf.py:31-39 | argv starts with --wsgi, and each keyword adds its flag and, unless it is True, its value (with wsgi.py:6-13) |
| Argv.ArgvRoundTrip | scripts/gunicorn_conf.py:31-39 | reading the built argv back recovers the keywords when flags are distinct and values are not flags (with wsgi.py:6-13) |
| Argv.BoolArguments | scripts/gunicorn_conf.py:35-39 | True becomes a bare flag; False becomes the flag followed by the value False |
| Argv.Classify | scripts/gunicorn_conf.py:22-28 | "true" in any case gives True; "false" drops the piece; an empty value is an IndexError; a leading quote strips the first and last characters |
| Argv.ParsePiece | scripts/gunicorn_conf.py:17-28 | a piece without '=' is ignored; two or more '=' is an unpacking error; otherwise the stripped key and value are classified |
| Argv.ParsePieces | scripts/gunicorn_conf.py:16-28 | parsing fails iff some piece fails, and keys end up distinct |
| Argv.ParsePiecesSnoc | scripts/gunicorn_conf.py:16-28 | pieces are processed left to right, each writing into the dictionary |
| Argv.FalseKeepsEarlierValue | scripts/gunicorn_conf.py:22-25 | a later key=false piece does not remove an earlier value for that key |
| Argv.LaterPieceWins | scripts/gunicorn_conf.py:28 | the last piece for a key determines its value |
| Argv.ProcNameKwargs | scripts/gunicorn_conf.py:12-15 | only a process name starting with "wsgi:app" is parsed, by splitting the substituted text on commas |
| Argv.OnStartingArgv | scripts/gunicorn_conf.py:12-39 | without wsgi:app arguments argv is just --wsgi |
| Argv.SingleEquals | scripts/gunicorn_conf.py:17-20 | a piece k=v with a single '=' classifies k and the stripped v |
| Argv.QuotedValue | scripts/gunicorn_conf.py:26-27 | a quoted value loses its quotes |
| Argv.QuotedValueCutAtComma | scripts/gunicorn_conf.py:15 | a quoted value that was cut at a comma loses its opening quote and its last character (with scripts/gunicorn_conf.py:26-27) |
| Placeholders.Mask | scripts/update_locales.py:113-114 | masking with no placeholders leaves the text alone |
| Placeholders.Restore | scripts/update_locales.py:122-128 | restoring with no placeholders leaves the translation alone |
| Placeholders.TranslateEntry | scripts/update_locales.py:107-128 | without placeholders the entry goes through the plain translator |
| Placeholders.RoundTrip | scripts/update_locales.py:110-128 | for distinct placeholders that are not prefixes of one another, an identity translator gives back the original msgid (with update_locales.py:72-90) |
| Placeholders.MaskStages | scripts/update_locales.py:113-114 | after k masking rounds the first k placeholders are replaced by their tags |
| Placeholders.RestoreStages | scripts/update_locales.py:122-125 | after k restoring rounds the first k tags are replaced by their placeholders |
| Placeholders.DroppedTagsAppended | scripts/update_locales.py:126-128 | tags missing from the translation make their placeholders appended, each after a space |
| Placeholders.DuplicateMasked | scripts/update_locales.py:111-114 | a placeholder found twice is masked entirely by the first round, leaving no <x>1</x> |
| Placeholders.DuplicateRestored | scripts/update_locales.py:122-128 | so restoring appends the placeholder a second time |
| Placeholders.DuplicateAppended | scripts/update_locales.py:107-128 | a msgid with one placeholder that findall reports twice comes back with the placeholder appended |
| Placeholders.TagsBlock | scripts/update_locales.py:114 | no tag <x>k</x> can occur inside another tag's text, so replacing one tag never touches another |

## Left out

- Redis storage: only its increment (HINCRBY) is modelled, to compare it with the memory store. The rest of `RedisStorage` is a network client.
- RemoteDatabase lookups over HTTP (`libretranslate/api_keys.py:89-112`) are not modelled; they are network I/O.
- The flask-limiter machinery that enforces the tier strings: the model computes the strings and the costs only.
- Limits.HourlyTierWithoutKey: the decay 0.75^(n-1) is exact rational arithmetic. Python computes it in floating point, which agrees while the products stay below 2^53.
- Limits.LimitsCost: the request duration is an integer number of milliseconds (`TicksPerSecond`), not a float of seconds.
- TranslationMemory.BestIndex: SQLite's order for rows that tie on last use and confidence is modelled as "earlier row first". Timestamps are whole seconds. Database errors are not modelled.
- TranslationCache.Read: decompression failures are a parameter, gzip works on text rather than bytes, and the seven-day expiry is not modelled. With the two stores of `libretranslate/storage.py` the stored value is not returned as bytes: the memory store's `get_str` returns `str()` of the gzip bytes, on which decompression fails so `hit` returns that text, and the Redis store's `.decode('utf-8')` raises UnicodeDecodeError on them. `TranslationCache.WriteThenRead` therefore holds for a store that returns the stored bytes unchanged, not for those two.
- `secret_bogus_match` and `get_emoji` are not part of this model. The gate takes whether a bogus secret matched as an input.
- Secret.Setup: the scheduler is a value listing its jobs. Timing, the background thread and the `atexit` shutdown are not modelled.
- Gate.AccessCheck: `access_check` never calls `flood.decrease`. The key-required answer is 400, not 403. The model follows the code on both.
- Storage.GetStr: `get_str` on a key that holds a hash namespace returns Python's `str()` of a dict, its repr; the model returns `ReprNotModelled` instead of that text.
- Defaults.GetValueInt: `int()` reads any Unicode decimal digit (general category Nd) and strips Unicode whitespace, and the model does too, with the digit runs of Unicode 15.0 as in Python 3.12; other Python versions have other tables. Non-decimal numerals such as superscripts, which `int()` rejects, are rejected. Python 3.12 also raises ValueError for a decimal string of more than 4300 digits (the default `sys.set_int_max_str_digits` limit), so such an `LT_*` value falls back to the default, while `Numbers.ParseInt` reads any length.
- Text.Lower: case mapping and `islower`/`isupper` are ASCII-only. Python's Unicode tables are not modelled.
- Sorting.SortBy: the contract states order and permutation but not stability; entries with equal names may come out in either order as far as the contract says.
- Locales.Collect: the JSON value of "reviewed" is a boolean or absent; other truthy values are not modelled. Filesystem listing order is the order of the input.
- ApiKeys.Expire: the age and length eviction of the ExpiringDict cache is an explicit `Expire` step.
- Argv: keyword values are booleans, strings or integers. `wsgi.py` returning `instance(*args)` rather than `instance` is not modelled, because the Flask app is outside the model.
- Argv.ProcNameKwargs: the `re.sub` result is an input, not computed from the process name.
- Placeholders.RoundTrip: the `re.findall` result is an input. The round trip is stated for placeholders that start with '%', contain no other '%' and no '<', and are not prefixes of one another. It also requires the literal text between placeholders to contain no '%' and no '<', so msgids that carry HTML markup are outside the stated round trip.
- Init: downloading and installing packages, polyglot downloads and the version parser are outside the model. Installs, updates and downloads are returned as planned actions, and version order is the parameter `older`.
- Security.PathTraversalCheck: POSIX paths only. The working directory is a parameter. Symbolic links are not resolved, as `abspath` does not resolve them either. The caller in `libretranslate/app.py` catches `security.SuspiciousFileOperationError`, a name the module does not define; the Flask handler is outside the model.
- Language: language detection and the rest of `language.py` are not modelled.

## Findings

| source | as written | input that shows it | evidently intended | confidence | as-written member | corrected member |
|---|---|---|---|---|---|---|
| libretranslate/flood.py:11-15 | `forgive_banned` indexes the result of the memory store's `get_all_hash_int` as a dict, but that result is a list of one-entry dicts | memory storage with any banned address: the first loop iteration indexes a list with a dict and raises | iterate over the address → count dict, as the Redis store returns it | high; not executed | Flood.ForgiveAsWritten | Flood.ForgiveStore |
| libretranslate/locales.py:13-19 | the skip test `d == 'en'` compares a joined path such as `…/locales/en` with "en", so it never holds | a reviewed `en` locale directory with LC_MESSAGES and meta.json | skip the English directory, since English is already the first entry | high; not executed | Locales.EnglishListedTwice | Locales.AvailableLocales |
| libretranslate/language.py:101-114 | when the source has no final mark and the translation is a single mark, the punctuation step drops that mark, and the case step then reads `translation[0]` of an empty string | source "Hi", translation "!": IndexError | return the emptied translation ("") instead of raising | medium; not executed | Language.EmptiedTranslationFails | Language.ImproveFormattingGuarded |
| libretranslate/language.py:94 | the last entry of `punctuation_chars` is the ideographic full stop mis-encoded as three characters (U+00E3 U+20AC U+201A), so `source_last_char in punctuation_chars` never holds for "。" | source "你好。", translation "Hello.": the result is "Hello" | the entry is "。", so the result is "Hello。" | high; not executed | Language.IdeographicStopDropped | Language.IntendedStopCopied |
| libretranslate/cache.py:28-46 | `hit` calls `get_str(cache_key, raw=True)` outside its `try`, and `cache` calls `set_str(cache_key, compressed, self.expire)`; both stores declare `get_str(key)` and `set_str(key, value)` only | any lookup raises TypeError; caching a dict raises TypeError, which the `except` swallows, so nothing is stored | read through a storage whose `get_str(key, raw=True)` returns the stored bytes unchanged and whose `set_str` accepts an expiry | high; not executed | TranslationCache.AsWrittenRoundTripFails | TranslationCache.WriteThenRead |
| libretranslate/app.py:254 | `create_app` calls `secret.setup(args)`, and so does `scripts/gunicorn_conf.py`, but `setup()` takes no argument | any application start: TypeError before the secrets are seeded | call `secret.setup()` | high; not executed | Secret.SetupAsWrittenRaises | Secret.Setup |

=== FILE: api_keys.dfy ===
/**
 * The API-key database of libretranslate/api_keys.py (`Database`) and of the
 * legacy app/api_keys.py. The sqlite table is a map from key to row (the key
 * is the primary key); the expiring lookup cache is a second map whose
 * entries are a row or a remembered miss. Expiry or eviction of a cache
 * entry is the explicit `Expire` operation.
 */
module ApiKeys {
  import opened Wrappers
  import Limits

  /** A cache entry: the row found, or the `False` stored for a miss. */
  datatype Cached<R> = Hit(row: R) | Miss

  datatype KeyDb<R> = KeyDb(table: map<string, R>, cache: map<string, Cached<R>>)

  /** The current variant's row: `(req_limit, char_limit)`. */
  type Row = Limits.KeyLimits

  /** The legacy variant's row is `req_limit` alone. */
  type LegacyRow = int

  function EmptyDb<R>(): KeyDb<R>
  {
    KeyDb(map[], map[])
  }

  /** What the table itself says about a key. */
  function TableAnswer<R>(db: KeyDb<R>, key: string): Option<R>
  {
    if key in db.table then Some(db.table[key]) else None
  }

  /** `lookup(api_key)`: the cache answers first; otherwise the table is read and its answer, miss included, is cached. */
  function Lookup<R>(db: KeyDb<R>, key: string): (r: (Option<R>, KeyDb<R>))
    ensures key in db.cache ==> r.1 == db
    ensures key in db.cache ==> (r.0.Some? <==> db.cache[key].Hit?)
    ensures key in db.cache && db.cache[key].Hit? ==> r.0 == Some(db.cache[key].row)
    ensures key !in db.cache ==> r.0 == TableAnswer(db, key)
    ensures key !in db.cache ==>
      (r.1.table == db.table && key in r.1.cache && r.1.cache == db.cache[key := r.1.cache[key]])
    ensures key in r.1.cache
  {
    if key in db.cache then
      match db.cache[key]
      case Hit(row) => (Some(row), db)
      case Miss => (None, db)
    else if key in db.table then
      (Some(db.table[key]), db.(cache := db.cache[key := Hit(db.table[key])]))
    else
      (None, db.(cache := db.cache[key := Miss]))
  }

  /** The cache agrees with the table on every key it holds. */
  ghost predicate Coherent<R>(db: KeyDb<R>)
  {
    forall k :: k in db.cache ==>
      (db.cache[k].Hit? <==> k in db.table) && (db.cache[k].Hit? ==> db.table[k] == db.cache[k].row)
  }

  /** While the cache is coherent, lookup answers what the table says and keeps the cache coherent. */
  lemma LookupCoherent<R>(db: KeyDb<R>, key: string)
    requires Coherent(db)
    ensures Lookup(db, key).0 == TableAnswer(db, key)
    ensures Coherent(Lookup(db, key).1)
  {
  }

  /** A second lookup of the same key answers the same and changes nothing. */
  lemma LookupIdempotent<R>(db: KeyDb<R>, key: string)
    ensures var (a, db1) := Lookup(db, key);
      Lookup(db1, key) == (a, db1)
  {
  }

  /** The key an `add` writes under: a caller-supplied key, or the fresh one for "auto". */
  function KeyFor(apiKey: string, freshKey: string): (k: string)
    ensures apiKey == "auto" ==> k == freshKey
    ensures apiKey != "auto" ==> k == apiKey
  {
    if apiKey == "auto" then freshKey else apiKey
  }

  /** `add(req_limit, api_key, char_limit)`: a char limit of 0 means none; any old row is replaced; the cache is not touched. */
  function Add(db: KeyDb<Row>, reqLimit: int, apiKey: string, charLimit: Option<int>, freshKey: string): (r: (Row, string, KeyDb<Row>))
    ensures r.1 == KeyFor(apiKey, freshKey)
    ensures r.0.reqLimit == reqLimit
    ensures r.0.charLimit == (if charLimit == Some(0) then None else charLimit)
    ensures r.2.table == db.table[r.1 := r.0] && r.2.cache == db.cache
  {
    var key := KeyFor(apiKey, freshKey);
    var row := Limits.KeyLimits(reqLimit, if charLimit == Some(0) then None else charLimit);
    (row, key, Remove(db, key).1.(table := Remove(db, key).1.table[key := row]))
  }

  /** `remove(api_key)`: the key's row is deleted, the cache is not touched, and the key is returned. */
  function Remove<R>(db: KeyDb<R>, key: string): (r: (string, KeyDb<R>))
    ensures r.0 == key
    ensures r.1.table == db.table - {key} && r.1.cache == db.cache
  {
    (key, db.(table := db.table - {key}))
  }

  /** The legacy `add(req_limit, api_key)`: returns `(api_key, req_limit)`. */
  function LegacyAdd(db: KeyDb<LegacyRow>, reqLimit: int, apiKey: string, freshKey: string): (r: (string, int, KeyDb<LegacyRow>))
    ensures r.0 == KeyFor(apiKey, freshKey) && r.1 == reqLimit
    ensures r.2.table == db.table[r.0 := reqLimit] && r.2.cache == db.cache
  {
    var key := KeyFor(apiKey, freshKey);
    (key, reqLimit, Remove(db, key).1.(table := Remove(db, key).1.table[key := reqLimit]))
  }

  /** The expiring dictionary drops a key's cache entry (age or size eviction). */
  function Expire<R>(db: KeyDb<R>, key: string): (r: KeyDb<R>)
    ensures r.table == db.table && key !in r.cache
    ensures forall k :: k in db.cache && k != key ==> k in r.cache && r.cache[k] == db.cache[k]
  {
    db.(cache := db.cache - {key})
  }

  /** After an add, a lookup of the added key finds the new row once no cache entry for it remains. */
  lemma AddThenLookup(db: KeyDb<Row>, reqLimit: int, apiKey: string, charLimit: Option<int>, freshKey: string)
    ensures var (row, key, db1) := Add(db, reqLimit, apiKey, charLimit, freshKey);
      Lookup(Expire(db1, key), key).0 == Some(row)
  {
  }

  /**
   * A cached miss hides a key added later: until the entry expires, lookup
   * still answers None. Adds never refresh the cache.
   */
  lemma CachedMissIsStale(db: KeyDb<Row>, key: string, reqLimit: int, charLimit: Option<int>, freshKey: string)
    requires key != "auto" && key !in db.table && key !in db.cache
    ensures var db1 := Lookup(db, key).1;
      var db2 := Add(db1, reqLimit, key, charLimit, freshKey).2;
      key in db2.table && Lookup(db2, key).0 == None
  {
  }

  /** Likewise a cached row outlives its removal from the table. */
  lemma CachedRowOutlivesRemoval<R>(db: KeyDb<R>, key: string)
    requires key in db.table && key !in db.cache
    ensures var db1 := Lookup(db, key).1;
      var db2 := Remove(db1, key).1;
      key !in db2.table && Lookup(db2, key).0 == Some(db.table[key])
  {
  }

  /** An add keeps one row per key: adding twice under the same key leaves only the second row. */
  lemma AddReplaces(db: KeyDb<Row>, key: string, l1: int, l2: int, c1: Option<int>, c2: Option<int>, freshKey: string)
    requires key != "auto"
    ensures var db1 := Add(db, l1, key, c1, freshKey).2;
      var (row2, _, db2) := Add(db1, l2, key, c2, freshKey);
      db2.table == db.table[key := row2] && |db2.table.Keys| == |(db.table.Keys + {key})|
  {
  }
}

=== FILE: argv.dfy ===
/**
 * The command line the server builds for itself when started under a WSGI
 * host: wsgi.py turns the keyword arguments of `app(...)` into `sys.argv`,
 * and scripts/gunicorn_conf.py first recovers those keyword arguments from
 * gunicorn's process name. The regular-expression substitution that cuts
 * the argument text out of the process name is an input.
 */
module Argv {
  import opened Wrappers
  import opened Text

  /** A keyword argument's value. */
  datatype KwValue = KBool(b: bool) | KStr(s: string) | KInt(i: int)

  /** An element of `sys.argv`: the source appends values without converting them. */
  datatype Arg = Word(w: string) | Bool(b: bool) | Num(i: int)

  /** Keyword arguments in insertion order, as a Python dict keeps them. */
  type Kwargs = seq<(string, KwValue)>

  predicate KeysDistinct(kw: Kwargs)
  {
    forall i, j :: 0 <= i < j < |kw| ==> kw[i].0 != kw[j].0
  }

  function Lookup(kw: Kwargs, k: string): (r: Option<KwValue>)
    ensures r.None? <==> forall i :: 0 <= i < |kw| ==> kw[i].0 != k
  {
    if |kw| == 0 then None
    else if kw[0].0 == k then Some(kw[0].1)
    else Lookup(kw[1..], k)
  }

  /** `kwargs[k] = v`: a known key keeps its place and takes the new value; a new key goes last. */
  function Put(kw: Kwargs, k: string, v: KwValue): (r: Kwargs)
    ensures Lookup(r, k) == Some(v)
    ensures forall j :: j != k ==> Lookup(r, j) == Lookup(kw, j)
    ensures Lookup(kw, k).Some? ==> |r| == |kw| && forall i :: 0 <= i < |kw| ==> r[i].0 == kw[i].0
    ensures Lookup(kw, k).None? ==> r == kw + [(k, v)]
  {
    if |kw| == 0 then [(k, v)]
    else if kw[0].0 == k then
      LookupCons((k, v), kw[1..]);
      LookupCons(kw[0], kw[1..]);
      assert kw == [kw[0]] + kw[1..];
      [(k, v)] + kw[1..]
    else
      var rest := Put(kw[1..], k, v);
      LookupCons(kw[0], rest);
      LookupCons(kw[0], kw[1..]);
      assert kw == [kw[0]] + kw[1..];
      assert Lookup(kw[1..], k).None? ==> [kw[0]] + rest == kw + [(k, v)];
      [kw[0]] + rest
  }

  /** Writing a key keeps the keys distinct: a known key stays where it was, and a new one is not among the others. */
  lemma PutKeepsDistinct(kw: Kwargs, k: string, v: KwValue)
    requires KeysDistinct(kw)
    ensures KeysDistinct(Put(kw, k, v))
  {
    var r := Put(kw, k, v);
    if Lookup(kw, k).None? {
      assert forall i :: 0 <= i < |kw| ==> r[i] == kw[i];
    }
  }

  /** Looking a key up in a list with one more entry in front. */
  lemma LookupCons(e: (string, KwValue), kw: Kwargs)
    ensures forall j :: Lookup([e] + kw, j) == if e.0 == j then Some(e.1) else Lookup(kw, j)
  {
    assert ([e] + kw)[1..] == kw;
  }

  /** `"--" + k.replace("_", "-")`. */
  function Flag(k: string): (f: string)
    ensures "--" <= f
  {
    "--" + ReplaceAll(k, "_", "-")
  }

  predicate IsFlag(a: Arg)
  {
    a.Word? && "--" <= a.w
  }

  /** What one keyword argument adds: the flag alone for `True`, otherwise the flag and the value. */
  function ArgsFor(k: string, v: KwValue): (r: seq<Arg>)
    ensures |r| > 0 && r[0] == Word(Flag(k))
  {
    if v == KBool(true) then [Word(Flag(k))]
    else
      [Word(Flag(k)), match v case KBool(b) => Bool(b) case KStr(s) => Word(s) case KInt(i) => Num(i)]
  }

  function ArgsOf(kw: Kwargs): (r: seq<Arg>)
    ensures |kw| > 0 ==> |r| > 0 && IsFlag(r[0])
  {
    if |kw| == 0 then [] else ArgsFor(kw[0].0, kw[0].1) + ArgsOf(kw[1..])
  }

  /** `sys.argv` as both wsgi.py and scripts/gunicorn_conf.py build it. */
  function BuildArgv(kw: Kwargs): (argv: seq<Arg>)
    ensures |argv| >= 1 + |kw| && argv[0] == Word("--wsgi")
    ensures |argv| <= 1 + 2 * |kw|
  {
    ArgsLength(kw);
    [Word("--wsgi")] + ArgsOf(kw)
  }

  lemma {:induction false} ArgsLength(kw: Kwargs)
    ensures |kw| <= |ArgsOf(kw)| <= 2 * |kw|
  {
    if |kw| > 0 {
      ArgsLength(kw[1..]);
    }
  }

  /** An argument that is not a flag, read back as a value. */
  function ValueOf(a: Arg): KwValue
  {
    match a
    case Word(w) => KStr(w)
    case Bool(b) => KBool(b)
    case Num(i) => KInt(i)
  }

  /**
   * Reads keyword arguments back from the arguments after "--wsgi", the way
   * an option parser pairs them: a flag followed by a non-flag takes it as
   * its value, a flag followed by a flag or by nothing is `True`.
   */
  function ReadArgs(args: seq<Arg>): (r: Option<Kwargs>)
    decreases |args|
  {
    if |args| == 0 then Some([])
    else if !IsFlag(args[0]) then None
    else
      var key := ReplaceAll(args[0].w[2..], "-", "_");
      if |args| > 1 && !IsFlag(args[1]) then
        match ReadArgs(args[2..])
        case None => None
        case Some(rest) => Some([(key, ValueOf(args[1]))] + rest)
      else
        match ReadArgs(args[1..])
        case None => None
        case Some(rest) => Some([(key, KBool(true))] + rest)
  }

  /**
   * The argument list loses nothing when no key contains '-' (which would
   * read back as '_') and no string value starts with "--" (which would
   * read back as a flag).
   */
  predicate Recoverable(kw: Kwargs)
  {
    forall i :: 0 <= i < |kw| ==> '-' !in kw[i].0 && !(kw[i].1.KStr? && "--" <= kw[i].1.s)
  }

  /** Reading one entry's arguments in front of a list that starts with a flag. */
  lemma ReadArgsStep(k: string, v: KwValue, rest: seq<Arg>)
    requires '-' !in k && !(v.KStr? && "--" <= v.s)
    requires |rest| == 0 || IsFlag(rest[0])
    ensures ReadArgs(ArgsFor(k, v) + rest) ==
      match ReadArgs(rest) case None => None case Some(kw) => Some([(k, v)] + kw)
  {
    var args := ArgsFor(k, v) + rest;
    assert args[0] == Word(Flag(k));
    assert Flag(k)[2..] == ReplaceAll(k, "_", "-");
    ReplaceCharRoundTrip(k, '_', '-');
    if v == KBool(true) {
      assert args[1..] == rest;
    } else {
      assert !IsFlag(args[1]);
      assert ValueOf(args[1]) == v;
      assert args[2..] == rest;
    }
  }

  lemma {:induction false} ReadArgsOf(kw: Kwargs)
    requires Recoverable(kw)
    ensures ReadArgs(ArgsOf(kw)) == Some(kw)
  {
    if |kw| > 0 {
      ReadArgsOf(kw[1..]);
      ReadArgsStep(kw[0].0, kw[0].1, ArgsOf(kw[1..]));
      assert kw == [kw[0]] + kw[1..];
    }
  }

  /** Round trip: reading the built argument list gives the keyword arguments back. */
  lemma ArgvRoundTrip(kw: Kwargs)
    requires Recoverable(kw)
    ensures ReadArgs(BuildArgv(kw)[1..]) == Some(kw)
  {
    ReadArgsOf(kw);
    assert BuildArgv(kw)[1..] == ArgsOf(kw);
  }

  /** `True` is a bare flag and `False` is a flag followed by the value `False`. */
  lemma BoolArguments(k: string)
    ensures BuildArgv([(k, KBool(true))]) == [Word("--wsgi"), Word(Flag(k))]
    ensures BuildArgv([(k, KBool(false))]) == [Word("--wsgi"), Word(Flag(k)), Bool(false)]
  {
    assert [(k, KBool(true))][1..] == [];
    assert ArgsOf([(k, KBool(true))]) == [Word(Flag(k))] + ArgsOf([]);
    assert [(k, KBool(false))][1..] == [];
  }

  // ----- scripts/gunicorn_conf.py -----

  /** The two exceptions the parsing can raise: a piece with two '=', or an empty value. */
  datatype ConfError = UnpackError | IndexError

  /** The value rule: "true"/"false" in any case become booleans (false ones are dropped), and a leading quote strips the first and last characters. */
  function Classify(k: string, v: string): (r: Result<Option<(string, KwValue)>, ConfError>)
    ensures r == Ok(None) <==> Lower(v) == "false"
    ensures r == Err(IndexError) <==> v == ""
    ensures r.Ok? && r.value.Some? ==> r.value.value.0 == k
    ensures r == Ok(Some((k, KBool(true)))) <==> Lower(v) == "true"
    ensures Lower(v) != "true" && Lower(v) != "false" && |v| > 0 && v[0] != '"' ==> r == Ok(Some((k, KStr(v))))
    ensures Lower(v) != "true" && Lower(v) != "false" && |v| > 0 && v[0] == '"' ==>
      (r.Ok? && r.value.Some? && r.value.value.1.KStr? &&
       (|v| >= 2 ==> v == [v[0]] + r.value.value.1.s + [v[|v| - 1]]) &&
       (|v| < 2 ==> r.value.value.1.s == ""))
  {
    if Lower(v) == "true" || Lower(v) == "false" then
      if Lower(v) == "true" then Ok(Some((k, KBool(true)))) else Ok(None)
    else if |v| == 0 then Err(IndexError)
    else if v[0] == '"' then
      var inner := if |v| >= 2 then v[1..|v| - 1] else "";
      assert |v| >= 2 ==> v == [v[0]] + inner + [v[|v| - 1]];
      Ok(Some((k, KStr(inner))))
    else Ok(Some((k, KStr(v))))
  }

  /**
   * One comma-separated piece: without '=' it is ignored; with two or more
   * the unpacking fails; with one, the stripped text on each side is the
   * key and the value.
   */
  function ParsePiece(a: string): (r: Result<Option<(string, KwValue)>, ConfError>)
    ensures '=' !in a ==> r == Ok(None)
    ensures multiset(a)['='] >= 2 ==> r == Err(UnpackError)
    ensures multiset(a)['='] == 1 ==>
      var i := FirstIndex(a, '=').value;
      r == Classify(Strip(a[..i]), Strip(a[i + 1..]))
  {
    ContainsChar(a, '=');
    SplitCount(a, '=', []);
    if !Contains(a, "=") then Ok(None)
    else
      var parts := Split(a, "=");
      if |parts| != 2 then Err(UnpackError)
      else
        SplitAtSingle(a);
        Classify(Strip(parts[0]), Strip(parts[1]))
  }

  /** A character counted once does not occur after the position holding it. */
  lemma OnlyOccurrence(a: string, i: nat, c: char)
    requires i < |a| && a[i] == c && multiset(a)[c] == 1
    ensures c !in a[i + 1..]
  {
    assert a == a[..i + 1] + a[i + 1..];
    assert multiset(a) == multiset(a[..i + 1]) + multiset(a[i + 1..]);
    assert a[..i + 1][i] == c;
    assert c in multiset(a[..i + 1]);
    assert multiset(a[i + 1..])[c] == 0;
  }

  /** Splitting at the only '=' gives the text before it and the text after it. */
  lemma SplitAtSingle(a: string)
    requires multiset(a)['='] == 1
    ensures FirstIndex(a, '=').Some?
    ensures var i := FirstIndex(a, '=').value; Split(a, "=") == [a[..i], a[i + 1..]]
  {
    assert '=' in multiset(a);
    var i := FirstIndex(a, '=').value;
    OnlyOccurrence(a, i, '=');
    SplitFromAt(a, '=', [], i);
    SplitFromAbsent(a[i + 1..], '=', []);
    assert [] + a[..i] == a[..i];
    assert [] + a[i + 1..] == a[i + 1..];
  }

  /** Some piece raises. */
  predicate AnyFails(pieces: seq<string>)
  {
    exists i :: 0 <= i < |pieces| && ParsePiece(pieces[i]).Err?
  }

  lemma AnyFailsCons(pieces: seq<string>)
    requires |pieces| > 0
    ensures AnyFails(pieces) <==> ParsePiece(pieces[0]).Err? || AnyFails(pieces[1..])
  {
    if AnyFails(pieces[1..]) {
      var i :| 0 <= i < |pieces[1..]| && ParsePiece(pieces[1..][i]).Err?;
      assert pieces[i + 1] == pieces[1..][i];
    }
    if AnyFails(pieces) && !ParsePiece(pieces[0]).Err? {
      var i :| 0 <= i < |pieces| && ParsePiece(pieces[i]).Err?;
      assert pieces[1..][i - 1] == pieces[i];
    }
  }

  /** The loop over the pieces, filling `kwargs`. */
  function ParsePieces(pieces: seq<string>, acc: Kwargs): (r: Result<Kwargs, ConfError>)
    requires KeysDistinct(acc)
    ensures r.Ok? ==> KeysDistinct(r.value)
    ensures r.Err? <==> AnyFails(pieces)
    decreases |pieces|
  {
    if |pieces| == 0 then Ok(acc)
    else
      var p := ParsePiece(pieces[0]);
      AnyFailsCons(pieces);
      if p.Err? then Err(p.error)
      else
        var next := if p.value.Some? then Put(acc, p.value.value.0, p.value.value.1) else acc;
        assert KeysDistinct(next) by {
          if p.value.Some? {
            PutKeepsDistinct(acc, p.value.value.0, p.value.value.1);
          }
        }
        ParsePieces(pieces[1..], next)
  }

  /** The effect of one more piece at the end. */
  lemma {:induction false} ParsePiecesSnoc(pieces: seq<string>, q: string, acc: Kwargs)
    requires KeysDistinct(acc)
    ensures ParsePieces(pieces + [q], acc) ==
      match ParsePieces(pieces, acc)
      case Err(e) => Err(e)
      case Ok(kw) =>
        match ParsePiece(q)
        case Err(e) => Err(e)
        case Ok(None) => Ok(kw)
        case Ok(Some((k, v))) => Ok(Put(kw, k, v))
    decreases |pieces|
  {
    if |pieces| == 0 {
      assert pieces + [q] == [q];
    } else {
      assert (pieces + [q])[0] == pieces[0];
      assert (pieces + [q])[1..] == pieces[1..] + [q];
      var p := ParsePiece(pieces[0]);
      if p.Ok? {
        var next := if p.value.Some? then Put(acc, p.value.value.0, p.value.value.1) else acc;
        if p.value.Some? {
          PutKeepsDistinct(acc, p.value.value.0, p.value.value.1);
        }
        ParsePiecesSnoc(pieces[1..], q, next);
      }
    }
  }

  /** A later "k=false" does not remove an earlier value of `k`: the false entry is skipped, not stored. */
  lemma FalseKeepsEarlierValue(pieces: seq<string>, q: string, k: string)
    requires ParsePieces(pieces, []).Ok? && Lookup(ParsePieces(pieces, []).value, k).Some?
    requires ParsePiece(q) == Ok(None)
    ensures ParsePieces(pieces + [q], []) == ParsePieces(pieces, [])
  {
    ParsePiecesSnoc(pieces, q, []);
  }

  /** A later "k=value" overrides an earlier one. */
  lemma LaterPieceWins(pieces: seq<string>, q: string, k: string, v: KwValue)
    requires ParsePieces(pieces, []).Ok?
    requires ParsePiece(q) == Ok(Some((k, v)))
    ensures ParsePieces(pieces + [q], []).Ok?
    ensures Lookup(ParsePieces(pieces + [q], []).value, k) == Some(v)
  {
    ParsePiecesSnoc(pieces, q, []);
  }

  /** `on_starting`'s keyword arguments: only a process name starting with "wsgi:app" has any. */
  function ProcNameKwargs(procName: string, substituted: string): (r: Result<Kwargs, ConfError>)
    ensures !("wsgi:app" <= procName) ==> r == Ok([])
    ensures "wsgi:app" <= procName ==> r == ParsePieces(Split(Strip(substituted), ","), [])
    ensures r.Ok? ==> KeysDistinct(r.value)
  {
    if "wsgi:app" <= procName then ParsePieces(Split(Strip(substituted), ","), []) else Ok([])
  }

  /** `sys.argv` as `on_starting` leaves it. */
  function OnStartingArgv(procName: string, substituted: string): (r: Result<seq<Arg>, ConfError>)
    ensures !("wsgi:app" <= procName) ==> r == Ok([Word("--wsgi")])
    ensures r.Ok? ==> |r.value| > 0 && r.value[0] == Word("--wsgi")
  {
    var kw :- ProcNameKwargs(procName, substituted);
    assert BuildArgv([]) == [Word("--wsgi")] by {
      assert ArgsOf([]) == [];
    }
    Ok(BuildArgv(kw))
  }

  /** A piece with a single '=' whose key carries no surrounding blanks: the key is the text before it. */
  lemma SingleEquals(k: string, v: string)
    requires '=' !in k && '=' !in v
    requires |k| > 0 ==> !IsSpace(k[0]) && !IsSpace(k[|k| - 1])
    ensures ParsePiece(k + "=" + v) == Classify(k, Strip(v))
  {
    var a := k + "=" + v;
    assert multiset(a)['='] == 1 by {
      assert multiset(a) == multiset(k) + multiset("=") + multiset(v);
    }
    var i := FirstIndex(a, '=').value;
    assert a[|k|] == '=';
    assert a[..i] == k;
    assert a[i + 1..] == v;
    StripNoSpace(k);
  }

  /** A quoted value's classification: the text between the first and the last character. */
  lemma QuotedClassify(k: string, v: string, inner: string)
    requires |v| >= 2 && v[0] == '"' && v == [v[0]] + inner + [v[|v| - 1]]
    ensures Classify(k, v) == Ok(Some((k, KStr(inner))))
  {
    assert Lower(v)[0] == '"';
    assert Lower(v) != "true" && Lower(v) != "false";
    var r := Classify(k, v);
    assert inner == v[1..|v| - 1];
    assert r.value.value.1.s == v[1..|v| - 1];
  }

  lemma OpenQuoteShape(s: string)
    requires |s| > 0
    ensures var v := "\"" + s; |v| >= 2 && v[0] == '"' && v == [v[0]] + s[..|s| - 1] + [v[|v| - 1]]
    ensures '=' !in s ==> '=' !in "\"" + s
    ensures !IsSpace(s[|s| - 1]) ==> !IsSpace(("\"" + s)[|s|])
  {
    var v := "\"" + s;
    assert v[|v| - 1] == s[|s| - 1];
    assert s == s[..|s| - 1] + [s[|s| - 1]];
  }

  /** `k="s"` gives the string between the quotes ... */
  lemma QuotedValue(k: string, s: string)
    requires '=' !in k && '=' !in s
    requires |k| > 0 ==> !IsSpace(k[0]) && !IsSpace(k[|k| - 1])
    ensures ParsePiece(k + "=" + ("\"" + s + "\"")) == Ok(Some((k, KStr(s))))
  {
    var v := "\"" + s + "\"";
    assert '=' !in v;
    calc {
      ParsePiece(k + "=" + v);
      { SingleEquals(k, v); }
      Classify(k, Strip(v));
      { StripNoSpace(v); }
      Classify(k, v);
      { QuotedClassify(k, v, s); }
      Ok(Some((k, KStr(s))));
    }
  }

  /**
   * ... but a quoted value containing a comma is cut there, and the cut
   * piece `k="s` loses the last character of `s` along with the quote.
   */
  lemma QuotedValueCutAtComma(k: string, s: string)
    requires '=' !in k && '=' !in s && |s| > 0
    requires |k| > 0 ==> !IsSpace(k[0]) && !IsSpace(k[|k| - 1])
    requires !IsSpace(s[|s| - 1])
    ensures ParsePiece(k + "=" + ("\"" + s)) == Ok(Some((k, KStr(s[..|s| - 1]))))
  {
    var v := "\"" + s;
    OpenQuoteShape(s);
    calc {
      ParsePiece(k + "=" + v);
      { SingleEquals(k, v); }
      Classify(k, Strip(v));
      { StripNoSpace(v); }
      Classify(k, v);
      { QuotedClassify(k, v, s[..|s| - 1]); }
      Ok(Some((k, KStr(s[..|s| - 1]))));
    }
  }
}

=== FILE: defaults.dfy ===
/**
 * The `LT_*` environment parsing of libretranslate/default_values.py and its
 * legacy copy app/default_values.py (the helpers are the same; the option
 * lists differ). The process environment is a map.
 */
module Defaults {
  import opened Wrappers
  import opened Numbers
  import Text

  /** A default or parsed value: a string, an int, a bool or None. */
  datatype Value = VStr(s: string) | VInt(i: int) | VBool(b: bool) | VNone

  /** One entry of `_default_options_objects`. */
  datatype Spec = Spec(name: string, defaultValue: Value, valueType: string)

  type Env = map<string, string>

  const Prefix := "LT_"

  const FalseSpellings: seq<string> := ["FALSE", "False", "false", "0"]
  const TrueSpellings: seq<string> := ["TRUE", "True", "true", "1"]

  /** `_get_value_str`: the variable's text whenever it is set, even when empty. */
  function GetValueStr(env: Env, name: string, defaultValue: Value): (v: Value)
    ensures name in env ==> v == VStr(env[name])
    ensures name !in env ==> v == defaultValue
  {
    if name in env then VStr(env[name]) else defaultValue
  }

  /** `_get_value_int`: `int()` of the variable, the default when it is unset or `int()` raises. */
  function GetValueInt(env: Env, name: string, defaultValue: Value): (v: Value)
    ensures name in env && ParseInt(env[name]).Some? ==> v == VInt(ParseInt(env[name]).value)
    ensures name !in env || ParseInt(env[name]).None? ==> v == defaultValue
  {
    if name in env then
      match ParseInt(env[name])
      case Some(i) => VInt(i)
      case None => defaultValue
    else defaultValue
  }

  /** `_get_value_bool`: four spellings each of false and true; anything else, unset included, gives the default. */
  function GetValueBool(env: Env, name: string, defaultValue: Value): (v: Value)
    ensures name in env && env[name] in FalseSpellings ==> v == VBool(false)
    ensures name in env && env[name] in TrueSpellings ==> v == VBool(true)
    ensures name !in env || (env[name] !in FalseSpellings && env[name] !in TrueSpellings) ==> v == defaultValue
  {
    if name in env && env[name] in FalseSpellings then VBool(false)
    else if name in env && env[name] in TrueSpellings then VBool(true)
    else defaultValue
  }

  /** `_get_value(name, default_value, value_type)`: read "LT_" + name with the parser the type names. */
  function GetValue(env: Env, spec: Spec): (v: Value)
    ensures spec.valueType == "str" ==> v == GetValueStr(env, Prefix + spec.name, spec.defaultValue)
    ensures spec.valueType == "int" ==> v == GetValueInt(env, Prefix + spec.name, spec.defaultValue)
    ensures spec.valueType == "bool" ==> v == GetValueBool(env, Prefix + spec.name, spec.defaultValue)
    ensures spec.valueType !in {"str", "int", "bool"} ==> v == spec.defaultValue
    ensures Prefix + spec.name !in env ==> v == spec.defaultValue
  {
    var envName := Prefix + spec.name;
    if spec.valueType == "str" then GetValueStr(env, envName, spec.defaultValue)
    else if spec.valueType == "int" then GetValueInt(env, envName, spec.defaultValue)
    else if spec.valueType == "bool" then GetValueBool(env, envName, spec.defaultValue)
    else spec.defaultValue
  }

  /** The spellings the bool parser accepts are exactly these eight. */
  lemma BoolSpellings(env: Env, name: string, d: Value)
    requires name in env
    ensures GetValueBool(env, name, d) == VBool(false) && d != VBool(false) ==>
      env[name] == "FALSE" || env[name] == "False" || env[name] == "false" || env[name] == "0"
    ensures GetValueBool(env, name, d) == VBool(true) && d != VBool(true) ==>
      env[name] == "TRUE" || env[name] == "True" || env[name] == "true" || env[name] == "1"
    ensures env[name] == "yes" ==> GetValueBool(env, name, d) == d
  {
  }

  /** An empty string is a value for a string option, but not for an int option. */
  lemma EmptyVariable(env: Env, name: string, d: Value)
    requires name in env && env[name] == ""
    ensures GetValueStr(env, name, d) == VStr("")
    ensures GetValueInt(env, name, d) == d
  {
  }

  /** The names of a list of options. */
  function Names(specs: seq<Spec>): set<string>
  {
    set s | s in specs :: s.name
  }

  lemma NamesListed(specs: seq<Spec>)
    ensures forall i :: 0 <= i < |specs| ==> specs[i].name in Names(specs)
  {
    forall i | 0 <= i < |specs| ensures specs[i].name in Names(specs) {
      assert specs[i] in specs;
    }
  }

  /** No later option repeats the name of option `i`. */
  predicate NameUnique(specs: seq<Spec>, i: nat)
    requires i < |specs|
  {
    forall j :: i < j < |specs| ==> specs[j].name != specs[i].name
  }

  /** `{obj['name']: _get_value(**obj) for obj in options}`: a later entry with the same name overwrites an earlier one. */
  function Arguments(env: Env, specs: seq<Spec>): (args: map<string, Value>)
    ensures args.Keys == Names(specs)
    ensures forall i :: 0 <= i < |specs| && NameUnique(specs, i) ==> args[specs[i].name] == GetValue(env, specs[i])
  {
    if |specs| == 0 then map[]
    else
      var init := specs[..|specs| - 1];
      var last := specs[|specs| - 1];
      assert specs == init + [last];
      NamesSnoc(init, last);
      NameUniqueSnoc(init, last);
      Arguments(env, init)[last.name := GetValue(env, last)]
  }

  lemma NamesSnoc(init: seq<Spec>, last: Spec)
    ensures Names(init + [last]) == Names(init) + {last.name}
  {
    var specs := init + [last];
    assert forall s :: s in specs <==> s in init || s == last;
  }

  /** An option whose name no later option repeats is unique in the shorter list too, and differs from the appended one. */
  lemma NameUniqueSnoc(init: seq<Spec>, last: Spec)
    ensures forall i :: 0 <= i < |init| && NameUnique(init + [last], i) ==>
      (init + [last])[i] == init[i] && NameUnique(init, i) && init[i].name != last.name
  {
    var specs := init + [last];
    forall i | 0 <= i < |init| && NameUnique(specs, i)
      ensures NameUnique(init, i) && init[i].name != last.name
    {
      assert specs[|init|] == last;
      assert forall j :: i < j < |init| ==> specs[j] == init[j];
    }
  }

  /** The options of libretranslate/default_values.py. */
  const Options: seq<Spec> := [
    Spec("HOST", VStr("127.0.0.1"), "str"),
    Spec("PORT", VInt(5000), "int"),
    Spec("CHAR_LIMIT", VInt(-1), "int"),
    Spec("REQ_LIMIT", VInt(-1), "int"),
    Spec("REQ_LIMIT_STORAGE", VStr("memory://"), "str"),
    Spec("DAILY_REQ_LIMIT", VInt(-1), "int"),
    Spec("REQ_FLOOD_THRESHOLD", VInt(-1), "int"),
    Spec("BATCH_LIMIT", VInt(-1), "int"),
    Spec("GA_ID", VNone, "str"),
    Spec("DEBUG", VBool(false), "bool"),
    Spec("SSL", VNone, "bool"),
    Spec("FRONTEND_LANGUAGE_SOURCE", VStr("auto"), "str"),
    Spec("FRONTEND_LANGUAGE_TARGET", VStr("locale"), "str"),
    Spec("FRONTEND_TIMEOUT", VInt(500), "int"),
    Spec("API_KEYS", VBool(false), "bool"),
    Spec("API_KEYS_DB_PATH", VStr("db/api_keys.db"), "str"),
    Spec("API_KEYS_REMOTE", VStr(""), "str"),
    Spec("GET_API_KEY_LINK", VStr(""), "str"),
    Spec("REQUIRE_API_KEY_ORIGIN", VStr(""), "str"),
    Spec("REQUIRE_API_KEY_SECRET", VBool(false), "bool"),
    Spec("SHARED_STORAGE", VStr("memory://"), "str"),
    Spec("LOAD_ONLY", VNone, "str"),
    Spec("THREADS", VInt(4), "int"),
    Spec("SUGGESTIONS", VBool(false), "bool"),
    Spec("DISABLE_FILES_TRANSLATION", VBool(false), "bool"),
    Spec("DISABLE_WEB_UI", VBool(false), "bool"),
    Spec("UPDATE_MODELS", VBool(false), "bool"),
    Spec("FORCE_UPDATE_MODELS", VBool(false), "bool"),
    Spec("METRICS", VBool(false), "bool"),
    Spec("METRICS_AUTH_TOKEN", VStr(""), "str"),
    Spec("URL_PREFIX", VStr(""), "str")
  ]

  /** The options of app/default_values.py. */
  const LegacyOptions: seq<Spec> := [
    Spec("HOST", VStr("127.0.0.1"), "str"),
    Spec("PORT", VInt(5000), "int"),
    Spec("CHAR_LIMIT", VInt(-1), "int"),
    Spec("REQ_LIMIT", VInt(-1), "int"),
    Spec("DAILY_REQ_LIMIT", VInt(-1), "int"),
    Spec("REQ_FLOOD_THRESHOLD", VInt(-1), "int"),
    Spec("BATCH_LIMIT", VInt(-1), "int"),
    Spec("GA_ID", VNone, "str"),
    Spec("DEBUG", VBool(false), "bool"),
    Spec("SSL", VNone, "bool"),
    Spec("FRONTEND_LANGUAGE_SOURCE", VStr("en"), "str"),
    Spec("FRONTEND_LANGUAGE_TARGET", VStr("es"), "str"),
    Spec("FRONTEND_TIMEOUT", VInt(500), "int"),
    Spec("API_KEYS", VBool(false), "bool"),
    Spec("REQUIRE_API_KEY_ORIGIN", VStr(""), "str"),
    Spec("LOAD_ONLY", VNone, "str")
  ]

  function DefaultArguments(env: Env): (args: map<string, Value>)
    ensures args.Keys == Names(Options)
    ensures forall i :: 0 <= i < |Options| ==> Options[i].name in args && args[Options[i].name] == GetValue(env, Options[i])
  {
    OptionNamesDistinct();
    NamesListed(Options);
    Arguments(env, Options)
  }

  function LegacyDefaultArguments(env: Env): (args: map<string, Value>)
    ensures args.Keys == Names(LegacyOptions)
    ensures forall i :: 0 <= i < |LegacyOptions| ==> LegacyOptions[i].name in args && args[LegacyOptions[i].name] == GetValue(env, LegacyOptions[i])
  {
    OptionNamesDistinct();
    NamesListed(LegacyOptions);
    Arguments(env, LegacyOptions)
  }

  /** With no variable set, every option takes its listed default. */
  lemma UnsetEnvironmentGivesDefaults(specs: seq<Spec>, i: nat)
    requires i < |specs| && NameUnique(specs, i)
    ensures Arguments(map[], specs)[specs[i].name] == specs[i].defaultValue
  {
  }

  /** Setting LT_PORT to a number's decimal text sets the port to that number. */
  lemma PortFromEnvironment(n: nat)
    ensures GetValue(map["LT_PORT" := NatToString(n)], Spec("PORT", VInt(5000), "int")) == VInt(n)
  {
    assert Prefix + "PORT" == "LT_PORT";
    ParseIntToString(n);
  }

  /** Setting LT_PORT to a word that `int()` rejects, such as "eighty", keeps 5000. */
  lemma PortFallsBack(word: string)
    requires |word| > 0 && Text.IsLowerChar(word[0]) && !Text.IsSpace(word[|word| - 1])
    ensures GetValue(map["LT_PORT" := word], Spec("PORT", VInt(5000), "int")) == VInt(5000)
  {
    assert Prefix + "PORT" == "LT_PORT";
    Text.StripNoSpace(word);
    assert !IsDigit(word[0]);
  }

  // Distinctness is proved in index ranges, since one proof over all 465 pairs is expensive.
  lemma OptionsUnique0()
    ensures forall i :: 0 <= i < 2 ==> NameUnique(Options, i)
  {
  }

  lemma OptionsUnique2()
    ensures forall i :: 2 <= i < 4 ==> NameUnique(Options, i)
  {
  }

  lemma OptionsUnique4()
    ensures forall i :: 4 <= i < 8 ==> NameUnique(Options, i)
  {
  }

  lemma OptionsUnique8()
    ensures forall i :: 8 <= i < 16 ==> NameUnique(Options, i)
  {
  }

  lemma OptionsUnique16()
    ensures forall i :: 16 <= i < |Options| ==> NameUnique(Options, i)
  {
  }

  lemma LegacyOptionsUnique()
    ensures forall i :: 0 <= i < |LegacyOptions| ==> NameUnique(LegacyOptions, i)
  {
  }

  /** No option name is listed twice, so every option has its own entry in `DEFAULT_ARGUMENTS`. */
  lemma OptionNamesDistinct()
    ensures forall i, j :: 0 <= i < j < |Options| ==> Options[i].name != Options[j].name
    ensures forall i, j :: 0 <= i < j < |LegacyOptions| ==> LegacyOptions[i].name != LegacyOptions[j].name
    ensures forall i :: 0 <= i < |Options| ==> NameUnique(Options, i)
    ensures forall i :: 0 <= i < |LegacyOptions| ==> NameUnique(LegacyOptions, i)
  {
    OptionsUnique0();
    OptionsUnique2();
    OptionsUnique4();
    OptionsUnique8();
    OptionsUnique16();
    LegacyOptionsUnique();
    forall i, j | 0 <= i < j < |Options|
      ensures Options[i].name != Options[j].name
    {
      assert NameUnique(Options, i);
    }
    forall i, j | 0 <= i < j < |LegacyOptions|
      ensures LegacyOptions[i].name != LegacyOptions[j].name
    {
      assert NameUnique(LegacyOptions, i);
    }
  }

  lemma PortIsListed()
    ensures Options[1] == Spec("PORT", VInt(5000), "int") && LegacyOptions[1] == Options[1]
  {
  }
}

=== FILE: flood.dfy ===
/**
 * Flood guard (libretranslate/flood.py): per-client violation counters in the
 * shared store's "banned" namespace, with the memory backend's counter
 * semantics. `banned` below is that namespace's contents.
 */
module Flood {
  import opened Wrappers
  import opened Storage

  const BannedNs := "banned"

  /** The module globals `active` and `threshold`. */
  datatype Config = Config(active: bool, threshold: int)

  const Initial := Config(false, -1)

  /** `setup(args)`: flooding is switched on, with the given threshold, only for a positive threshold. */
  function Setup(cfg: Config, reqFloodThreshold: int): (r: Config)
    ensures reqFloodThreshold > 0 ==> r.active && r.threshold == reqFloodThreshold
    ensures reqFloodThreshold <= 0 ==> r == cfg
  {
    if reqFloodThreshold > 0 then Config(true, reqFloodThreshold) else cfg
  }

  function Count(banned: map<string, int>, ip: string): int
  {
    FieldGet(banned, ip)
  }

  /** `report(ip)`: increments the ip's counter (memory semantics) when active. */
  function Report(cfg: Config, banned: map<string, int>, ip: string): (r: map<string, int>)
    ensures !cfg.active ==> r == banned
    ensures cfg.active ==> ip in r && r[ip] == (if ip in banned then banned[ip] + 1 else 0)
    ensures forall other :: other != ip ==> Count(r, other) == Count(banned, other)
    ensures r.Keys == if cfg.active then banned.Keys + {ip} else banned.Keys
  {
    if cfg.active then IncField(banned, ip) else banned
  }

  /** `decrease(ip)`: one violation is repaid, only while the counter is positive. */
  function Decrease(banned: map<string, int>, ip: string): (r: map<string, int>)
    ensures Count(banned, ip) > 0 ==> Count(r, ip) == Count(banned, ip) - 1
    ensures Count(banned, ip) <= 0 ==> r == banned
    ensures Count(r, ip) >= 0 || Count(r, ip) == Count(banned, ip)
    ensures forall other :: other != ip ==> Count(r, other) == Count(banned, other)
  {
    if Count(banned, ip) > 0 then DecField(banned, ip) else banned
  }

  predicate HasViolation(banned: map<string, int>, ip: string)
  {
    Count(banned, ip) > 0
  }

  /** `is_banned(ip)`: active and at least `threshold` recorded violations. */
  predicate IsBanned(cfg: Config, banned: map<string, int>, ip: string)
  {
    cfg.active && Count(banned, ip) >= cfg.threshold
  }

  /**
   * `forgive_banned()` over the namespace as a dictionary: non-positive
   * entries are deleted; a positive entry `c` becomes `min(threshold, c) - 1`.
   */
  function Forgive(banned: map<string, int>, threshold: int): (r: map<string, int>)
    ensures r.Keys == set ip | ip in banned && banned[ip] > 0
    ensures forall ip :: ip in r ==> r[ip] == (if threshold < banned[ip] then threshold else banned[ip]) - 1
  {
    map ip | ip in banned && banned[ip] > 0 :: (if threshold < banned[ip] then threshold else banned[ip]) - 1
  }

  /**
   * `forgive_banned()` as written against the memory backend: the list of
   * single-entry dictionaries is indexed by its own elements, which raises
   * `TypeError` as soon as the namespace has a field.
   */
  function ForgiveAsWritten(st: Store, threshold: int): (r: Result<Store, StoreError>)
    ensures BannedNs in st && st[BannedNs].Hash? && |st[BannedNs].fields| > 0 ==> r.Err?
  {
    var n :- GetAllHashIntListLength(st, BannedNs);
    if n == 0 then Ok(st) else Err(TypeError)
  }

  /** `forgive_banned()` through the store with the dictionary-shaped namespace: the namespace becomes `Forgive` of itself. */
  function ForgiveStore(st: Store, threshold: int): (r: Result<Store, StoreError>)
    ensures BannedNs !in st || st[BannedNs].Hash? ==> r.Ok?
    ensures r.Ok? && BannedNs in st && st[BannedNs].Hash? ==> r.value == st[BannedNs := Hash(Forgive(st[BannedNs].fields, threshold))]
    ensures r.Ok? && BannedNs !in st ==> r.value == st
  {
    var banned :- GetAllHashIntDict(st, BannedNs);
    if BannedNs in st then Ok(st[BannedNs := Hash(Forgive(banned, threshold))]) else Ok(st)
  }

  ghost predicate NonNegative(banned: map<string, int>)
  {
    forall ip :: ip in banned ==> banned[ip] >= 0
  }

  /** The counters stay non-negative under report, decrease and forgiveness with a positive threshold. */
  lemma NonNegativeInvariant(cfg: Config, banned: map<string, int>, ip: string, threshold: int)
    requires NonNegative(banned) && threshold > 0
    ensures NonNegative(Report(cfg, banned, ip))
    ensures NonNegative(Decrease(banned, ip))
    ensures NonNegative(Forgive(banned, threshold))
  {
  }

  /** The ban boundary is inclusive: exactly `threshold` violations ban an ip; inactive flooding never bans. */
  lemma BanBoundary(cfg: Config, banned: map<string, int>, ip: string)
    ensures !cfg.active ==> !IsBanned(cfg, banned, ip)
    ensures cfg.active && Count(banned, ip) == cfg.threshold ==> IsBanned(cfg, banned, ip)
    ensures cfg.active && Count(banned, ip) == cfg.threshold - 1 ==> !IsBanned(cfg, banned, ip)
  {
  }

  /** After `setup` from the initial globals, an ip is banned iff the threshold is positive and reached. */
  lemma BannedAfterSetup(threshold: int, banned: map<string, int>, ip: string)
    ensures IsBanned(Setup(Initial, threshold), banned, ip) <==> threshold > 0 && Count(banned, ip) >= threshold
  {
  }

  /** With a positive threshold, one forgiveness pass lifts every ban. */
  lemma ForgiveLiftsBans(banned: map<string, int>, threshold: int, ip: string)
    requires threshold > 0
    ensures !IsBanned(Config(true, threshold), Forgive(banned, threshold), ip)
  {
  }

  function ForgiveTimes(banned: map<string, int>, threshold: int, passes: nat): map<string, int>
  {
    if passes == 0 then banned else ForgiveTimes(Forgive(banned, threshold), threshold, passes - 1)
  }

  /** A count `c <= threshold` left after one pass is deleted after `c + 1` further passes. */
  lemma {:induction false} ForgiveCountsDown(banned: map<string, int>, threshold: int, ip: string, passes: nat)
    requires threshold > 0 && ip in banned && banned[ip] <= threshold
    requires passes >= (if banned[ip] > 0 then banned[ip] else 0) + 1
    ensures ip !in ForgiveTimes(banned, threshold, passes)
    decreases passes
  {
    var next := Forgive(banned, threshold);
    if banned[ip] <= 0 {
      ForgiveAbsentStaysAbsent(next, threshold, ip, passes - 1);
    } else {
      assert next[ip] == banned[ip] - 1;
      ForgiveCountsDown(next, threshold, ip, passes - 1);
    }
  }

  lemma {:induction false} ForgiveAbsentStaysAbsent(banned: map<string, int>, threshold: int, ip: string, passes: nat)
    requires ip !in banned
    ensures ip !in ForgiveTimes(banned, threshold, passes)
    decreases passes
  {
    if passes > 0 {
      ForgiveAbsentStaysAbsent(Forgive(banned, threshold), threshold, ip, passes - 1);
    }
  }

  /** A positive count `c` disappears from the namespace after at most `min(threshold, c) + 1` passes. */
  lemma ForgiveDeletesEventually(banned: map<string, int>, threshold: int, ip: string, passes: nat)
    requires threshold > 0 && ip in banned && banned[ip] > 0
    requires passes >= (if threshold < banned[ip] then threshold else banned[ip]) + 1
    ensures ip !in ForgiveTimes(banned, threshold, passes)
  {
    var next := Forgive(banned, threshold);
    ForgiveCountsDown(next, threshold, ip, passes - 1);
  }

  /**
   * From a clean record, `n >= 1` reports leave a count of `n - 1`: the memory
   * backend does not count the first violation, so a ban takes
   * `threshold + 1` reports.
   */
  lemma {:induction false} ReportsFromClean(cfg: Config, banned: map<string, int>, ip: string, n: nat)
    requires cfg.active && ip !in banned && n >= 1
    ensures Count(ReportTimes(cfg, banned, ip, n), ip) == n - 1
    ensures IsBanned(cfg, ReportTimes(cfg, banned, ip, n), ip) <==> n - 1 >= cfg.threshold
    decreases n
  {
    if n > 1 {
      ReportsFromClean(cfg, banned, ip, n - 1);
    }
  }

  function ReportTimes(cfg: Config, banned: map<string, int>, ip: string, n: nat): map<string, int>
  {
    if n == 0 then banned else Report(cfg, ReportTimes(cfg, banned, ip, n - 1), ip)
  }

  /** `report` through the store is the namespace-level `Report`. */
  lemma ReportThroughStore(cfg: Config, st: Store, ip: string)
    requires cfg.active && (BannedNs !in st || st[BannedNs].Hash?)
    ensures IncHashInt(st, BannedNs, ip).Ok?
    ensures var banned := if BannedNs in st then st[BannedNs].fields else map[];
      IncHashInt(st, BannedNs, ip).value == st[BannedNs := Hash(Report(cfg, banned, ip))]
  {
  }
}

=== FILE: gate.dfy ===
/**
 * The `access_check` decorator and the 429 handler of libretranslate/app.py.
 * The decision is a pure function of what the request and the stores answer;
 * it reads the ban state but never decreases counters or asks for violations.
 */
module Gate {
  import opened Wrappers
  import Flood
  import Limits

  /** What `access_check` does with a request. */
  datatype Outcome =
    | Banned       // 403 "Too many request limits violations"
    | InvalidKey   // 403 "Invalid API key"
    | Placeholder  // 200 with the placeholder translation
    | KeyRequired  // 400 "Please contact the server operator ..."
    | Proceed      // the endpoint runs

  /** The HTTP status the outcome aborts with; `Proceed` leaves it to the endpoint. */
  function Status(o: Outcome): (s: Option<int>)
    ensures s.None? <==> o == Proceed
    ensures s == Some(403) <==> o == Banned || o == InvalidKey
    ensures s == Some(400) <==> o == KeyRequired
    ensures s == Some(200) <==> o == Placeholder
  {
    match o
    case Banned => Some(403)
    case InvalidKey => Some(403)
    case Placeholder => Some(200)
    case KeyRequired => Some(400)
    case Proceed => None
  }

  /**
   * Everything `access_check` consults: the flood verdict for the client,
   * whether keys are on, the request's key and whether the key database knows
   * it, whether an origin pattern is configured and the Origin header matches
   * it, whether the secret is required, and the two secret tests.
   */
  datatype GateInput = GateInput(
    banned: bool,
    apiKeys: bool,
    apiKey: Option<string>,
    keyKnown: bool,
    requireOrigin: bool,
    originMatches: bool,
    requireSecret: bool,
    secretMatches: bool,
    bogusMatches: bool)

  /** The request carries a truthy `api_key`. */
  predicate KeyPresent(g: GateInput)
  {
    g.apiKey.Some? && g.apiKey.value != ""
  }

  /** Without a known key, a configured origin pattern the Origin header does not match. */
  predicate OriginFails(g: GateInput)
  {
    g.requireOrigin && !g.keyKnown && !g.originMatches
  }

  /** Without a known key, a required secret that the request does not supply. */
  predicate SecretFails(g: GateInput)
  {
    g.requireSecret && !g.keyKnown && !g.secretMatches
  }

  function AccessCheck(g: GateInput): (o: Outcome)
    ensures o == Banned <==> g.banned
    ensures o == InvalidKey <==> !g.banned && g.apiKeys && KeyPresent(g) && !g.keyKnown
    ensures o == Placeholder <==> !g.banned && g.apiKeys && !KeyPresent(g) && SecretFails(g) && g.bogusMatches
    ensures o == KeyRequired <==>
      !g.banned && g.apiKeys && !KeyPresent(g) && (OriginFails(g) || SecretFails(g)) && !(SecretFails(g) && g.bogusMatches)
  {
    if g.banned then Banned
    else if !g.apiKeys then Proceed
    else if KeyPresent(g) && !g.keyKnown then InvalidKey
    else if SecretFails(g) && g.bogusMatches then Placeholder
    else if OriginFails(g) || SecretFails(g) then KeyRequired
    else Proceed
  }

  /** A banned client is refused before anything else is looked at. */
  lemma BanComesFirst(g: GateInput)
    requires g.banned
    ensures Status(AccessCheck(g)) == Some(403)
  {
  }

  /** With keys off, only the ban check applies. */
  lemma KeysOffOnlyBanChecked(g: GateInput)
    requires !g.apiKeys
    ensures AccessCheck(g) == Proceed <==> !g.banned
  {
  }

  /** A key the database knows always gets through, whatever the origin and secret say. */
  lemma KnownKeyProceeds(g: GateInput)
    requires !g.banned && g.keyKnown
    ensures AccessCheck(g) == Proceed
  {
  }

  /** A bogus secret yields the 200 placeholder even when the origin check fails too. */
  lemma BogusPreemptsKeyRequired(g: GateInput)
    requires !g.banned && g.apiKeys && !KeyPresent(g) && !g.keyKnown
    requires g.requireOrigin && !g.originMatches
    requires g.requireSecret && !g.secretMatches && g.bogusMatches
    ensures Status(AccessCheck(g)) == Some(200)
  {
  }

  /** Proceeding means: not banned, and with keys on, neither check failed for a request without a key. */
  lemma ProceedMeans(g: GateInput)
    ensures AccessCheck(g) == Proceed <==>
      !g.banned && (!g.apiKeys || ((!KeyPresent(g) || g.keyKnown) && !OriginFails(g) && !SecretFails(g)))
  {
  }

  /** The ban verdict the gate reads for the client, computed from the flood counters. */
  function GateInputFor(cfg: Flood.Config, banned: map<string, int>, ip: string, g: GateInput): (h: GateInput)
    ensures h.banned <==> Flood.IsBanned(cfg, banned, ip)
    ensures h == g.(banned := h.banned)
  {
    g.(banned := Flood.IsBanned(cfg, banned, ip))
  }

  /** The 429 handler's reply and the counters it leaves. */
  datatype SlowDownReply = SlowDownReply(status: int, error: string, banned: map<string, int>)

  /** `slow_down_error(e)`: reports the client to the flood guard, then replies 429 "Slowdown: ...". */
  function SlowDown(cfg: Flood.Config, banned: map<string, int>, forwardedFor: seq<string>,
                    remoteAddr: Option<string>, description: string): (r: SlowDownReply)
    ensures r.status == 429
    ensures |r.error| == 10 + |description| && r.error[..10] == "Slowdown: " && r.error[10..] == description
    ensures r.banned == Flood.Report(cfg, banned, Limits.RemoteAddress(forwardedFor, remoteAddr))
  {
    SlowDownReply(429, "Slowdown: " + description, Flood.Report(cfg, banned, Limits.RemoteAddress(forwardedFor, remoteAddr)))
  }

  /** `n` successive 429s to a client with no record, each reporting it. */
  function SlowDownTimes(cfg: Flood.Config, banned: map<string, int>, forwardedFor: seq<string>,
                         remoteAddr: Option<string>, description: string, n: nat): map<string, int>
  {
    if n == 0 then banned
    else SlowDown(cfg, SlowDownTimes(cfg, banned, forwardedFor, remoteAddr, description, n - 1), forwardedFor, remoteAddr, description).banned
  }

  /**
   * With the memory store, a client with no record is refused by the gate
   * after exactly `threshold + 1` rate-limit violations.
   */
  lemma {:induction false} RepeatedSlowDownsBan(cfg: Flood.Config, banned: map<string, int>, forwardedFor: seq<string>,
                                                remoteAddr: Option<string>, description: string, n: nat, g: GateInput)
    requires cfg.active && Limits.RemoteAddress(forwardedFor, remoteAddr) !in banned && n >= 1
    ensures var ip := Limits.RemoteAddress(forwardedFor, remoteAddr);
      var after := SlowDownTimes(cfg, banned, forwardedFor, remoteAddr, description, n);
      AccessCheck(GateInputFor(cfg, after, ip, g)) == Banned <==> n >= cfg.threshold + 1
  {
    var ip := Limits.RemoteAddress(forwardedFor, remoteAddr);
    SlowDownIsReport(cfg, banned, forwardedFor, remoteAddr, description, n);
    Flood.ReportsFromClean(cfg, banned, ip, n);
  }

  lemma {:induction false} SlowDownIsReport(cfg: Flood.Config, banned: map<string, int>, forwardedFor: seq<string>,
                                            remoteAddr: Option<string>, description: string, n: nat)
    ensures SlowDownTimes(cfg, banned, forwardedFor, remoteAddr, description, n) ==
      Flood.ReportTimes(cfg, banned, Limits.RemoteAddress(forwardedFor, remoteAddr), n)
  {
    if n > 0 {
      SlowDownIsReport(cfg, banned, forwardedFor, remoteAddr, description, n - 1);
    }
  }
}

=== FILE: init.dfy ===
/**
 * Model installation at boot (libretranslate/init.py, and the older
 * app/init.py): whether the install block runs, which packages the
 * `load_only` codes keep, and which packages are installed or updated. The
 * package index, the installed packages, the version order and the
 * transliteration archive files are inputs; the downloads themselves are
 * not modelled.
 */
module Init {
  import opened Wrappers
  import opened Text
  import Sorting
  import Limits

  /** A translation package: its language pair and its version string. */
  datatype Package = Package(fromCode: string, toCode: string, version: string)

  datatype InitError = ValueError(message: string)

  /** What the loop over kept packages does with one of them. */
  datatype Action = Install(pkg: Package) | Update(installed: Package, available: Package)

  /** The install block runs with fewer than two installed packages, or when forced, or when updating. */
  predicate Runs(installedCount: nat, force: bool, update: bool)
  {
    installedCount < 2 || force || update
  }

  predicate Covers(p: Package, code: string)
  {
    p.fromCode == code || p.toCode == code
  }

  /** Some package of the index names `code` on either side. */
  predicate Known(available: seq<Package>, code: string)
  {
    exists p :: p in available && Covers(p, code)
  }

  predicate Distinct(s: seq<string>)
  {
    forall i, j :: 0 <= i < j < |s| ==> s[i] != s[j]
  }

  /** The requested codes that no package names, in request order and possibly repeated. */
  function Missing(requested: seq<string>, available: seq<Package>): (r: seq<string>)
    ensures forall c :: c in r <==> c in requested && !Known(available, c)
  {
    if |requested| == 0 then []
    else
      var rest := Missing(requested[1..], available);
      assert forall c :: c in requested <==> c == requested[0] || c in requested[1..];
      if Known(available, requested[0]) then rest else [requested[0]] + rest
  }

  /** `sorted(unavailable_lang_codes)`: the missing codes, each once, in string order. */
  function UnavailableCodes(requested: seq<string>, available: seq<Package>): (r: seq<string>)
    ensures forall c :: c in r <==> c in requested && !Known(available, c)
    ensures Sorting.SortedBy(r, (c: string) => c)
    ensures Distinct(r)
  {
    var missing := Missing(requested, available);
    var unique := Limits.FirstOccurrences(missing, {});
    Limits.FirstOccurrencesSpec(missing, {});
    var r := Sorting.SortBy(unique, (c: string) => c);
    assert forall c :: c in r <==> c in unique by {
      assert forall c :: c in r <==> c in multiset(r);
      assert forall c :: c in unique <==> c in multiset(unique);
    }
    PermutationKeepsDistinct(unique, r);
    r
  }

  /** A sequence with a repeated element counts that element at least twice. */
  lemma RepeatCountsTwice(s: seq<string>, i: nat, j: nat)
    requires i < j < |s| && s[i] == s[j]
    ensures multiset(s)[s[i]] >= 2
  {
    assert s == s[..j] + s[j..];
    assert s[i] in s[..j];
    assert s[j] == s[j..][0];
  }

  /** An element counted twice occurs at two positions. */
  lemma {:induction false} TwiceCountedRepeats(s: seq<string>, x: string)
    requires multiset(s)[x] >= 2
    ensures !Distinct(s)
    decreases |s|
  {
    assert s == [s[0]] + s[1..];
    if s[0] == x {
      assert x in multiset(s[1..]);
      var k :| 0 <= k < |s[1..]| && s[1..][k] == x;
      assert s[0] == s[k + 1];
    } else {
      TwiceCountedRepeats(s[1..], x);
      var i, j :| 0 <= i < j < |s[1..]| && s[1..][i] == s[1..][j];
      assert s[i + 1] == s[j + 1];
    }
  }

  lemma PermutationKeepsDistinct(s: seq<string>, r: seq<string>)
    requires Distinct(s) && multiset(r) == multiset(s)
    ensures Distinct(r)
  {
    if !Distinct(r) {
      var i, j :| 0 <= i < j < |r| && r[i] == r[j];
      RepeatCountsTwice(r, i, j);
      TwiceCountedRepeats(s, r[i]);
    }
  }

  /** The packages whose both codes are requested, in index order. */
  function Keep(available: seq<Package>, requested: seq<string>): (r: seq<Package>)
    ensures forall p :: p in r <==> p in available && p.fromCode in requested && p.toCode in requested
    ensures |r| <= |available|
  {
    if |available| == 0 then []
    else
      var p := available[0];
      var rest := Keep(available[1..], requested);
      assert forall q :: q in available <==> q == p || q in available[1..];
      if p.fromCode in requested && p.toCode in requested then [p] + rest else rest
  }

  /** The `load_only_lang_codes` step: every code must be known, and at least one package must remain. */
  function Select(available: seq<Package>, loadOnly: Option<seq<string>>): (r: Result<seq<Package>, InitError>)
    ensures loadOnly.None? ==> r == Ok(available)
    ensures loadOnly.Some? && r.Ok? ==> forall p :: p in r.value <==>
      p in available && p.fromCode in loadOnly.value && p.toCode in loadOnly.value
    ensures loadOnly.Some? && r.Ok? ==> |r.value| > 0
    ensures loadOnly.Some? && (exists c :: c in loadOnly.value && !Known(available, c)) ==>
      r == Err(ValueError("Unavailable language codes: " + Join(UnavailableCodes(loadOnly.value, available), ",") + "."))
    ensures loadOnly.Some? && (forall c :: c in loadOnly.value ==> Known(available, c)) ==>
      (r == Err(ValueError("no available package")) <==> |Keep(available, loadOnly.value)| == 0)
  {
    match loadOnly
    case None => Ok(available)
    case Some(codes) =>
      var unavailable := UnavailableCodes(codes, available);
      assert |unavailable| > 0 <==> exists c :: c in codes && !Known(available, c) by {
        if |unavailable| > 0 {
          assert unavailable[0] in unavailable;
        }
      }
      if |unavailable| > 0 then
        Err(ValueError("Unavailable language codes: " + Join(unavailable, ",") + "."))
      else
        var kept := Keep(available, codes);
        if |kept| == 0 then Err(ValueError("no available package")) else Ok(kept)
  }

  predicate SamePair(a: Package, b: Package)
  {
    a.fromCode == b.fromCode && a.toCode == b.toCode
  }

  /** The installed packages with the same language pair as `a`, in order. */
  function Matching(installed: seq<Package>, a: Package): (r: seq<Package>)
    ensures forall m :: m in r <==> m in installed && SamePair(m, a)
  {
    if |installed| == 0 then []
    else
      var rest := Matching(installed[1..], a);
      assert forall m :: m in installed <==> m == installed[0] || m in installed[1..];
      if SamePair(installed[0], a) then [installed[0]] + rest else rest
  }

  /** The matches whose version is older than `a`'s, each paired with `a`. */
  function Updates(matches: seq<Package>, a: Package, older: (string, string) -> bool): (r: seq<Action>)
    ensures forall act :: act in r <==> exists m :: m in matches && older(m.version, a.version) && act == Update(m, a)
  {
    if |matches| == 0 then []
    else
      var rest := Updates(matches[1..], a, older);
      assert forall m :: m in matches <==> m == matches[0] || m in matches[1..];
      if older(matches[0].version, a.version) then [Update(matches[0], a)] + rest else rest
  }

  /**
   * What the loop does for one kept package: when forced, install it;
   * otherwise update every installed package of the same pair whose
   * version is lower, and install only when no such pair is installed.
   */
  function PlanFor(a: Package, installed: seq<Package>, force: bool, older: (string, string) -> bool): (r: seq<Action>)
    ensures force ==> r == [Install(a)]
    ensures !force ==> (Install(a) in r <==> forall m :: m in installed ==> !SamePair(m, a))
    ensures forall p :: p != a ==> Install(p) !in r
    ensures forall m, b :: Update(m, b) in r <==> !force && b == a && m in installed && SamePair(m, a) && older(m.version, a.version)
  {
    if force then [Install(a)]
    else
      var matches := Matching(installed, a);
      if |matches| == 0 then
        assert forall m :: m in installed ==> !SamePair(m, a) by {
          assert forall m :: m in installed && SamePair(m, a) ==> m in matches;
        }
        [Install(a)]
      else
        var r := Updates(matches, a, older);
        assert Install(a) !in r;
        assert exists m :: m in installed && SamePair(m, a) by {
          assert matches[0] in matches;
        }
        r
  }

  /** The whole loop over the kept packages. */
  function Plan(kept: seq<Package>, installed: seq<Package>, force: bool, older: (string, string) -> bool): (r: seq<Action>)
    ensures forall p :: Install(p) in r <==> p in kept && (force || forall m :: m in installed ==> !SamePair(m, p))
    ensures forall m, a :: Update(m, a) in r <==>
      !force && a in kept && m in installed && SamePair(m, a) && older(m.version, a.version)
  {
    if |kept| == 0 then []
    else
      var first := PlanFor(kept[0], installed, force, older);
      var rest := Plan(kept[1..], installed, force, older);
      assert forall p :: p in kept <==> p == kept[0] || p in kept[1..];
      first + rest
  }

  /** `check_and_install_models`: `None` when the block does not run, else the actions or the raised error. */
  function CheckAndInstall(installed: seq<Package>, available: seq<Package>, loadOnly: Option<seq<string>>,
                           force: bool, update: bool, older: (string, string) -> bool): (r: Option<Result<seq<Action>, InitError>>)
    ensures r.None? <==> !Runs(|installed|, force, update)
    ensures r.Some? && loadOnly.None? ==> r.value.Ok?
    ensures r.Some? && r.value.Ok? ==> forall p :: Install(p) in r.value.value ==> p in available
    ensures r.Some? ==> (r.value.Err? <==> Select(available, loadOnly).Err?)
    ensures r.Some? && r.value.Err? ==> r.value.error == Select(available, loadOnly).error
    ensures r.Some? && r.value.Ok? ==> forall p :: Install(p) in r.value.value <==>
      p in Select(available, loadOnly).value && (force || forall m :: m in installed ==> !SamePair(m, p))
    ensures r.Some? && r.value.Ok? ==> forall m, a :: Update(m, a) in r.value.value <==>
      !force && a in Select(available, loadOnly).value && m in installed && SamePair(m, a) && older(m.version, a.version)
  {
    if !Runs(|installed|, force, update) then None
    else
      Some(
        var kept :- Select(available, loadOnly);
        Ok(Plan(kept, installed, force, older)))
  }

  /** `boot`: the update path never forces; any raised error is swallowed and nothing is installed. */
  function Boot(installed: seq<Package>, available: seq<Package>, loadOnly: Option<seq<string>>,
                updateModels: bool, installModels: bool, older: (string, string) -> bool): (r: seq<Action>)
    ensures updateModels ==> forall p :: Install(p) in r ==> forall m :: m in installed ==> !SamePair(m, p)
    ensures !updateModels && installModels && loadOnly.None? ==> forall p :: p in available ==> Install(p) in r
    ensures Select(available, loadOnly).Err? ==> r == []
    ensures !updateModels && !installModels && |installed| >= 2 ==> r == []
    ensures updateModels && Select(available, loadOnly).Ok? ==> forall m, a :: Update(m, a) in r <==>
      a in Select(available, loadOnly).value && m in installed && SamePair(m, a) && older(m.version, a.version)
    ensures updateModels && Select(available, loadOnly).Ok? ==> forall p :: Install(p) in r <==>
      p in Select(available, loadOnly).value && forall m :: m in installed ==> !SamePair(m, p)
    ensures !updateModels && Runs(|installed|, installModels, false) && Select(available, loadOnly).Ok? ==>
      forall p :: Install(p) in r <==>
        p in Select(available, loadOnly).value && (installModels || forall m :: m in installed ==> !SamePair(m, p))
    ensures !updateModels && Runs(|installed|, installModels, false) && Select(available, loadOnly).Ok? ==>
      forall m, a :: Update(m, a) in r <==>
        !installModels && a in Select(available, loadOnly).value && m in installed && SamePair(m, a) &&
        older(m.version, a.version)
  {
    var outcome := if updateModels then CheckAndInstall(installed, available, loadOnly, false, true, older)
                   else CheckAndInstall(installed, available, loadOnly, installModels, false, older);
    match outcome
    case Some(Ok(actions)) => actions
    case _ => []
  }

  /** Two or more elements that all equal one value repeat it. */
  lemma OnlyValueRepeats(u: seq<string>, x: string)
    requires |u| > 1 && forall c :: c in u ==> c == x
    ensures !Distinct(u)
  {
    assert u[0] in u && u[1] in u;
  }

  lemma DistinctSingleton(u: seq<string>, x: string)
    requires Distinct(u) && x in u && forall c :: c in u ==> c == x
    ensures u == [x]
  {
    if |u| > 1 {
      OnlyValueRepeats(u, x);
    }
  }

  /** When exactly one requested code is unknown (possibly requested several times), the message names it alone. */
  lemma OneUnknownCode(requested: seq<string>, available: seq<Package>, x: string)
    requires x in requested && !Known(available, x)
    requires forall c :: c in requested && c != x ==> Known(available, c)
    ensures UnavailableCodes(requested, available) == [x]
    ensures Select(available, Some(requested)) == Err(ValueError("Unavailable language codes: " + x + "."))
  {
    var u := UnavailableCodes(requested, available);
    assert x in u;
    assert forall c :: c in u ==> c == x;
    DistinctSingleton(u, x);
  }

  // ----- app/init.py -----

  /** The older block runs with fewer than two installed packages or when forced. */
  predicate LegacyRuns(installedCount: nat, force: bool)
  {
    installedCount < 2 || force
  }

  /** The older `check_and_install_models`: every kept package is downloaded and installed. */
  function LegacyCheckAndInstall(installedCount: nat, available: seq<Package>, loadOnly: Option<seq<string>>, force: bool): (r: Option<Result<seq<Package>, InitError>>)
    ensures r.None? <==> !LegacyRuns(installedCount, force)
    ensures r.Some? ==> r.value == Select(available, loadOnly)
  {
    if !LegacyRuns(installedCount, force) then None else Some(Select(available, loadOnly))
  }

  /** The loaded language codes other than "en": English is not a transliteration language. */
  function TransliterationCandidates(codes: seq<string>): (r: seq<string>)
    ensures forall c :: c in r <==> c in codes && c != "en"
    ensures |r| <= |codes|
  {
    if |codes| == 0 then []
    else
      var rest := TransliterationCandidates(codes[1..]);
      assert forall c :: c in codes <==> c == codes[0] || c in codes[1..];
      if codes[0] != "en" then [codes[0]] + rest else rest
  }

  function MissingArchives(candidates: seq<string>, archiveExists: string -> bool): (r: seq<string>)
    ensures forall c :: c in r <==> c in candidates && !archiveExists(c)
  {
    if |candidates| == 0 then []
    else
      var rest := MissingArchives(candidates[1..], archiveExists);
      assert forall c :: c in candidates <==> c == candidates[0] || c in candidates[1..];
      if !archiveExists(candidates[0]) then [candidates[0]] + rest else rest
  }

  /** `check_and_install_transliteration`: the languages to download. */
  function TransliterationNeeded(codes: seq<string>, force: bool, archiveExists: string -> bool): (r: seq<string>)
    ensures force ==> r == TransliterationCandidates(codes)
    ensures !force ==> forall c :: c in r <==> c in codes && c != "en" && !archiveExists(c)
  {
    var candidates := TransliterationCandidates(codes);
    if force then candidates else MissingArchives(candidates, archiveExists)
  }

  /**
   * The older `boot`: models, then transliteration over the languages
   * loaded afterwards. An error raised while selecting packages skips
   * the transliteration step, since both share one `try`.
   */
  function LegacyBoot(installedCount: nat, available: seq<Package>, loadOnly: Option<seq<string>>,
                      loadedCodes: seq<string>, archiveExists: string -> bool): (r: (seq<Package>, seq<string>))
    ensures LegacyRuns(installedCount, false) && Select(available, loadOnly).Err? ==> r == ([], [])
    ensures !LegacyRuns(installedCount, false) ==> r.0 == [] && r.1 == TransliterationNeeded(loadedCodes, false, archiveExists)
    ensures forall c :: c in r.1 ==> c != "en"
    ensures LegacyRuns(installedCount, false) && Select(available, loadOnly).Ok? ==> r.0 == Select(available, loadOnly).value
    ensures !(LegacyRuns(installedCount, false) && Select(available, loadOnly).Err?) ==>
      forall c :: c in r.1 <==> c in loadedCodes && c != "en" && !archiveExists(c)
  {
    match LegacyCheckAndInstall(installedCount, available, loadOnly, false)
    case Some(Err(_)) => ([], [])
    case Some(Ok(kept)) => (kept, TransliterationNeeded(loadedCodes, false, archiveExists))
    case None => ([], TransliterationNeeded(loadedCodes, false, archiveExists))
  }
}

=== FILE: language.dfy ===
/**
 * `improve_translation_formatting` of libretranslate/language.py: copy the
 * source's final punctuation and its letter case onto a translation.
 */
module Language {
  import opened Wrappers
  import opened Text

  /**
   * The punctuation list as written. Its last entry is the three characters
   * U+00E3 U+20AC U+201A (the UTF-8 bytes of an ideographic full stop read as
   * cp1252), so no single character equals it.
   */
  const Punctuation: seq<string> := ["!", "?", ".", ",", ";", [0xE3 as char, 0x20AC as char, 0x201A as char]]

  /**
   * The list evidently meant: the five ASCII marks and the ideographic full
   * stop U+3002 itself.
   */
  const IntendedPunctuation: seq<string> := ["!", "?", ".", ",", ";", [0x3002 as char]]

  /** `c in marks` for a single character. */
  predicate IsMark(marks: seq<string>, c: char)
  {
    [c] in marks
  }

  /** `c in punctuation_chars` for the list as written. */
  predicate IsPunctuation(c: char)
  {
    IsMark(Punctuation, c)
  }

  /** Only the five ASCII marks count as punctuation; the mis-encoded entry never matches. */
  lemma PunctuationIsFiveMarks(c: char)
    ensures IsPunctuation(c) <==> c == '!' || c == '?' || c == '.' || c == ',' || c == ';'
  {
    if IsPunctuation(c) {
      var i :| 0 <= i < |Punctuation| && Punctuation[i] == [c];
      assert i < 5;
    } else {
      assert Punctuation[0] == "!" && Punctuation[1] == "?" && Punctuation[2] == "." &&
        Punctuation[3] == "," && Punctuation[4] == ";";
    }
  }

  /** `translation[0]` on a translation that punctuation handling emptied. */
  datatype FormatError = IndexError

  /** The punctuation step, with `marks` as the punctuation list, for a non-empty stripped source and a non-empty translation. */
  function Punctuate(marks: seq<string>, source: string, translation: string): (r: string)
    requires |source| > 0 && |translation| > 0
    ensures |translation| - 1 <= |r| <= |translation| + 1
    ensures IsMark(marks, source[|source| - 1]) ==> |r| > 0 && r[|r| - 1] == source[|source| - 1]
    ensures IsMark(marks, source[|source| - 1]) && translation[|translation| - 1] == source[|source| - 1] ==>
      r == translation
    ensures (IsMark(marks, source[|source| - 1]) && translation[|translation| - 1] != source[|source| - 1] &&
             IsMark(marks, translation[|translation| - 1])) ==>
      r == translation[..|translation| - 1] + [source[|source| - 1]]
    ensures IsMark(marks, source[|source| - 1]) && !IsMark(marks, translation[|translation| - 1]) ==>
      r == translation + [source[|source| - 1]]
    ensures var last := translation[|translation| - 1];
      !IsMark(marks, source[|source| - 1]) ==>
        (IsMark(marks, last) ==> r == translation[..|translation| - 1]) && (!IsMark(marks, last) ==> r == translation)
  {
    var p := source[|source| - 1];
    var last := translation[|translation| - 1];
    if IsMark(marks, p) then
      if last != p then
        var kept := if IsMark(marks, last) then translation[..|translation| - 1] else translation;
        assert (kept + [p])[..|kept|] == kept;
        kept + [p]
      else
        assert translation[..|translation| - 1] + [p] == translation;
        translation
    else if IsMark(marks, last) then translation[..|translation| - 1]
    else translation
  }

  /** The case step: the whole translation follows an all-lower or all-upper source, else its first character follows the source's. */
  function TransferCase(source: string, translation: string): (r: Result<string, FormatError>)
    requires |source| > 0
    ensures r.Ok? ==> |r.value| == |translation|
    ensures IsLowerStr(source) ==> r == Ok(Lower(translation))
    ensures !IsLowerStr(source) && IsUpperStr(source) ==> r == Ok(Upper(translation))
    ensures r.Err? <==>
      !IsLowerStr(source) && !IsUpperStr(source) && IsCased(source[0]) && |translation| == 0
    ensures r.Ok? && !IsLowerStr(source) && !IsUpperStr(source) ==>
      |r.value| == |translation| && (|translation| > 0 ==> r.value[1..] == translation[1..]) &&
      (IsLowerChar(source[0]) ==> r.value[0] == LowerChar(translation[0])) &&
      (IsUpperChar(source[0]) ==> r.value[0] == UpperChar(translation[0])) &&
      (!IsCased(source[0]) ==> r.value == translation)
  {
    if IsLowerStr(source) then Ok(Lower(translation))
    else if IsUpperStr(source) then Ok(Upper(translation))
    else if IsLowerChar(source[0]) then
      if |translation| == 0 then Err(IndexError) else Ok([LowerChar(translation[0])] + translation[1..])
    else if IsUpperChar(source[0]) then
      if |translation| == 0 then Err(IndexError) else Ok([UpperChar(translation[0])] + translation[1..])
    else Ok(translation)
  }

  /** `improve_translation_formatting(source, translation, improve_punctuation)` as written. */
  function ImproveFormatting(source: string, translation: string, improvePunctuation: bool): (r: Result<string, FormatError>)
    ensures |Strip(source)| == 0 ==> r == Ok("")
    ensures |Strip(source)| > 0 && |translation| == 0 ==> r == Ok(Strip(source))
    ensures |Strip(source)| > 0 && |translation| > 0 && !improvePunctuation ==> r == TransferCase(Strip(source), translation)
    ensures |Strip(source)| > 0 && |translation| > 0 && improvePunctuation ==>
      r == TransferCase(Strip(source), Punctuate(Punctuation, Strip(source), translation))
  {
    var src := Strip(source);
    if |src| == 0 then Ok("")
    else if |translation| == 0 then Ok(src)
    else TransferCase(src, if improvePunctuation then Punctuate(Punctuation, src, translation) else translation)
  }

  /**
   * A mixed-case source starting with a capital and not ending in a mark, with
   * a translation that is one punctuation mark (source "Hi", translation "!"):
   * the mark is dropped and `translation[0]` fails.
   */
  lemma EmptiedTranslationFails(source: string, i: nat, mark: char)
    requires 0 < i < |source| && !IsSpace(source[0]) && !IsSpace(source[|source| - 1])
    requires IsUpperChar(source[0]) && IsLowerChar(source[i])
    requires !IsPunctuation(source[|source| - 1]) && IsPunctuation(mark)
    ensures ImproveFormatting(source, [mark], true) == Err(IndexError)
  {
    StripNoSpace(source);
    assert Punctuate(Punctuation, source, [mark]) == [];
    assert !IsLowerStr(source);
    assert !IsUpperStr(source);
  }

  /**
   * The formatting with the emptied-translation case guarded: a translation
   * emptied by the punctuation step is returned as it is.
   */
  function ImproveFormattingGuarded(source: string, translation: string, improvePunctuation: bool): (r: string)
    ensures |Strip(source)| == 0 ==> r == ""
    ensures |Strip(source)| > 0 && |translation| == 0 ==> r == Strip(source)
    ensures |Strip(source)| > 0 && |translation| > 0 ==> |translation| - 1 <= |r| <= |translation| + 1
    ensures |Strip(source)| > 0 && |translation| > 0 && !improvePunctuation ==> |r| == |translation|
  {
    var src := Strip(source);
    if |src| == 0 then ""
    else if |translation| == 0 then src
    else
      var t := if improvePunctuation then Punctuate(Punctuation, src, translation) else translation;
      match TransferCase(src, t)
      case Ok(v) => v
      case Err(_) => t
  }

  /** The guarded version agrees with the written one wherever that succeeds, and gives "" where it fails. */
  lemma GuardedAgrees(source: string, translation: string, improvePunctuation: bool)
    ensures ImproveFormatting(source, translation, improvePunctuation).Ok? ==>
      ImproveFormattingGuarded(source, translation, improvePunctuation) == ImproveFormatting(source, translation, improvePunctuation).value
    ensures ImproveFormatting(source, translation, improvePunctuation).Err? ==>
      ImproveFormattingGuarded(source, translation, improvePunctuation) == ""
  {
  }

  /** With punctuation handling on, a source ending in a mark gives a result ending in that mark. */
  lemma FinalMarkIsCopied(source: string, translation: string)
    requires |Strip(source)| > 0 && |translation| > 0
    requires IsPunctuation(Strip(source)[|Strip(source)| - 1])
    ensures var r := ImproveFormattingGuarded(source, translation, true);
      |r| > 0 && r[|r| - 1] == Strip(source)[|Strip(source)| - 1]
  {
    var src := Strip(source);
    var t := Punctuate(Punctuation, src, translation);
    assert |t| > 0 && t[|t| - 1] == src[|src| - 1];
    PunctuationIsFiveMarks(t[|t| - 1]);
    CaseKeepsFinalMark(src, t);
  }

  /** The case step succeeds on a translation ending in an uncased character and leaves it in place. */
  lemma CaseKeepsFinalMark(source: string, translation: string)
    requires |source| > 0 && |translation| > 0 && !IsCased(translation[|translation| - 1])
    ensures TransferCase(source, translation).Ok?
    ensures var v := TransferCase(source, translation).value;
      |v| == |translation| && v[|v| - 1] == translation[|translation| - 1]
  {
    var m := translation[|translation| - 1];
    assert LowerChar(m) == m && UpperChar(m) == m;
  }

  /** The intended list holds the ideographic full stop as one character. */
  lemma IntendedHasFullStop()
    ensures IsMark(IntendedPunctuation, 0x3002 as char)
    ensures !IsPunctuation(0x3002 as char)
  {
    assert IntendedPunctuation[5] == [0x3002 as char];
    PunctuationIsFiveMarks(0x3002 as char);
  }

  /**
   * Source "你好。" with translation "Hello.": as written the full stop is no
   * mark, so the translation's '.' is dropped and nothing replaces it.
   */
  lemma IdeographicStopDropped(source: string, translation: string)
    requires source == [0x4F60 as char, 0x597D as char, 0x3002 as char] && translation == "Hello."
    ensures ImproveFormatting(source, translation, true) == Ok("Hello")
  {
    StripNoSpace(source);
    IntendedHasFullStop();
    PunctuationIsFiveMarks('.');
    assert translation[..|translation| - 1] == "Hello";
    assert !IsCased(source[0]) && !IsCased(source[1]) && !IsCased(source[2]);
    assert !IsLowerStr(source) && !IsUpperStr(source);
  }

  /**
   * With the intended list, a source whose stripped text ends in the
   * ideographic full stop gives a formatted translation ending in it.
   */
  lemma IntendedStopCopied(source: string, translation: string)
    requires |Strip(source)| > 0 && |translation| > 0
    requires Strip(source)[|Strip(source)| - 1] == 0x3002 as char
    ensures var src := Strip(source);
      var r := TransferCase(src, Punctuate(IntendedPunctuation, src, translation));
      r.Ok? && |r.value| > 0 && r.value[|r.value| - 1] == 0x3002 as char
  {
    var src := Strip(source);
    IntendedHasFullStop();
    var t := Punctuate(IntendedPunctuation, src, translation);
    assert |t| > 0 && t[|t| - 1] == 0x3002 as char;
    CaseKeepsFinalMark(src, t);
  }
}

=== FILE: legacy_flood.dfy ===
/**
 * The older flood guard (app/flood.py): an in-process dictionary of
 * violation counts, cleared wholesale every four weeks by a job that
 * `setup` schedules.
 */
module LegacyFlood {
  import Scheduler

  datatype State = State(banned: map<string, int>, active: bool, threshold: int)

  const Initial := State(map[], false, -1)

  function Count(st: State, ip: string): int
  {
    if ip in st.banned then st.banned[ip] else 0
  }

  /** `clear_banned()`: every count is forgotten at once. */
  function ClearBanned(st: State): (r: State)
    ensures forall ip :: Count(r, ip) == 0
    ensures r.active == st.active && r.threshold == st.threshold
  {
    st.(banned := map[])
  }

  /** The job `setup` registers: `clear_banned` every four weeks. */
  const ClearJob := Scheduler.Job(Scheduler.ClearBanned, 4 * 7 * 24 * 60)

  /** The guard's state after `setup`, and the background scheduler that call created and started. */
  datatype SetupResult = SetupResult(state: State, scheduler: Scheduler.Scheduler)

  /**
   * `setup(violations_threshold=100)`: always activates, keeps the counts,
   * and starts a new scheduler on every call (there is no once-only guard).
   */
  function Setup(st: State, violationsThreshold: int): (r: SetupResult)
    ensures r.state.active && r.state.threshold == violationsThreshold
    ensures r.state.banned == st.banned
    ensures r.scheduler.started && r.scheduler.jobs == [Scheduler.Job(Scheduler.ClearBanned, 40320)]
  {
    SetupResult(st.(active := true, threshold := violationsThreshold), Scheduler.Scheduler([ClearJob], true))
  }

  /** What one run of a scheduled task does to the guard; only `clear_banned` touches it. */
  function RunTask(task: Scheduler.Task, st: State): State
  {
    if task == Scheduler.ClearBanned then ClearBanned(st) else st
  }

  /**
   * Once the scheduled job of `setup` has run, every address is unbanned
   * unless the threshold is at most 0, and the guard stays active with its threshold.
   */
  lemma ScheduledClearUnbans(st: State, violationsThreshold: int, ip: string)
    ensures var s := Setup(st, violationsThreshold);
      var cleared := RunTask(s.scheduler.jobs[0].task, s.state);
      cleared.active && cleared.threshold == violationsThreshold && Count(cleared, ip) == 0 &&
      (IsBanned(cleared, ip) <==> violationsThreshold <= 0)
  {
  }

  const DefaultThreshold := 100

  /** `report(ip)`: the count, read as 0 when absent, gains 1 when active. */
  function Report(st: State, ip: string): (r: State)
    ensures st.active ==> Count(r, ip) == Count(st, ip) + 1
    ensures !st.active ==> r == st
    ensures forall other :: other != ip ==> Count(r, other) == Count(st, other)
    ensures r.active == st.active && r.threshold == st.threshold
  {
    if st.active then st.(banned := st.banned[ip := Count(st, ip) + 1]) else st
  }

  predicate IsBanned(st: State, ip: string)
  {
    st.active && Count(st, ip) >= st.threshold
  }

  function ReportTimes(st: State, ip: string, n: nat): State
  {
    if n == 0 then st else Report(ReportTimes(st, ip, n - 1), ip)
  }

  /**
   * `n` reports of a clean ip leave a count of exactly `n`, so (unlike the
   * store-backed guard) the `threshold`-th report bans.
   */
  lemma {:induction false} ReportsCount(st: State, ip: string, n: nat)
    requires st.active && Count(st, ip) == 0
    ensures Count(ReportTimes(st, ip, n), ip) == n
    ensures ReportTimes(st, ip, n).active && ReportTimes(st, ip, n).threshold == st.threshold
    ensures IsBanned(ReportTimes(st, ip, n), ip) <==> n >= st.threshold
    decreases n
  {
    if n > 0 {
      ReportsCount(st, ip, n - 1);
    }
  }

  /** After the default setup an ip is banned from its hundredth violation on, and never before `setup`. */
  lemma DefaultSetupBansAtHundred(ip: string, n: nat)
    ensures !IsBanned(ReportTimes(Initial, ip, n), ip)
    ensures IsBanned(ReportTimes(Setup(Initial, DefaultThreshold).state, ip, n), ip) <==> n >= 100
  {
    ReportsCount(Setup(Initial, DefaultThreshold).state, ip, n);
    InactiveReportsNoop(Initial, ip, n);
  }

  lemma {:induction false} InactiveReportsNoop(st: State, ip: string, n: nat)
    requires !st.active
    ensures ReportTimes(st, ip, n) == st
    decreases n
  {
    if n > 0 {
      InactiveReportsNoop(st, ip, n - 1);
    }
  }
}

=== FILE: limits.dfy ===
/**
 * The request-limit helpers of libretranslate/app.py: the client address,
 * per-key limit resolution, the rate-tier strings handed to the limiter,
 * request cost, `filter_unique` and the download-name derivation.
 */
module Limits {
  import opened Wrappers
  import opened Text
  import opened Numbers

  /**
   * `get_remote_address()`: the first X-Forwarded-For header value up to its
   * first ',', else the socket's remote address, else "127.0.0.1".
   */
  function RemoteAddress(forwardedFor: seq<string>, remoteAddr: Option<string>): (ip: string)
    ensures |forwardedFor| > 0 ==>
      ip <= forwardedFor[0] && ',' !in ip && (|ip| == |forwardedFor[0]| || forwardedFor[0][|ip|] == ',')
    ensures |forwardedFor| == 0 && remoteAddr.Some? && remoteAddr.value != "" ==> ip == remoteAddr.value
    ensures |forwardedFor| == 0 && (remoteAddr.None? || remoteAddr.value == "") ==> ip == "127.0.0.1"
  {
    if |forwardedFor| > 0 then
      SplitFirstPiece(forwardedFor[0], ',');
      Split(forwardedFor[0], ",")[0]
    else if remoteAddr.Some? && remoteAddr.value != "" then remoteAddr.value
    else "127.0.0.1"
  }

  /** The address is the longest comma-free prefix: any comma-free prefix ending at a comma or the end is it. */
  lemma RemoteAddressIsFirstHop(forwardedFor: seq<string>, remoteAddr: Option<string>, hop: string)
    requires |forwardedFor| > 0
    requires hop <= forwardedFor[0] && ',' !in hop
    requires |hop| == |forwardedFor[0]| || forwardedFor[0][|hop|] == ','
    ensures RemoteAddress(forwardedFor, remoteAddr) == hop
  {
  }

  /** A key database's answer for one key: `(req_limit, char_limit)`. */
  datatype KeyLimits = KeyLimits(reqLimit: int, charLimit: Option<int>)

  /**
   * What limit resolution sees of a request: whether a key database is
   * configured, the request's `api_key` value, and what the database's
   * `lookup` returns for that value.
   */
  datatype KeyContext = KeyContext(database: bool, apiKey: Option<string>, lookup: Option<KeyLimits>)

  /** The request carries a non-empty key that the database knows. */
  predicate KeyApplies(ctx: KeyContext)
  {
    ctx.database && ctx.apiKey.Some? && ctx.apiKey.value != "" && ctx.lookup.Some?
  }

  /**
   * `get_req_limits(default, db, db_multiplier, multiplier)` with the
   * multiplier given as the exact fraction `num / den`; `int()` truncates.
   */
  function GetReqLimits(defaultLimit: int, ctx: KeyContext, dbMultiplier: int, num: nat, den: nat): (r: int)
    requires den > 0
    ensures var base := if KeyApplies(ctx) then ctx.lookup.value.reqLimit * dbMultiplier else defaultLimit;
      base * num >= 0 ==> r * den <= base * num < (r + 1) * den
  {
    var base := if KeyApplies(ctx) then ctx.lookup.value.reqLimit * dbMultiplier else defaultLimit;
    if base * num >= 0 then FloorDivBounds(base * num, den); TruncDiv(base * num, den)
    else TruncDiv(base * num, den)
  }

  /** A key that applies replaces the default, scaled by the database multiplier; otherwise the default is used. */
  lemma GetReqLimitsSpec(defaultLimit: int, ctx: KeyContext, dbMultiplier: int)
    ensures KeyApplies(ctx) ==> GetReqLimits(defaultLimit, ctx, dbMultiplier, 1, 1) == ctx.lookup.value.reqLimit * dbMultiplier
    ensures !KeyApplies(ctx) ==> GetReqLimits(defaultLimit, ctx, dbMultiplier, 1, 1) == defaultLimit
  {
  }

  /** `get_char_limit(default, db)`: the key's own character limit when it has one. */
  function GetCharLimit(defaultLimit: int, ctx: KeyContext): (r: int)
    ensures KeyApplies(ctx) && ctx.lookup.value.charLimit.Some? ==> r == ctx.lookup.value.charLimit.value
    ensures !(KeyApplies(ctx) && ctx.lookup.value.charLimit.Some?) ==> r == defaultLimit
  {
    if KeyApplies(ctx) then ctx.lookup.value.charLimit.GetOr(defaultLimit) else defaultLimit
  }

  /** The parts of the server arguments that shape the tiers. */
  datatype LimitArgs = LimitArgs(reqLimit: int, hourlyReqLimit: int, hourlyReqLimitDecay: int, dailyReqLimit: int)

  /** One entry of the default-limits list: the minute tier, hourly tier `n`, or the daily tier. */
  datatype Tier = Minute | Hourly(n: nat) | Daily

  /** The minute limit used for an unlimited (-1) `req_limit`. */
  const Unlimited := 9999999999999

  const HourlyMultiplierVar := "LT_HOURLY_REQ_LIMIT_MULTIPLIER"
  const DailyMultiplierVar := "LT_DAILY_REQ_LIMIT_MULTIPLIER"

  /** How many hourly tiers `range(1, decay + 2)` yields, when hourly limits are on. */
  function HourlyCount(args: LimitArgs): nat
  {
    if args.hourlyReqLimit > 0 && args.hourlyReqLimitDecay + 1 > 0 then args.hourlyReqLimitDecay + 1 else 0
  }

  /** Hourly tiers 1 to `k`, in order. */
  function HourlyTiers(k: nat): (ts: seq<Tier>)
    ensures |ts| == k && forall i :: 0 <= i < k ==> ts[i] == Hourly(i + 1)
  {
    if k == 0 then [] else HourlyTiers(k - 1) + [Hourly(k)]
  }

  /** `get_routes_limits`: the shape of the returned list of tier callables. */
  function Tiers(args: LimitArgs): (ts: seq<Tier>)
    ensures |ts| == 1 + HourlyCount(args) + (if args.dailyReqLimit > 0 then 1 else 0)
    ensures ts[0] == Minute
    ensures forall i :: 1 <= i <= HourlyCount(args) ==> ts[i] == Hourly(i)
    ensures args.dailyReqLimit > 0 <==> Daily in ts
    ensures args.dailyReqLimit > 0 ==> ts[|ts| - 1] == Daily
    ensures forall t :: t in ts && t.Hourly? ==> 1 <= t.n <= HourlyCount(args)
  {
    var hourly := HourlyTiers(HourlyCount(args));
    var ts := [Minute] + hourly + (if args.dailyReqLimit > 0 then [Daily] else []);
    assert forall i :: 1 <= i <= HourlyCount(args) ==> ts[i] == hourly[i - 1];
    ts
  }

  /** The error `int()` raises on a malformed multiplier variable. */
  datatype LimitError = ValueError(text: string)

  /** Python's `s * n` on strings: `n` copies of `s`. */
  function Repeat(s: string, n: nat): (r: string)
    ensures |r| == |s| * n
  {
    if n == 0 then [] else s + Repeat(s, n - 1)
  }

  /** `int(text)`, failing as `int()` does. */
  function ToInt(text: string): (r: Result<int, LimitError>)
    ensures r.Ok? <==> ParseInt(text).Some?
    ensures r.Ok? ==> r.value == ParseInt(text).value
  {
    match ParseInt(text)
    case Some(v) => Ok(v)
    case None => Err(ValueError(text))
  }

  /**
   * The database multiplier of hourly tier `n`: `60 * n` when the variable is
   * unset; when it is set its string value is repeated `n` times before `int()`.
   */
  function HourlyDbMultiplier(env: map<string, string>, n: nat): (r: Result<int, LimitError>)
    ensures HourlyMultiplierVar !in env ==> r == Ok(60 * n)
    ensures HourlyMultiplierVar in env ==> r == ToInt(Repeat(env[HourlyMultiplierVar], n))
  {
    if HourlyMultiplierVar in env then ToInt(Repeat(env[HourlyMultiplierVar], n)) else Ok(60 * n)
  }

  function DailyDbMultiplier(env: map<string, string>): (r: Result<int, LimitError>)
    ensures DailyMultiplierVar !in env ==> r == Ok(1440)
    ensures DailyMultiplierVar in env ==> r == ToInt(env[DailyMultiplierVar])
  {
    if DailyMultiplierVar in env then ToInt(env[DailyMultiplierVar]) else Ok(1440)
  }

  /** The limit number of one tier; hourly tier `n` decays by 0.75^(n-1), written as 3^(n-1)/4^(n-1). */
  function TierLimit(args: LimitArgs, env: map<string, string>, ctx: KeyContext, t: Tier): (r: Result<int, LimitError>)
    requires t.Hourly? ==> t.n >= 1
    ensures t == Minute ==>
      r == Ok(GetReqLimits(if args.reqLimit == -1 then Unlimited else args.reqLimit, ctx, 1, 1, 1))
    ensures t.Hourly? ==> (r.Ok? <==> HourlyDbMultiplier(env, t.n).Ok?)
    ensures t.Daily? ==> (r.Ok? <==> DailyDbMultiplier(env).Ok?)
  {
    match t
    case Minute =>
      Ok(GetReqLimits(if args.reqLimit == -1 then Unlimited else args.reqLimit, ctx, 1, 1, 1))
    case Hourly(n) =>
      var dbMultiplier :- HourlyDbMultiplier(env, n);
      Ok(GetReqLimits(args.hourlyReqLimit * n, ctx, dbMultiplier, Pow(3, n - 1), Pow(4, n - 1)))
    case Daily =>
      var dbMultiplier :- DailyDbMultiplier(env);
      Ok(GetReqLimits(args.dailyReqLimit, ctx, dbMultiplier, 1, 1))
  }

  /** The text the tier callable returns: "L per minute", "L per n hour" or "L per day". */
  function TierText(args: LimitArgs, env: map<string, string>, ctx: KeyContext, t: Tier): (r: Result<string, LimitError>)
    requires t.Hourly? ==> t.n >= 1
    ensures r.Ok? <==> TierLimit(args, env, ctx, t).Ok?
    ensures r.Ok? ==> IntToString(TierLimit(args, env, ctx, t).value) <= r.value
    ensures r.Ok? && t == Minute ==> EndsWith(r.value, " per minute")
    ensures r.Ok? && t.Hourly? ==> EndsWith(r.value, " per " + NatToString(t.n) + " hour")
    ensures r.Ok? && t == Daily ==> EndsWith(r.value, " per day")
    ensures r.Ok? ==> |r.value| == |IntToString(TierLimit(args, env, ctx, t).value)| + |TierPeriod(t)|
  {
    var limit :- TierLimit(args, env, ctx, t);
    var text := IntToString(limit);
    var suffix := TierPeriod(t);
    ConcatEnds(text, suffix);
    Ok(text + suffix)
  }

  /** The period part of a tier's text. */
  function TierPeriod(t: Tier): string
  {
    match t
    case Minute => " per minute"
    case Hourly(n) => " per " + NatToString(n) + " hour"
    case Daily => " per day"
  }

  /**
   * Hourly tier `n` without an applicable key allows floor(hourly * n * 3^(n-1) / 4^(n-1)),
   * and the first hourly tier is not decayed.
   */
  lemma HourlyTierWithoutKey(args: LimitArgs, env: map<string, string>, ctx: KeyContext, n: nat)
    requires n >= 1 && args.hourlyReqLimit > 0 && !KeyApplies(ctx)
    requires HourlyMultiplierVar !in env
    ensures TierLimit(args, env, ctx, Hourly(n)).Ok?
    ensures var l := TierLimit(args, env, ctx, Hourly(n)).value;
      l * Pow(4, n - 1) <= args.hourlyReqLimit * n * Pow(3, n - 1) < (l + 1) * Pow(4, n - 1)
    ensures n == 1 ==> TierLimit(args, env, ctx, Hourly(n)).value == args.hourlyReqLimit
  {
    var base := args.hourlyReqLimit * n;
    assert base * Pow(3, n - 1) >= 0;
  }

  /** With an applicable key and the variable unset, hourly tier `n` scales the key's limit by 60 * n before decaying. */
  lemma HourlyTierWithKey(args: LimitArgs, env: map<string, string>, ctx: KeyContext, n: nat)
    requires n >= 1 && KeyApplies(ctx) && ctx.lookup.value.reqLimit >= 0
    requires HourlyMultiplierVar !in env
    ensures TierLimit(args, env, ctx, Hourly(n)).Ok?
    ensures var l := TierLimit(args, env, ctx, Hourly(n)).value;
      var base := ctx.lookup.value.reqLimit * (60 * n);
      l * Pow(4, n - 1) <= base * Pow(3, n - 1) < (l + 1) * Pow(4, n - 1)
  {
    var base := ctx.lookup.value.reqLimit * (60 * n);
    assert base * Pow(3, n - 1) >= 0;
  }

  /** The third hourly tier of a 100-per-hour limit allows floor(300 * 9 / 16) = 168. */
  lemma ThirdHourlyTierExample(ctx: KeyContext)
    requires !KeyApplies(ctx)
    ensures TierLimit(LimitArgs(-1, 100, 2, 0), map[], ctx, Hourly(3)) == Ok(168)
  {
    assert Pow(3, 2) == 9 && Pow(4, 2) == 16;
  }

  /** A multiplier variable of "2" for the second hourly tier reads as 22, not 2 * 2. */
  lemma MultiplierStringIsRepeated()
    ensures HourlyDbMultiplier(map[HourlyMultiplierVar := "2"], 2) == ToInt("22")
  {
    assert Repeat("2", 2) == "22";
  }

  /** Ticks of the request-duration clock per second. */
  const TicksPerSecond := 1000

  /** `math.ceil(duration / req_time_cost)` with the duration counted in ticks. */
  function DurationCost(durationTicks: nat, reqTimeCost: int): (c: nat)
    requires reqTimeCost > 0
    ensures (c - 1) * (reqTimeCost * TicksPerSecond) < durationTicks <= c * (reqTimeCost * TicksPerSecond)
  {
    CeilDiv(durationTicks, reqTimeCost * TicksPerSecond)
  }

  /** `limits_cost()`: the request's own cost (1 when unset), raised to the duration cost when time cost is on. */
  function LimitsCost(reqCost: Option<int>, reqTimeCost: int, durationTicks: nat): (c: int)
    ensures reqTimeCost <= 0 ==> c == reqCost.GetOr(1)
    ensures reqTimeCost > 0 ==>
      c >= reqCost.GetOr(1) && c >= DurationCost(durationTicks, reqTimeCost) &&
      (c == reqCost.GetOr(1) || c == DurationCost(durationTicks, reqTimeCost))
  {
    var rc := reqCost.GetOr(1);
    if reqTimeCost > 0 then
      var dc := DurationCost(durationTicks, reqTimeCost);
      if rc >= dc then rc else dc
    else rc
  }

  /** `max(1, len(q))` for a batch request. */
  function BatchCost(count: nat): (c: int)
    ensures c >= 1 && c >= count && (c == 1 || c == count)
  {
    if count >= 1 then count else 1
  }

  /** `max(1, int(size / char_limit))` for a file; no cost is assigned unless the limit is positive. */
  function FileCost(size: nat, charLimit: int): (c: Option<int>)
    ensures c.Some? <==> charLimit > 0
    ensures c.Some? ==> c.value >= 1
    ensures c.Some? && c.value > 1 ==> c.value * charLimit <= size < (c.value + 1) * charLimit
    ensures c.Some? && size >= charLimit ==> c.value * charLimit <= size
    ensures c.Some? ==> (c.value == 1 <==> size < 2 * charLimit)
  {
    if charLimit > 0 then
      FloorDivBounds(size, charLimit);
      var q := size / charLimit;
      Some(if q >= 1 then q else 1)
    else None
  }

  /** Every request that goes through the cost function is charged at least 1. */
  lemma CostIsPositive(reqCost: Option<int>, reqTimeCost: int, durationTicks: nat)
    requires reqCost.Some? ==> reqCost.value >= 1
    ensures LimitsCost(reqCost, reqTimeCost, durationTicks) >= 1
  {
  }

  /** A request that set no cost and took `k` whole time units costs `k` (at least 1). */
  lemma SlowRequestCost(reqTimeCost: int, k: nat)
    requires reqTimeCost > 0
    ensures LimitsCost(None, reqTimeCost, k * reqTimeCost * TicksPerSecond) == if k >= 1 then k else 1
  {
    var unit := reqTimeCost * TicksPerSecond;
    assert k * reqTimeCost * TicksPerSecond == k * unit;
    CeilDivOfMultiple(k, unit);
  }

  /** The elements `filter_unique` keeps from `s`: each first occurrence that is not in `excluded`. */
  function FirstOccurrences(s: seq<string>, excluded: set<string>): seq<string>
  {
    if |s| == 0 then []
    else
      var init := s[..|s| - 1];
      FirstOccurrences(init, excluded) + (if s[|s| - 1] in excluded || s[|s| - 1] in init then [] else [s[|s| - 1]])
  }

  /** `filter_unique(seq, extra)`: keeps first occurrences, in order, dropping "" and `extra`. */
  method FilterUnique(s: seq<string>, extra: string) returns (r: seq<string>)
    ensures r == FirstOccurrences(s, {extra, ""})
  {
    var seen := {extra, ""};
    r := [];
    var i := 0;
    while i < |s|
      invariant 0 <= i <= |s|
      invariant r == FirstOccurrences(s[..i], {extra, ""})
      invariant seen == {extra, ""} + set k | 0 <= k < i :: s[k]
    {
      assert s[..i + 1][..i] == s[..i];
      assert s[i] in s[..i] <==> exists k :: 0 <= k < i && s[k] == s[i];
      if s[i] !in seen {
        seen := seen + {s[i]};
        r := r + [s[i]];
      }
      i := i + 1;
    }
    assert s[..|s|] == s;
  }

  /** What is kept is exactly the elements of `s` outside `excluded`, each once. */
  lemma {:induction false} FirstOccurrencesSpec(s: seq<string>, excluded: set<string>)
    ensures forall x :: x in FirstOccurrences(s, excluded) <==> x in s && x !in excluded
    ensures forall i, j :: 0 <= i < j < |FirstOccurrences(s, excluded)| ==>
      FirstOccurrences(s, excluded)[i] != FirstOccurrences(s, excluded)[j]
  {
    if |s| > 0 {
      var init := s[..|s| - 1];
      FirstOccurrencesSpec(init, excluded);
      assert s == init + [s[|s| - 1]];
    }
  }

  /** Kept elements appear in the order of their first occurrence. */
  lemma {:induction false} FirstOccurrencesOrder(s: seq<string>, excluded: set<string>, i: nat, j: nat)
    requires i < j < |FirstOccurrences(s, excluded)|
    ensures exists a, b :: (0 <= a < b < |s| && s[a] == FirstOccurrences(s, excluded)[i] &&
      s[b] == FirstOccurrences(s, excluded)[j] && s[b] !in s[..b])
  {
    var init := s[..|s| - 1];
    var f := FirstOccurrences(s, excluded);
    var g := FirstOccurrences(init, excluded);
    assert s == init + [s[|s| - 1]];
    if j < |g| {
      FirstOccurrencesOrder(init, excluded, i, j);
      var a, b :| 0 <= a < b < |init| && init[a] == g[i] && init[b] == g[j] && init[b] !in init[..b];
      assert init[..b] == s[..b];
    } else {
      FirstOccurrencesSpec(init, excluded);
      assert g[i] in init;
      var a :| 0 <= a < |init| && init[a] == g[i];
      assert s[|s| - 1] !in init;
    }
  }

  /** The attachment name of a downloaded file: everything after its first '.', or "" without one. */
  function DownloadName(filename: string): (name: string)
    ensures FirstIndex(filename, '.').None? ==> name == ""
    ensures FirstIndex(filename, '.').Some? ==> name == filename[FirstIndex(filename, '.').value + 1..]
  {
    JoinTailOfSplit(filename, '.');
    Join(Split(filename, ".")[1..], ".")
  }

  /** The name prefix that was dropped, a '.', and the download name give back the stored file name. */
  lemma DownloadNameRoundTrip(filename: string)
    requires '.' in filename
    ensures Split(filename, ".")[0] + "." + DownloadName(filename) == filename
  {
    SplitFirstPiece(filename, '.');
    var k := FirstIndex(filename, '.').value;
    assert filename == filename[..k] + "." + filename[k + 1..];
  }
}

=== FILE: locales.dfy ===
/**
 * libretranslate/locales.py: the list of UI locales found on disk, the
 * alternate-language links built from `LT_LOCALE_LINK_TEMPLATE`, and the
 * traversal that passes the swagger spec's texts through a translation
 * function. The directory listing and the parsed meta.json files are inputs.
 */
module Locales {
  import opened Wrappers
  import opened Text
  import Sorting

  /** What meta.json holds: no file, text `json.loads` rejects, a non-object, or an object's `reviewed` and `name` keys. */
  datatype Meta = NoMetaFile | Unparseable | NotObject | Object(reviewed: Option<bool>, name: Option<string>)

  /** One entry of the locales directory: its name, whether it has LC_MESSAGES, and its meta.json. */
  datatype LocaleDir = LocaleDir(name: string, hasMessages: bool, meta: Meta)

  datatype Locale = Locale(code: string, name: string, reviewed: bool)

  /** `j.get(...)` on a meta.json that is not an object. */
  datatype LocaleError = AttributeError(dir: string)

  const English := Locale("en", "English", true)

  /** `j.get('reviewed') or not only_reviewed`. */
  predicate Wanted(meta: Meta, onlyReviewed: bool)
    requires meta.Object?
  {
    meta.reviewed == Some(true) || !onlyReviewed
  }

  function LocaleOf(d: LocaleDir): Locale
    requires d.meta.Object?
  {
    Locale(d.name, d.meta.name.GetOr(""), d.meta.reviewed.GetOr(false))
  }

  /** The test that drops a directory entry before anything else: as written, on the joined path; as intended, on the name. */
  datatype SkipTest = JoinedPath(localesDir: string) | DirName

  predicate Skipped(skip: SkipTest, d: LocaleDir)
  {
    match skip
    case JoinedPath(dir) => dir + "/" + d.name == "en"
    case DirName => d.name == "en"
  }

  /** An entry the loop reaches `j.get` on with a meta.json that is not an object. */
  predicate Raises(skip: SkipTest, d: LocaleDir)
  {
    !Skipped(skip, d) && d.hasMessages && d.meta == NotObject
  }

  /**
   * The loop over directory entries, in listing order. An unparseable
   * meta.json is skipped; the first meta.json that is not an object raises.
   */
  function Collect(dirs: seq<LocaleDir>, onlyReviewed: bool, skip: SkipTest): (r: Result<seq<Locale>, LocaleError>)
    ensures r.Ok? ==> |r.value| <= |dirs|
    ensures r.Ok? ==> forall l :: l in r.value ==>
      exists d :: d in dirs && !Skipped(skip, d) && d.hasMessages && d.meta.Object? && Wanted(d.meta, onlyReviewed) && l == LocaleOf(d)
    ensures r.Ok? ==> forall d :: d in dirs && !Skipped(skip, d) && d.hasMessages && d.meta.Object? && Wanted(d.meta, onlyReviewed) ==>
      LocaleOf(d) in r.value
    ensures r.Err? <==> exists d :: d in dirs && Raises(skip, d)
    ensures r.Err? ==>
      exists i :: 0 <= i < |dirs| && Raises(skip, dirs[i]) && r.error.dir == dirs[i].name &&
        (forall j :: 0 <= j < i ==> !Raises(skip, dirs[j]))
  {
    if |dirs| == 0 then Ok([])
    else
      var d := dirs[0];
      assert forall e :: e in dirs <==> e == d || e in dirs[1..];
      if Raises(skip, d) then Err(AttributeError(d.name))
      else
        var tail := Collect(dirs[1..], onlyReviewed, skip);
        FirstOffenderShifts(tail, dirs, skip);
        var rest :- tail;
        if Skipped(skip, d) || !d.hasMessages || d.meta.NoMetaFile? || d.meta.Unparseable? then Ok(rest)
        else if Wanted(d.meta, onlyReviewed) then Ok([LocaleOf(d)] + rest)
        else Ok(rest)
  }

  /** The first offender of the tail, after a harmless head, is the first offender of the whole listing. */
  lemma FirstOffenderShifts(r: Result<seq<Locale>, LocaleError>, dirs: seq<LocaleDir>, skip: SkipTest)
    requires |dirs| > 0 && !Raises(skip, dirs[0])
    requires r.Err? ==>
      exists i :: 0 <= i < |dirs| - 1 && Raises(skip, dirs[1..][i]) && r.error.dir == dirs[1..][i].name &&
        (forall j :: 0 <= j < i ==> !Raises(skip, dirs[1..][j]))
    ensures r.Err? ==>
      exists i :: 0 <= i < |dirs| && Raises(skip, dirs[i]) && r.error.dir == dirs[i].name &&
        (forall j :: 0 <= j < i ==> !Raises(skip, dirs[j]))
  {
    if r.Err? {
      var i :| 0 <= i < |dirs| - 1 && Raises(skip, dirs[1..][i]) && r.error.dir == dirs[1..][i].name &&
        (forall j :: 0 <= j < i ==> !Raises(skip, dirs[1..][j]));
      forall j | 0 <= j < i + 1 ensures !Raises(skip, dirs[j]) {
        if j > 0 { assert dirs[j] == dirs[1..][j - 1]; }
      }
      assert dirs[i + 1] == dirs[1..][i];
    }
  }

  /** English first, then the collected locales, sorted by name (stably) when asked. */
  function Assemble(collected: Result<seq<Locale>, LocaleError>, sortByName: bool): (r: Result<seq<Locale>, LocaleError>)
    ensures r.Ok? <==> collected.Ok?
    ensures r.Ok? && !sortByName ==> r.value == [English] + collected.value
    ensures r.Ok? ==> multiset(r.value) == multiset([English] + collected.value)
    ensures r.Ok? && sortByName ==> Sorting.SortedBy(r.value, (l: Locale) => l.name)
    ensures r.Ok? ==> English in r.value && forall l :: l in r.value ==> l == English || l in collected.value
    ensures r.Ok? ==> forall l :: l in collected.value ==> l in r.value
  {
    var found :- collected;
    var res := [English] + found;
    var out := if sortByName then Sorting.SortBy(res, (l: Locale) => l.name) else res;
    Sorting.SameMembers(out, res);
    assert forall l :: l in res <==> l == English || l in found;
    Ok(out)
  }

  /**
   * `get_available_locales` as written: the skip test compares the joined
   * path `locales_dir/d` with "en", so it never skips anything.
   */
  function AvailableLocalesAsWritten(localesDir: string, dirs: seq<LocaleDir>, onlyReviewed: bool, sortByName: bool): (r: Result<seq<Locale>, LocaleError>)
    ensures r == Assemble(Collect(dirs, onlyReviewed, JoinedPath(localesDir)), sortByName)
  {
    Assemble(Collect(dirs, onlyReviewed, JoinedPath(localesDir)), sortByName)
  }

  /** The joined path contains a '/', so the written skip test never holds. */
  lemma WrittenSkipNeverHolds(localesDir: string, d: LocaleDir)
    ensures localesDir + "/" + d.name != "en"
  {
    assert (localesDir + "/" + d.name)[|localesDir|] == '/';
  }

  /** `get_available_locales` with the skip test on the directory name, as the code evidently intends. */
  function AvailableLocales(dirs: seq<LocaleDir>, onlyReviewed: bool, sortByName: bool): (r: Result<seq<Locale>, LocaleError>)
    ensures r.Ok? && !sortByName ==> |r.value| > 0 && r.value[0] == English
    ensures r.Ok? ==> English in r.value
    ensures r.Ok? ==> forall l :: l in r.value && l.code == "en" ==> l == English
    ensures r.Ok? ==> forall d :: d in dirs && d.name != "en" && d.hasMessages && d.meta.Object? && Wanted(d.meta, onlyReviewed) ==>
      LocaleOf(d) in r.value
    ensures r.Ok? ==> multiset(r.value)[English] == 1
    ensures r.Ok? ==> forall l :: l in r.value && l != English ==>
      exists d :: d in dirs && d.name != "en" && d.hasMessages && d.meta.Object? && Wanted(d.meta, onlyReviewed) && l == LocaleOf(d)
    ensures r.Err? <==> exists d :: d in dirs && d.name != "en" && d.hasMessages && d.meta == NotObject
  {
    var collected := Collect(dirs, onlyReviewed, DirName);
    EnglishNotCollected(dirs, onlyReviewed);
    Assemble(collected, sortByName)
  }

  /** No directory the corrected loop keeps yields the English entry. */
  lemma EnglishNotCollected(dirs: seq<LocaleDir>, onlyReviewed: bool)
    ensures var c := Collect(dirs, onlyReviewed, DirName);
      c.Ok? ==> English !in c.value && multiset([English] + c.value)[English] == 1
  {
    var c := Collect(dirs, onlyReviewed, DirName);
    if c.Ok? {
      assert multiset([English] + c.value) == multiset([English]) + multiset(c.value);
    }
  }

  /**
   * An English directory that qualifies is listed twice by the written
   * version and once by the intended one.
   */
  lemma EnglishListedTwice(localesDir: string, meta: Meta)
    requires meta == Object(Some(true), Some("English"))
    ensures AvailableLocalesAsWritten(localesDir, [LocaleDir("en", true, meta)], true, false) == Ok([English, English])
    ensures AvailableLocales([LocaleDir("en", true, meta)], true, false) == Ok([English])
  {
    var d := LocaleDir("en", true, meta);
    WrittenSkipNeverHolds(localesDir, d);
    assert LocaleOf(d) == English;
    assert [d][1..] == [];
    assert !Skipped(JoinedPath(localesDir), d);
    assert Wanted(meta, true);
    assert Collect([], true, JoinedPath(localesDir)) == Ok([]);
    var written := Collect([d], true, JoinedPath(localesDir));
    assert written.Ok? && |written.value| == 1 && written.value[0] == English;
    assert written.value == [English];
    assert [English] + written.value == [English, English];
    assert Collect([d], true, DirName) == Ok([]);
  }

  /** One alternate link: the page URL for a UI language. */
  datatype Link = Link(link: string, lang: string)

  /** The link for one code: every "{LANG}" becomes the code, and for "en" every "en." is then removed. */
  function LinkFor(template: string, code: string): (link: string)
    ensures code != "en" ==> link == ReplaceAll(template, "{LANG}", code)
    ensures code == "en" ==> link == ReplaceAll(ReplaceAll(template, "{LANG}", code), "en.", "")
  {
    var link := ReplaceAll(template, "{LANG}", code);
    if code == "en" then ReplaceAll(link, "en.", "") else link
  }

  /** `get_alternate_locale_links()`: no template, no links; otherwise one link per locale code, in order. */
  function AlternateLinks(template: Option<string>, codes: seq<string>): (r: seq<Link>)
    ensures template.None? ==> r == []
    ensures template.Some? ==> (|r| == |codes| &&
      forall i :: 0 <= i < |codes| ==> r[i] == Link(LinkFor(template.value, codes[i]), codes[i]))
  {
    match template
    case None => []
    case Some(t) => seq(|codes|, i requires 0 <= i < |codes| => Link(LinkFor(t, codes[i]), codes[i]))
  }

  /** A template without the slot yields the template itself for every language but English. */
  lemma TemplateWithoutSlot(template: string, code: string)
    requires !Contains(template, "{LANG}") && code != "en"
    ensures LinkFor(template, code) == template
  {
    ReplaceAbsent(template, "{LANG}", code);
  }

  /** With a subdomain template, another language gets its own subdomain ... */
  lemma SubdomainTemplateOther()
    ensures LinkFor("{LANG}.x.io", "de") == "de.x.io"
  {
    assert "{LANG}" <= "{LANG}.x.io";
    assert "{LANG}.x.io"[6..] == ".x.io";
    ShortNoContains(".x.io", "{LANG}");
    ReplaceAbsent(".x.io", "{LANG}", "de");
  }

  /** ... and English gets the bare domain. */
  lemma SubdomainTemplateEnglish()
    ensures LinkFor("{LANG}.x.io", "en") == "x.io"
  {
    assert "{LANG}" <= "{LANG}.x.io";
    assert "{LANG}.x.io"[6..] == ".x.io";
    ShortNoContains(".x.io", "{LANG}");
    ReplaceAbsent(".x.io", "{LANG}", "en");
    assert ReplaceAll("{LANG}.x.io", "{LANG}", "en") == "en.x.io";
    assert "en." <= "en.x.io";
    assert "en.x.io"[3..] == "x.io";
    assert !("en." <= "x.io");
    assert "x.io"[1..] == ".io";
    assert !("en." <= ".io");
    assert ".io"[1..] == "io";
    ShortNoContains("io", "en.");
    ReplaceAbsent("x.io", "en.", "");
    assert ReplaceAll("en.x.io", "en.", "") == "" + "x.io";
  }

  /** The swagger spec's JSON values. */
  datatype Json = JStr(s: string) | JList(items: seq<Json>) | JDict(entries: seq<Entry>) | JOther
  datatype Entry = Entry(key: string, value: Json)

  /** `swag_eval(swag, func)` on a dict, returning the rewritten dict. */
  function SwagEval(entries: seq<Entry>, func: Json -> Json): (r: seq<Entry>)
    ensures |r| == |entries|
    ensures forall i :: 0 <= i < |entries| ==> r[i].key == entries[i].key
    decreases entries, 1
  {
    if |entries| == 0 then []
    else [Entry(entries[0].key, EvalValue(entries[0], func))] + SwagEval(entries[1..], func)
  }

  /** The new value of one key. */
  function EvalValue(e: Entry, func: Json -> Json): (v: Json)
    ensures (e.key == "summary" || e.key == "description") && e.value.JStr? && e.value.s != "" ==> v == func(e.value)
    ensures e.key == "tags" && e.value.JList? ==> (v.JList? && |v.items| == |e.value.items| &&
      forall i :: 0 <= i < |v.items| ==> v.items[i] == func(e.value.items[i]))
    ensures e.key == "consumes" && e.value.JList? ==> v == e.value
    ensures e.value.JStr? && e.key != "summary" && e.key != "description" ==> v == e.value
    ensures e.value.JOther? ==> v == e.value
    ensures e.value.JDict? ==> v == JDict(SwagEval(e.value.entries, func))
    ensures e.value.JList? && e.key != "tags" && e.key != "consumes" ==> v == JList(EvalItems(e.value.items, func))
    decreases e, 0
  {
    match e.value
    case JStr(s) => if (e.key == "summary" || e.key == "description") && s != "" then func(e.value) else e.value
    case JList(items) =>
      if e.key == "tags" then JList(seq(|items|, i requires 0 <= i < |items| => func(items[i])))
      else if e.key == "consumes" then e.value
      else JList(EvalItems(items, func))
    case JDict(entries) => JDict(SwagEval(entries, func))
    case JOther => e.value
  }

  /** The elements of a list other than "consumes": dicts are evaluated in place; strings are passed to `func` but kept. */
  function EvalItems(items: seq<Json>, func: Json -> Json): (r: seq<Json>)
    ensures |r| == |items|
    ensures forall i :: 0 <= i < |items| && !items[i].JDict? ==> r[i] == items[i]
    ensures forall i :: 0 <= i < |items| && items[i].JDict? ==> r[i] == JDict(SwagEval(items[i].entries, func))
    decreases items
  {
    if |items| == 0 then []
    else
      var first := match items[0] case JDict(entries) => JDict(SwagEval(entries, func)) case _ => items[0];
      [first] + EvalItems(items[1..], func)
  }

  /** With the identity function nothing changes: the traversal rewrites only what `func` returns. */
  lemma {:induction false} IdentityChangesNothing(entries: seq<Entry>, func: Json -> Json)
    requires forall j :: func(j) == j
    ensures SwagEval(entries, func) == entries
    decreases entries, 2
  {
    if |entries| > 0 {
      IdentityValue(entries[0], func);
      IdentityChangesNothing(entries[1..], func);
    }
  }

  lemma {:induction false} IdentityValue(e: Entry, func: Json -> Json)
    requires forall j :: func(j) == j
    ensures EvalValue(e, func) == e.value
    decreases e, 1
  {
    match e.value
    case JDict(entries) => IdentityChangesNothing(entries, func);
    case JList(items) =>
      if e.key != "tags" && e.key != "consumes" {
        IdentityItems(items, func);
      }
    case _ =>
  }

  lemma {:induction false} IdentityItems(items: seq<Json>, func: Json -> Json)
    requires forall j :: func(j) == j
    ensures EvalItems(items, func) == items
    decreases items, 1
  {
    if |items| > 0 {
      if items[0].JDict? {
        IdentityChangesNothing(items[0].entries, func);
      }
      IdentityItems(items[1..], func);
    }
  }
}

=== FILE: numbers.dfy ===
/**
 * Integer helpers with Python's semantics: `str(n)`, `int(s)`, `int(x)` on a
 * positive-denominator fraction (truncation toward zero), `math.ceil` of a
 * quotient, and `**`.
 */
module Numbers {
  import opened Wrappers
  import Text

  predicate IsDigit(c: char) { '0' <= c <= '9' }

  function DigitChar(d: nat): (c: char)
    requires d < 10
    ensures IsDigit(c)
  {
    ('0' as int + d) as char
  }

  function DigitValue(c: char): (d: nat)
    requires IsDigit(c)
    ensures d < 10 && DigitChar(d) == c
  {
    c as int - '0' as int
  }

  /** Python's `str(n)` for a natural number: decimal digits, no leading zero. */
  function NatToString(n: nat): (s: string)
    ensures |s| > 0
    ensures forall i :: 0 <= i < |s| ==> IsDigit(s[i])
    ensures |s| > 1 ==> s[0] != '0'
    decreases n
  {
    if n < 10 then [DigitChar(n)] else NatToString(n / 10) + [DigitChar(n % 10)]
  }

  /** Python's `str(i)` for an integer. */
  function IntToString(i: int): (s: string)
    ensures |s| > 0
  {
    if i < 0 then "-" + NatToString(-i) else NatToString(i)
  }

  /**
   * The code point of the digit zero of the run of Unicode decimal digits
   * (general category Nd, Unicode 15.0 as in Python 3.12) that holds `n`, or
   * -1. There are 68 runs, each of the ten digits 0 to 9 at consecutive code
   * points, compared here in ascending order.
   */
  function DecimalZero(n: int): (z: int)
    ensures z == -1 || z <= n < z + 10
  {
    if n < 0x0030 then -1 else if n < 0x003A then 0x0030
    else if n < 0x0660 then -1 else if n < 0x066A then 0x0660
    else if n < 0x06F0 then -1 else if n < 0x06FA then 0x06F0
    else if n < 0x07C0 then -1 else if n < 0x07CA then 0x07C0
    else if n < 0x0966 then -1 else if n < 0x0970 then 0x0966
    else if n < 0x09E6 then -1 else if n < 0x09F0 then 0x09E6
    else if n < 0x0A66 then -1 else if n < 0x0A70 then 0x0A66
    else if n < 0x0AE6 then -1 else if n < 0x0AF0 then 0x0AE6
    else if n < 0x0B66 then -1 else if n < 0x0B70 then 0x0B66
    else if n < 0x0BE6 then -1 else if n < 0x0BF0 then 0x0BE6
    else if n < 0x0C66 then -1 else if n < 0x0C70 then 0x0C66
    else if n < 0x0CE6 then -1 else if n < 0x0CF0 then 0x0CE6
    else if n < 0x0D66 then -1 else if n < 0x0D70 then 0x0D66
    else if n < 0x0DE6 then -1 else if n < 0x0DF0 then 0x0DE6
    else if n < 0x0E50 then -1 else if n < 0x0E5A then 0x0E50
    else if n < 0x0ED0 then -1 else if n < 0x0EDA then 0x0ED0
    else if n < 0x0F20 then -1 else if n < 0x0F2A then 0x0F20
    else if n < 0x1040 then -1 else if n < 0x104A then 0x1040
    else if n < 0x1090 then -1 else if n < 0x109A then 0x1090
    else if n < 0x17E0 then -1 else if n < 0x17EA then 0x17E0
    else if n < 0x1810 then -1 else if n < 0x181A then 0x1810
    else if n < 0x1946 then -1 else if n < 0x1950 then 0x1946
    else if n < 0x19D0 then -1 else if n < 0x19DA then 0x19D0
    else if n < 0x1A80 then -1 else if n < 0x1A8A then 0x1A80
    else if n < 0x1A90 then -1 else if n < 0x1A9A then 0x1A90
    else if n < 0x1B50 then -1 else if n < 0x1B5A then 0x1B50
    else if n < 0x1BB0 then -1 else if n < 0x1BBA then 0x1BB0
    else if n < 0x1C40 then -1 else if n < 0x1C4A then 0x1C40
    else if n < 0x1C50 then -1 else if n < 0x1C5A then 0x1C50
    else if n < 0xA620 then -1 else if n < 0xA62A then 0xA620
    else if n < 0xA8D0 then -1 else if n < 0xA8DA then 0xA8D0
    else if n < 0xA900 then -1 else if n < 0xA90A then 0xA900
    else if n < 0xA9D0 then -1 else if n < 0xA9DA then 0xA9D0
    else if n < 0xA9F0 then -1 else if n < 0xA9FA then 0xA9F0
    else if n < 0xAA50 then -1 else if n < 0xAA5A then 0xAA50
    else if n < 0xABF0 then -1 else if n < 0xABFA then 0xABF0
    else if n < 0xFF10 then -1 else if n < 0xFF1A then 0xFF10
    else if n < 0x104A0 then -1 else if n < 0x104AA then 0x104A0
    else if n < 0x10D30 then -1 else if n < 0x10D3A then 0x10D30
    else if n < 0x11066 then -1 else if n < 0x11070 then 0x11066
    else if n < 0x110F0 then -1 else if n < 0x110FA then 0x110F0
    else if n < 0x11136 then -1 else if n < 0x11140 then 0x11136
    else if n < 0x111D0 then -1 else if n < 0x111DA then 0x111D0
    else if n < 0x112F0 then -1 else if n < 0x112FA then 0x112F0
    else if n < 0x11450 then -1 else if n < 0x1145A then 0x11450
    else if n < 0x114D0 then -1 else if n < 0x114DA then 0x114D0
    else if n < 0x11650 then -1 else if n < 0x1165A then 0x11650
    else if n < 0x116C0 then -1 else if n < 0x116CA then 0x116C0
    else if n < 0x11730 then -1 else if n < 0x1173A then 0x11730
    else if n < 0x118E0 then -1 else if n < 0x118EA then 0x118E0
    else if n < 0x11950 then -1 else if n < 0x1195A then 0x11950
    else if n < 0x11C50 then -1 else if n < 0x11C5A then 0x11C50
    else if n < 0x11D50 then -1 else if n < 0x11D5A then 0x11D50
    else if n < 0x11DA0 then -1 else if n < 0x11DAA then 0x11DA0
    else if n < 0x11F50 then -1 else if n < 0x11F5A then 0x11F50
    else if n < 0x16A60 then -1 else if n < 0x16A6A then 0x16A60
    else if n < 0x16AC0 then -1 else if n < 0x16ACA then 0x16AC0
    else if n < 0x16B50 then -1 else if n < 0x16B5A then 0x16B50
    else if n < 0x1D7CE then -1 else if n < 0x1D7D8 then 0x1D7CE
    else if n < 0x1D7D8 then -1 else if n < 0x1D7E2 then 0x1D7D8
    else if n < 0x1D7E2 then -1 else if n < 0x1D7EC then 0x1D7E2
    else if n < 0x1D7EC then -1 else if n < 0x1D7F6 then 0x1D7EC
    else if n < 0x1D7F6 then -1 else if n < 0x1D800 then 0x1D7F6
    else if n < 0x1E140 then -1 else if n < 0x1E14A then 0x1E140
    else if n < 0x1E2F0 then -1 else if n < 0x1E2FA then 0x1E2F0
    else if n < 0x1E4F0 then -1 else if n < 0x1E4FA then 0x1E4F0
    else if n < 0x1E950 then -1 else if n < 0x1E95A then 0x1E950
    else if n < 0x1FBF0 then -1 else if n < 0x1FBFA then 0x1FBF0
    else -1
  }

  /** What Python's `int()` reads as a digit: any Unicode decimal digit, with its value. */
  function DecimalValue(c: char): (d: Option<nat>)
    ensures d.Some? ==> d.value < 10
  {
    var z := DecimalZero(c as int);
    if z == -1 then None else Some(c as int - z)
  }

  predicate IsDecimal(c: char) { DecimalValue(c).Some? }

  /** Below the second run, the decimal digits are exactly the ASCII digits, with their usual values. */
  lemma AsciiDecimal(c: char)
    requires (c as int) < 0x0660
    ensures IsDecimal(c) <==> IsDigit(c)
    ensures IsDigit(c) ==> DecimalValue(c) == Some(DigitValue(c))
  {
  }

  /** Arabic-Indic digits are decimal: U+0664 U+0662 reads as 42. */
  lemma ArabicIndicDigits()
    ensures ParseInt([0x664 as char, 0x662 as char]) == Some(42)
  {
    var s := [0x664 as char, 0x662 as char];
    assert DecimalValue(s[0]) == Some(4) && DecimalValue(s[1]) == Some(2);
    Text.StripNoSpace(s);
    assert IsDigitGroups(s);
    assert s[..1] == [s[0]] && s[..1][..0] == [];
    calc {
      DigitsValue(s);
      DigitsValue(s[..1]) * 10 + 2;
      (DigitsValue(s[..1][..0]) * 10 + 4) * 10 + 2;
      42;
    }
  }

  /** The digit run accepted by Python's `int()`: decimal digits, with single underscores between digits. */
  predicate IsDigitGroups(b: string)
  {
    && |b| > 0
    && DigitsOrUnderscores(b)
    && IsDecimal(b[0])
    && forall i :: 0 <= i < |b| ==> IsDecimal(b[i]) || (b[i] == '_' && 0 < i < |b| - 1 && IsDecimal(b[i + 1]))
  }

  predicate DigitsOrUnderscores(b: string)
  {
    forall i :: 0 <= i < |b| ==> IsDecimal(b[i]) || b[i] == '_'
  }

  /** The value of a digit run, underscores ignored. */
  function DigitsValue(b: string): nat
    requires DigitsOrUnderscores(b)
  {
    if |b| == 0 then 0
    else if b[|b| - 1] == '_' then DigitsValue(b[..|b| - 1])
    else DigitsValue(b[..|b| - 1]) * 10 + DecimalValue(b[|b| - 1]).value
  }

  /** Python's `int(s)` on a string: surrounding whitespace, an optional sign, digit groups; anything else is a `ValueError`, here `None`. */
  function ParseInt(s: string): (r: Option<int>)
    ensures r.Some? ==> |Text.Strip(s)| > 0
  {
    var t := Text.Strip(s);
    if |t| == 0 then None
    else
      var neg := t[0] == '-';
      var body := if t[0] == '-' || t[0] == '+' then t[1..] else t;
      if IsDigitGroups(body) then
        var v: int := DigitsValue(body);
        Some(if neg then -v else v)
      else None
  }

  /** The ASCII digits `str(n)` prints are decimal digits of their own value. */
  lemma AsciiDigitsDecimal(s: string)
    requires forall i :: 0 <= i < |s| ==> IsDigit(s[i])
    ensures forall i :: 0 <= i < |s| ==> IsDecimal(s[i]) && DecimalValue(s[i]) == Some(DigitValue(s[i]))
  {
    forall i | 0 <= i < |s| ensures IsDecimal(s[i]) && DecimalValue(s[i]) == Some(DigitValue(s[i])) {
      AsciiDecimal(s[i]);
    }
  }

  lemma {:induction false} NatToStringValue(n: nat)
    ensures AllDecimal(NatToString(n)) && DigitsValue(NatToString(n)) == n
    decreases n
  {
    var s := NatToString(n);
    AsciiDigitsDecimal(s);
    if n >= 10 {
      NatToStringValue(n / 10);
      assert s[..|s| - 1] == NatToString(n / 10);
    }
  }

  predicate AllDecimal(s: string)
  {
    forall i :: 0 <= i < |s| ==> IsDecimal(s[i])
  }

  lemma NatToStringGroups(n: nat)
    ensures IsDigitGroups(NatToString(n))
  {
    AsciiDigitsDecimal(NatToString(n));
  }

  /** `int(str(i)) == i`: printing and parsing an integer round-trip. */
  lemma ParseIntToString(i: int)
    ensures ParseInt(IntToString(i)) == Some(i)
  {
    var s := IntToString(i);
    var n: nat := if i < 0 then -i else i;
    NatToStringValue(n);
    NatToStringGroups(n);
    Text.StripNoSpace(s);
    if i < 0 {
      assert s[1..] == NatToString(n);
    }
  }

  /** Python's `int(a / b)` for `b > 0`: the quotient truncated toward zero. */
  function TruncDiv(a: int, b: int): (q: int)
    requires b > 0
    ensures (a >= 0 ==> q >= 0) && (a <= 0 ==> q <= 0)
  {
    if a >= 0 then a / b else -((-a) / b)
  }

  /** `math.ceil(a / b)` for `a >= 0` and `b > 0`. */
  function CeilDiv(a: nat, b: nat): (q: nat)
    requires b > 0
    ensures (q - 1) * b < a <= q * b
  {
    (a + b - 1) / b
  }

  /** Floor division of a non-negative numerator brackets it between two multiples of the divisor. */
  lemma FloorDivBounds(a: int, b: int)
    requires a >= 0 && b > 0
    ensures (a / b) * b <= a < (a / b + 1) * b
  {
    var q, m := a / b, a % b;
    assert a == b * q + m;
    assert q * b + b == (q + 1) * b;
  }

  lemma MulMonotone(a: int, b: int, u: int)
    requires a <= b && u >= 0
    ensures a * u <= b * u
  {
    assert b * u - a * u == (b - a) * u;
  }

  /** Ceiling division of an exact multiple gives the multiplier back. */
  lemma CeilDivOfMultiple(k: nat, u: nat)
    requires u > 0
    ensures CeilDiv(k * u, u) == k
  {
    var q := CeilDiv(k * u, u);
    if q < k {
      MulMonotone(q, k - 1, u);
    } else if q > k {
      MulMonotone(k + 1, q, u);
    }
  }

  function Pow(b: nat, e: nat): (r: nat)
    ensures b > 0 ==> r > 0
  {
    if e == 0 then 1 else b * Pow(b, e - 1)
  }
}

=== FILE: placeholders.dfy ===
/**
 * The placeholder protection of the locale-update scripts
 * (scripts/update_locales.py and its older copy update_locales.py): before a
 * UI string goes to the machine translator, each `%(name)s`-style
 * placeholder found by a regular expression is replaced by a numbered tag
 * `<x>i</x>`; afterwards each tag is replaced back, and a placeholder whose
 * tag the translator dropped is appended at the end. The `re.findall`
 * result and the translator are inputs.
 */
module Placeholders {
  import opened Text
  import Numbers

  /** `"<x>%s</x>" % i`. */
  function Tag(i: nat): (t: string)
    ensures |t| > 0 && t[0] == '<' && '%' !in t
  {
    var d := Numbers.NatToString(i);
    assert forall c :: c in d ==> Numbers.IsDigit(c);
    "<x>" + d + "</x>"
  }

  predicate AllNonEmpty(ps: seq<string>)
  {
    forall i :: 0 <= i < |ps| ==> |ps[i]| > 0
  }

  /** The masking loop after its first `k` rounds: round `i` replaces every occurrence of placeholder `i` by tag `i`. */
  function MaskUpTo(text: string, ps: seq<string>, k: nat): string
    requires AllNonEmpty(ps) && k <= |ps|
  {
    if k == 0 then text else ReplaceAll(MaskUpTo(text, ps, k - 1), ps[k - 1], Tag(k - 1))
  }

  function Mask(text: string, ps: seq<string>): (r: string)
    requires AllNonEmpty(ps)
    ensures |ps| == 0 ==> r == text
  {
    MaskUpTo(text, ps, |ps|)
  }

  /** One restoring round: a present tag becomes its placeholder everywhere; a missing one appends " " and the placeholder. */
  function RestoreStep(translated: string, p: string, i: nat): string
  {
    if Contains(translated, Tag(i)) then ReplaceAll(translated, Tag(i), p) else translated + " " + p
  }

  function RestoreUpTo(translated: string, ps: seq<string>, k: nat): string
    requires k <= |ps|
  {
    if k == 0 then translated else RestoreStep(RestoreUpTo(translated, ps, k - 1), ps[k - 1], k - 1)
  }

  function Restore(translated: string, ps: seq<string>): (r: string)
    ensures |ps| == 0 ==> r == translated
  {
    RestoreUpTo(translated, ps, |ps|)
  }

  /**
   * The translation stored for one untranslated entry: with placeholders,
   * the masked text goes through the HTML translator and is restored;
   * without, the plain translator (with formatting improvement) is used.
   */
  function TranslateEntry(msgid: string, ps: seq<string>, html: string -> string, plain: string -> string): (r: string)
    requires AllNonEmpty(ps)
    ensures |ps| == 0 ==> r == plain(msgid)
  {
    if |ps| > 0 then Restore(html(Mask(msgid, ps)), ps) else plain(msgid)
  }

  // ----- the text as literal runs and placeholder holes -----

  /** A run of literal text, or the position of placeholder `i`. */
  datatype Seg = Lit(t: string) | Hole(i: nat)

  function Piece(s: Seg, fill: seq<string>): string
  {
    match s
    case Lit(t) => t
    case Hole(i) => if i < |fill| then fill[i] else ""
  }

  /** The text whose holes hold `fill`. */
  function Render(segs: seq<Seg>, fill: seq<string>): string
  {
    if |segs| == 0 then "" else Piece(segs[0], fill) + Render(segs[1..], fill)
  }

  /** A placeholder as the expression finds them: it starts with '%', has no other '%', and no '<'. */
  predicate PlaceholderShape(p: string)
  {
    |p| > 0 && p[0] == '%' && '%' !in p[1..] && '<' !in p
  }

  /** No placeholder is a prefix of another, so in particular they are pairwise distinct. */
  predicate PrefixFree(ps: seq<string>)
  {
    forall i, j :: 0 <= i < |ps| && 0 <= j < |ps| && i != j ==> !Compatible(ps[i], ps[j])
  }

  /**
   * The conditions under which masking is faithful: placeholders of the
   * expected shape, none nested in another, literal text without '%' or
   * '<', and every hole naming a listed placeholder.
   */
  predicate WellFormed(segs: seq<Seg>, ps: seq<string>)
  {
    && (forall i :: 0 <= i < |ps| ==> PlaceholderShape(ps[i]))
    && PrefixFree(ps)
    && (forall s :: s in segs && s.Lit? ==> '%' !in s.t && '<' !in s.t)
    && (forall s :: s in segs && s.Hole? ==> s.i < |ps|)
  }

  /** Every listed placeholder occurs in the text, as `re.findall` guarantees. */
  predicate Covered(segs: seq<Seg>, ps: seq<string>)
  {
    forall k :: 0 <= k < |ps| ==> Hole(k) in segs
  }

  /**
   * Replacing the string held by hole `j` replaces exactly the holes `j`,
   * provided nothing else in the text can start an occurrence of it.
   */
  lemma {:induction false} ReplaceSegs(segs: seq<Seg>, fill: seq<string>, j: nat, rep: string)
    requires j < |fill| && |fill[j]| > 0
    requires forall s :: s in segs && s.Lit? ==> Blocks(s.t, fill[j])
    requires forall s :: s in segs && s.Hole? && s.i != j ==> s.i < |fill| && Blocks(fill[s.i], fill[j])
    ensures ReplaceAll(Render(segs, fill), fill[j], rep) == Render(segs, fill[j := rep])
    decreases |segs|
  {
    if |segs| > 0 {
      var s := segs[0];
      var rest := Render(segs[1..], fill);
      assert forall x :: x in segs[1..] ==> x in segs;
      ReplaceSegs(segs[1..], fill, j, rep);
      if s.Hole? && s.i == j {
        ReplaceLeading(rest, fill[j], rep);
      } else {
        ReplaceSkip(Piece(s, fill), rest, fill[j], rep);
        assert Piece(s, fill[j := rep]) == Piece(s, fill);
      }
    }
  }

  /** The text contains every string placed in one of its holes. */
  lemma {:induction false} RenderContains(segs: seq<Seg>, fill: seq<string>, j: nat)
    requires j < |fill| && Hole(j) in segs
    ensures Contains(Render(segs, fill), fill[j])
    decreases |segs|
  {
    var rest := Render(segs[1..], fill);
    if segs[0] == Hole(j) {
      ContainsPrefix(fill[j] + rest, fill[j]);
    } else {
      RenderContains(segs[1..], fill, j);
      ContainsConcat(Piece(segs[0], fill), rest, fill[j]);
    }
  }

  /** A character absent from the literal runs and from every used hole is absent from the text. */
  lemma {:induction false} RenderLacks(segs: seq<Seg>, fill: seq<string>, c: char)
    requires forall s :: s in segs && s.Lit? ==> c !in s.t
    requires forall s :: s in segs && s.Hole? ==> s.i < |fill| && c !in fill[s.i]
    ensures c !in Render(segs, fill)
    decreases |segs|
  {
    if |segs| > 0 {
      assert forall x :: x in segs[1..] ==> x in segs;
      RenderLacks(segs[1..], fill, c);
    }
  }

  /** The text depends only on the holes it has. */
  lemma {:induction false} RenderOnlyHoles(segs: seq<Seg>, f: seq<string>, g: seq<string>)
    requires forall s :: s in segs && s.Hole? ==> s.i < |f| && s.i < |g| && f[s.i] == g[s.i]
    ensures Render(segs, f) == Render(segs, g)
    decreases |segs|
  {
    if |segs| > 0 {
      assert forall x :: x in segs[1..] ==> x in segs;
      RenderOnlyHoles(segs[1..], f, g);
    }
  }

  /** Different numbers give tags that differ at a position both have. */
  lemma TagsDiffer(i: nat, k: nat)
    requires i != k
    ensures !Compatible(Tag(i), Tag(k))
  {
    var di, dk := Numbers.NatToString(i), Numbers.NatToString(k);
    var ti, tk := Tag(i), Tag(k);
    assert ti == "<x>" + di + "</x>" && tk == "<x>" + dk + "</x>";
    if |di| < |dk| {
      assert Numbers.IsDigit(dk[|di|]);
      assert ti[3 + |di|] != tk[3 + |di|];
    } else if |di| > |dk| {
      assert Numbers.IsDigit(di[|dk|]);
      assert ti[3 + |dk|] != tk[3 + |dk|];
    } else {
      Numbers.NatToStringValue(i);
      Numbers.NatToStringValue(k);
      assert di != dk;
      var d :| 0 <= d < |di| && di[d] != dk[d];
      assert ti[3 + d] != tk[3 + d];
    }
  }

  /** No tag can start inside a different tag. */
  lemma TagsBlock(i: nat, k: nat)
    requires i != k
    ensures Blocks(Tag(i), Tag(k))
  {
    var di := Numbers.NatToString(i);
    var ti, tk := Tag(i), Tag(k);
    assert ti == "<x>" + di + "</x>";
    assert tk[1] == 'x';
    forall m | 0 <= m < |ti|
      ensures !Compatible(ti[m..], tk)
    {
      if m == 0 {
        assert ti[m..] == ti;
        TagsDiffer(i, k);
      } else if m == 3 + |di| {
        assert ti[m..][1] == '/';
      } else {
        assert 3 <= m < 3 + |di| ==> Numbers.IsDigit(di[m - 3]);
        assert ti[m..][0] != '<';
      }
    }
  }

  /** Under the shape rules, a placeholder blocks every other placeholder it is not a prefix of. */
  lemma PlaceholdersBlock(p: string, q: string)
    requires PlaceholderShape(p) && PlaceholderShape(q) && !Compatible(p, q)
    ensures Blocks(p, q)
  {
    forall m | 0 <= m < |p|
      ensures !Compatible(p[m..], q)
    {
      if m == 0 {
        assert p[m..] == p;
      } else {
        assert p[m] in p[1..];
        assert p[m..][0] != '%';
      }
    }
  }

  /** The holes filled by tags for the first `k` placeholders and by the placeholders for the rest. */
  function MaskFill(ps: seq<string>, k: nat): (f: seq<string>)
    ensures |f| == |ps|
  {
    seq(|ps|, i requires 0 <= i < |ps| => if i < k then Tag(i) else ps[i])
  }

  /** The holes filled by the placeholders for the first `k` tags and by the tags for the rest. */
  function RestoreFill(ps: seq<string>, k: nat): (f: seq<string>)
    ensures |f| == |ps|
  {
    seq(|ps|, i requires 0 <= i < |ps| => if i < k then ps[i] else Tag(i))
  }

  /** Masking round `k` turns the holes of placeholder `k` into tag `k` and nothing else. */
  lemma MaskRound(segs: seq<Seg>, ps: seq<string>, k: nat)
    requires WellFormed(segs, ps) && k < |ps|
    ensures ReplaceAll(Render(segs, MaskFill(ps, k)), ps[k], Tag(k)) == Render(segs, MaskFill(ps, k + 1))
  {
    var fill := MaskFill(ps, k);
    var p := ps[k];
    assert fill[k] == p;
    forall s | s in segs && s.Lit?
      ensures Blocks(s.t, p)
    {
      BlocksByFirstChar(s.t, p);
    }
    forall s | s in segs && s.Hole? && s.i != k
      ensures s.i < |fill| && Blocks(fill[s.i], p)
    {
      if s.i < k {
        BlocksByFirstChar(Tag(s.i), p);
      } else {
        PlaceholdersBlock(ps[s.i], p);
      }
    }
    ReplaceSegs(segs, fill, k, Tag(k));
    assert fill[k := Tag(k)] == MaskFill(ps, k + 1);
  }

  /** After `k` masking rounds, exactly the first `k` placeholders have become tags. */
  lemma {:induction false} MaskStages(segs: seq<Seg>, ps: seq<string>, k: nat)
    requires WellFormed(segs, ps) && k <= |ps|
    ensures AllNonEmpty(ps)
    ensures MaskUpTo(Render(segs, ps), ps, k) == Render(segs, MaskFill(ps, k))
  {
    if k == 0 {
      assert MaskFill(ps, 0) == ps;
    } else {
      MaskStages(segs, ps, k - 1);
      MaskRound(segs, ps, k - 1);
    }
  }

  /** Restoring round `k`, after the first `k` tags are back to placeholders, finds tag `k` and restores exactly its holes. */
  lemma RestoreRound(segs: seq<Seg>, ps: seq<string>, k: nat)
    requires WellFormed(segs, ps) && Covered(segs, ps) && k < |ps|
    ensures RestoreStep(Render(segs, RestoreFill(ps, k)), ps[k], k) == Render(segs, RestoreFill(ps, k + 1))
  {
    var fill := RestoreFill(ps, k);
    var t := Tag(k);
    assert fill[k] == t;
    RenderContains(segs, fill, k);
    forall s | s in segs && s.Lit?
      ensures Blocks(s.t, t)
    {
      BlocksByFirstChar(s.t, t);
    }
    forall s | s in segs && s.Hole? && s.i != k
      ensures s.i < |fill| && Blocks(fill[s.i], t)
    {
      if s.i < k {
        BlocksByFirstChar(ps[s.i], t);
      } else {
        TagsBlock(s.i, k);
      }
    }
    ReplaceSegs(segs, fill, k, ps[k]);
    assert fill[k := ps[k]] == RestoreFill(ps, k + 1);
  }

  /** After `k` restoring rounds on the fully masked text, exactly the first `k` tags are placeholders again. */
  lemma {:induction false} RestoreStages(segs: seq<Seg>, ps: seq<string>, k: nat)
    requires WellFormed(segs, ps) && Covered(segs, ps) && k <= |ps|
    ensures RestoreUpTo(Render(segs, RestoreFill(ps, 0)), ps, k) == Render(segs, RestoreFill(ps, k))
  {
    if k > 0 {
      RestoreStages(segs, ps, k - 1);
      RestoreRound(segs, ps, k - 1);
    }
  }

  /**
   * Round trip: with a translator that returns its input, distinct
   * non-nested placeholders come back exactly where they were.
   */
  lemma RoundTrip(segs: seq<Seg>, ps: seq<string>, html: string -> string, plain: string -> string)
    requires WellFormed(segs, ps) && Covered(segs, ps) && |ps| > 0
    requires forall s :: html(s) == s
    ensures AllNonEmpty(ps)
    ensures TranslateEntry(Render(segs, ps), ps, html, plain) == Render(segs, ps)
  {
    MaskStages(segs, ps, |ps|);
    assert MaskFill(ps, |ps|) == RestoreFill(ps, 0);
    RestoreStages(segs, ps, |ps|);
    assert RestoreFill(ps, |ps|) == ps;
  }

  /**
   * A translator that drops every tag (and adds no '<') gets every
   * placeholder appended, in order, each after a space.
   */
  lemma {:induction false} DroppedTagsAppended(translated: string, ps: seq<string>, k: nat)
    requires k <= |ps| && '<' !in translated
    requires forall i :: 0 <= i < |ps| ==> '<' !in ps[i]
    ensures RestoreUpTo(translated, ps, k) == translated + Appended(ps, k)
    ensures '<' !in RestoreUpTo(translated, ps, k)
  {
    if k > 0 {
      DroppedTagsAppended(translated, ps, k - 1);
      var prev := RestoreUpTo(translated, ps, k - 1);
      if Contains(prev, Tag(k - 1)) {
        ContainsChars(prev, Tag(k - 1), '<');
      }
      assert translated + Appended(ps, k - 1) + (" " + ps[k - 1]) == translated + Appended(ps, k);
    }
  }

  /** " " + placeholder, for each of the first `k` placeholders. */
  function Appended(ps: seq<string>, k: nat): string
    requires k <= |ps|
  {
    if k == 0 then "" else Appended(ps, k - 1) + " " + ps[k - 1]
  }

  /** The text whose only holes are of placeholder 0, with that placeholder of the expected shape. */
  predicate SingleHoleText(segs: seq<Seg>, p: string)
  {
    && PlaceholderShape(p) && Hole(0) in segs
    && (forall s :: s in segs && s.Lit? ==> '%' !in s.t && '<' !in s.t)
    && (forall s :: s in segs && s.Hole? ==> s.i == 0)
  }

  /** Masking a placeholder listed twice: the first round takes every occurrence, the second finds none. */
  lemma DuplicateMasked(segs: seq<Seg>, p: string)
    requires SingleHoleText(segs, p)
    ensures AllNonEmpty([p, p])
    ensures Mask(Render(segs, [p]), [p, p]) == Render(segs, [Tag(0), Tag(1)])
  {
    var ps := [p, p];
    RenderOnlyHoles(segs, [p], ps);
    forall s | s in segs && s.Lit?
      ensures Blocks(s.t, p)
    {
      BlocksByFirstChar(s.t, p);
    }
    ReplaceSegs(segs, ps, 0, Tag(0));
    assert ps[0 := Tag(0)] == [Tag(0), p];
    assert MaskUpTo(Render(segs, ps), ps, 1) == Render(segs, [Tag(0), p]);
    BlocksByFirstChar(Tag(0), p);
    ReplaceSegs(segs, [Tag(0), p], 1, Tag(1));
    assert [Tag(0), p][1 := Tag(1)] == [Tag(0), Tag(1)];
  }

  /** Restoring it: tag 0 comes back in place, tag 1 is missing and its placeholder is appended. */
  lemma DuplicateRestored(segs: seq<Seg>, p: string)
    requires SingleHoleText(segs, p)
    ensures Restore(Render(segs, [Tag(0), Tag(1)]), [p, p]) == Render(segs, [p]) + " " + p
  {
    forall s | s in segs && s.Lit?
      ensures Blocks(s.t, Tag(0))
    {
      BlocksByFirstChar(s.t, Tag(0));
    }
    RenderContains(segs, [Tag(0), Tag(1)], 0);
    ReplaceSegs(segs, [Tag(0), Tag(1)], 0, p);
    assert [Tag(0), Tag(1)][0 := p] == [p, Tag(1)];
    RenderOnlyHoles(segs, [p], [p, Tag(1)]);
    assert RestoreUpTo(Render(segs, [Tag(0), Tag(1)]), [p, p], 1) == Render(segs, [p]);
    RenderLacks(segs, [p], '<');
    if Contains(Render(segs, [p]), Tag(1)) {
      ContainsChars(Render(segs, [p]), Tag(1), '<');
    }
  }

  /**
   * A placeholder listed twice (as the non-greedy expression of
   * update_locales.py lists a repeated `%s`) is restored in place and
   * appended once more at the end.
   */
  lemma DuplicateAppended(segs: seq<Seg>, p: string, html: string -> string, plain: string -> string)
    requires SingleHoleText(segs, p)
    requires forall s :: html(s) == s
    ensures AllNonEmpty([p, p])
    ensures TranslateEntry(Render(segs, [p]), [p, p], html, plain) == Render(segs, [p]) + " " + p
  {
    DuplicateMasked(segs, p);
    DuplicateRestored(segs, p);
  }
}

=== FILE: scheduler.dfy ===
/** The process-wide background scheduler (libretranslate/scheduler.py). */
module Scheduler {
  import opened Wrappers

  /** The periodic tasks: flood forgiveness, secret rotation, and the older guard's wholesale clearing. */
  datatype Task = ForgiveBanned | RotateSecrets | ClearBanned

  datatype Job = Job(task: Task, everyMinutes: nat)

  /** The scheduler that was created, its registered jobs, and whether it was started. */
  datatype Scheduler = Scheduler(jobs: seq<Job>, started: bool)

  /**
   * `setup(args)`: only when no scheduler exists yet, create one with the
   * forgiveness job (flooding on) and the rotation job (keys and secrets on),
   * then start it.
   */
  function Setup(current: Option<Scheduler>, reqFloodThreshold: int, apiKeys: bool, requireApiKeySecret: bool): (r: Option<Scheduler>)
    ensures current.Some? ==> r == current
    ensures current.None? ==> r.Some? && r.value.started
    ensures current.None? ==> (Job(ForgiveBanned, 10) in r.value.jobs <==> reqFloodThreshold > 0)
    ensures current.None? ==> (Job(RotateSecrets, 30) in r.value.jobs <==> apiKeys && requireApiKeySecret)
    ensures current.None? ==> forall j :: j in r.value.jobs ==> j == Job(ForgiveBanned, 10) || j == Job(RotateSecrets, 30)
  {
    if current.Some? then current
    else
      var forgive := if reqFloodThreshold > 0 then [Job(ForgiveBanned, 10)] else [];
      var rotate := if apiKeys && requireApiKeySecret then [Job(RotateSecrets, 30)] else [];
      Some(Scheduler(forgive + rotate, true))
  }

  /** A second `setup` in the same process is a no-op, whatever its arguments. */
  lemma SetupOnce(t1: int, k1: bool, s1: bool, t2: int, k2: bool, s2: bool)
    ensures Setup(Setup(None, t1, k1, s1), t2, k2, s2) == Setup(None, t1, k1, s1)
  {
  }
}

=== FILE: secret.dfy ===
/**
 * The rotating shared secret (libretranslate/secret.py), kept in the shared
 * store under "secret_0" (previous) and "secret_1" (current). Fresh secrets
 * and the once-per-process flag are parameters.
 */
module Secret {
  import opened Wrappers
  import opened Storage
  import Scheduler

  const PreviousKey := "secret_0"
  const CurrentKey := "secret_1"

  /** `string.ascii_uppercase + string.digits`. */
  const Alphabet := "ABCDEFGHIJKLMNOPQRSTUVWXYZ0123456789"

  const SecretLength := 7

  predicate IsSecretChar(c: char) { 'A' <= c <= 'Z' || '0' <= c <= '9' }

  /** `generate_secret()`: seven draws from the alphabet; draw `i` is `pick(i)` reduced into range. */
  function GenerateSecret(pick: nat -> nat): (s: string)
    ensures |s| == SecretLength
    ensures forall i :: 0 <= i < |s| ==> IsSecretChar(s[i])
  {
    AlphabetIsSecretChars();
    seq(SecretLength, i requires 0 <= i < SecretLength => Alphabet[pick(i) % |Alphabet|])
  }

  lemma AlphabetIsSecretChars()
    ensures forall k :: 0 <= k < |Alphabet| ==> IsSecretChar(Alphabet[k])
  {
  }

  /** Every seven-character string over A-Z and 0-9 is a possible secret. */
  lemma EverySecretIsGenerated(s: string)
    requires |s| == SecretLength && forall i :: 0 <= i < |s| ==> IsSecretChar(s[i])
    ensures GenerateSecret((i: nat) => if i < |s| then IndexOf(s[i]) else 0) == s
  {
    var pick := (i: nat) => if i < |s| then IndexOf(s[i]) else 0;
    var g := GenerateSecret(pick);
    forall i | 0 <= i < |s|
      ensures g[i] == s[i]
    {
      var k := IndexOf(s[i]);
      assert pick(i) == k;
      assert k % |Alphabet| == k;
    }
  }

  function IndexOf(c: char): (k: nat)
    requires IsSecretChar(c)
    ensures k < |Alphabet| && Alphabet[k] == c
  {
    if 'A' <= c <= 'Z' then c as int - 'A' as int else 26 + c as int - '0' as int
  }

  /** Neither slot holds a namespace, so both read as strings. */
  predicate SlotsAreScalars(st: Store)
  {
    (PreviousKey !in st || st[PreviousKey].Scalar?) && (CurrentKey !in st || st[CurrentKey].Scalar?)
  }

  /** `rotate_secrets()`: the current secret becomes the previous one and `newSecret` the current one. */
  function Rotate(st: Store, newSecret: string): Result<Store, StoreError>
  {
    var current :- GetStr(st, CurrentKey);
    Ok(SetStr(SetStr(st, PreviousKey, current), CurrentKey, newSecret))
  }

  /** `secret_match(secret)`: equal to the previous or the current secret; an absent secret never matches. */
  function Match(st: Store, secret: Option<string>): Result<bool, StoreError>
  {
    var previous :- GetStr(st, PreviousKey);
    if secret == Some(previous) then Ok(true)
    else
      var current :- GetStr(st, CurrentKey);
      Ok(secret == Some(current))
  }

  /** `get_current_secret()`. */
  function CurrentSecret(st: Store): Result<string, StoreError>
  {
    GetStr(st, CurrentKey)
  }

  /** What `setup()` leaves behind: the shared flag, the store, and the scheduler it started, if any. */
  datatype SetupState = SetupState(flag: bool, store: Store, scheduler: Option<Scheduler.Scheduler>)

  /** The job `setup()` registers on its own scheduler: `rotate_secrets` every 30 minutes. */
  const RotationJob := Scheduler.Job(Scheduler.RotateSecrets, 30)

  /**
   * `setup()`: only while the shared flag is unset, set it, seed both slots,
   * and start a scheduler of its own that rotates the secrets.
   */
  function Setup(flag: bool, st: Store, first: string, second: string): (r: SetupState)
    ensures r.flag
    ensures flag ==> r.store == st && r.scheduler.None?
    ensures !flag ==> GetStr(r.store, PreviousKey) == Ok(first) && GetStr(r.store, CurrentKey) == Ok(second)
    ensures !flag ==> r.store.Keys == st.Keys + {PreviousKey, CurrentKey}
    ensures !flag ==> forall k :: k in st && k != PreviousKey && k != CurrentKey ==> r.store[k] == st[k]
    ensures !flag ==> r.scheduler == Some(Scheduler.Scheduler([RotationJob], true))
  {
    if !flag then SetupState(true, SetStr(SetStr(st, PreviousKey, first), CurrentKey, second), Some(Scheduler.Scheduler([RotationJob], true)))
    else SetupState(flag, st, None)
  }

  /** `setup()` seeds once: a second call changes nothing and starts no second scheduler. */
  lemma SetupIsOnce(flag: bool, st: Store, a: string, b: string, c: string, d: string)
    ensures var s1 := Setup(flag, st, a, b); Setup(s1.flag, s1.store, c, d) == SetupState(s1.flag, s1.store, None)
  {
  }

  /**
   * When the process scheduler also rotates (API keys and key secrets on),
   * the first `setup()` of each module leaves two rotation jobs running.
   */
  lemma TwoRotationJobs(st: Store, a: string, b: string, reqFloodThreshold: int)
    ensures var ours := Setup(false, st, a, b).scheduler;
      var shared := Scheduler.Setup(None, reqFloodThreshold, true, true);
      ours.Some? && shared.Some? && multiset(ours.value.jobs + shared.value.jobs)[RotationJob] == 2
  {
    var shared := Scheduler.Setup(None, reqFloodThreshold, true, true).value.jobs;
    assert RotationJob in shared;
    var forgive := if reqFloodThreshold > 0 then [Scheduler.Job(Scheduler.ForgiveBanned, 10)] else [];
    assert shared == forgive + [RotationJob];
    assert multiset([RotationJob] + shared) == multiset([RotationJob]) + multiset(forgive) + multiset([RotationJob]);
  }

  /** A call into `setup` with `extraArgs` positional arguments; `setup` takes none, so any raises TypeError. */
  function SetupVia(flag: bool, st: Store, first: string, second: string, extraArgs: nat): (r: Result<SetupState, StoreError>)
    ensures extraArgs > 0 ==> r == Err(TypeError)
    ensures extraArgs == 0 ==> r == Ok(Setup(flag, st, first, second))
  {
    if extraArgs > 0 then Err(TypeError) else Ok(Setup(flag, st, first, second))
  }

  /** `secret.setup(args)` as the application and the gunicorn hook write it. */
  function SetupAsWritten(flag: bool, st: Store, first: string, second: string): Result<SetupState, StoreError>
  {
    SetupVia(flag, st, first, second, 1)
  }

  /** As written, setup raises before seeding anything; the call without the argument seeds both slots. */
  lemma SetupAsWrittenRaises(st: Store, first: string, second: string)
    ensures SetupAsWritten(false, st, first, second) == Err(TypeError)
    ensures SetupVia(false, st, first, second, 0).Ok?
    ensures var s := SetupVia(false, st, first, second, 0).value;
      GetStr(s.store, PreviousKey) == Ok(first) && GetStr(s.store, CurrentKey) == Ok(second)
  {
  }

  /** Rotation shifts the slots and changes no other key. */
  lemma RotateSpec(st: Store, newSecret: string)
    requires SlotsAreScalars(st)
    ensures Rotate(st, newSecret).Ok?
    ensures var after := Rotate(st, newSecret).value;
      && GetStr(after, PreviousKey) == GetStr(st, CurrentKey)
      && GetStr(after, CurrentKey) == Ok(newSecret)
      && after.Keys == st.Keys + {PreviousKey, CurrentKey}
      && SlotsAreScalars(after)
      && forall k :: k in st && k != PreviousKey && k != CurrentKey ==> after[k] == st[k]
  {
  }

  /** A secret matches iff it is the previous or the current one. */
  lemma MatchSpec(st: Store, s: string)
    requires SlotsAreScalars(st)
    ensures Match(st, Some(s)) == Ok(s == GetStr(st, PreviousKey).value || s == GetStr(st, CurrentKey).value)
    ensures Match(st, None) == Ok(false)
  {
  }

  /** Right after a rotation the superseded current secret, and the new one, still match. */
  lemma PreviousMatchesAfterRotation(st: Store, newSecret: string)
    requires SlotsAreScalars(st)
    ensures Rotate(st, newSecret).Ok?
    ensures Match(Rotate(st, newSecret).value, Some(CurrentSecret(st).value)) == Ok(true)
    ensures Match(Rotate(st, newSecret).value, Some(newSecret)) == Ok(true)
  {
  }

  /** After two rotations with `f1` then `f2`, exactly `f1` and `f2` match: older secrets are dead. */
  lemma TwoRotations(st: Store, f1: string, f2: string, s: string)
    requires SlotsAreScalars(st)
    ensures Rotate(st, f1).Ok? && Rotate(Rotate(st, f1).value, f2).Ok?
    ensures Match(Rotate(Rotate(st, f1).value, f2).value, Some(s)) == Ok(s == f1 || s == f2)
  {
    RotateSpec(st, f1);
    RotateSpec(Rotate(st, f1).value, f2);
    MatchSpec(Rotate(Rotate(st, f1).value, f2).value, s);
  }

  /** The current secret is the one in slot "secret_1". */
  lemma CurrentAfterRotation(st: Store, newSecret: string)
    requires SlotsAreScalars(st)
    ensures Rotate(st, newSecret).Ok? && CurrentSecret(Rotate(st, newSecret).value) == Ok(newSecret)
  {
  }
}

=== FILE: security.dfy ===
/**
 * `path_traversal_check` of libretranslate/security.py, with the POSIX
 * `os.path.abspath` it applies to both paths first: a relative path is
 * joined to the working directory, then `normpath` drops empty and "."
 * components, lets ".." remove the component before it (and vanish at the
 * root), and keeps two leading slashes only when there are exactly two.
 */
module Security {
  import opened Wrappers
  import opened Text

  /** The exception raised for a path outside the safe directory, with its message. */
  datatype SuspiciousFileOperation = SuspiciousFileOperation(message: string)

  /** `os.path.commonprefix([a, b])`: the longest common prefix, character by character. */
  function CommonPrefix(a: string, b: string): (p: string)
    ensures p <= a && p <= b
    ensures |p| == |a| || |p| == |b| || a[|p|] != b[|p|]
  {
    if |a| == 0 || |b| == 0 || a[0] != b[0] then []
    else [a[0]] + CommonPrefix(a[1..], b[1..])
  }

  predicate IsAbs(p: string)
  {
    |p| > 0 && p[0] == '/'
  }

  /**
   * `posixpath.join(a, b)`: an absolute `b` replaces `a`; otherwise `b` is
   * appended, with a "/" between unless `a` is empty or already ends in one.
   */
  function PathJoin(a: string, b: string): (r: string)
    ensures IsAbs(b) ==> r == b
    ensures !IsAbs(b) ==> a <= r && EndsWith(r, b) && |r| - |a| - |b| == (if |a| == 0 || a[|a| - 1] == '/' then 0 else 1)
  {
    ConcatEnds(a, b);
    ConcatEnds(a + "/", b);
    if IsAbs(b) then b
    else if |a| == 0 || a[|a| - 1] == '/' then a + b
    else a + "/" + b
  }

  /** A component that normpath keeps on a rooted path. */
  predicate IsName(c: string)
  {
    |c| > 0 && c != "." && c != ".." && '/' !in c
  }

  predicate AllNames(cs: seq<string>)
  {
    forall i :: 0 <= i < |cs| ==> IsName(cs[i])
  }

  /**
   * One turn of normpath's loop: "" and "." are skipped; ".." removes the
   * last kept component unless there is none to remove (then it is kept on a
   * relative path and dropped on a rooted one) or that component is itself "..".
   */
  function NormStep(rooted: bool, stack: seq<string>, comp: string): seq<string>
  {
    if comp == "" || comp == "." then stack
    else if comp != ".." || (!rooted && |stack| == 0) || (|stack| > 0 && stack[|stack| - 1] == "..") then stack + [comp]
    else if |stack| > 0 then stack[..|stack| - 1]
    else stack
  }

  function NormComps(rooted: bool, stack: seq<string>, comps: seq<string>): seq<string>
    decreases |comps|
  {
    if |comps| == 0 then stack else NormComps(rooted, NormStep(rooted, stack, comps[0]), comps[1..])
  }

  /** The leading slashes normpath keeps: two when the path starts with exactly two, else one or none. */
  function Lead(p: string): (l: string)
    ensures l <= p
    ensures l == "" <==> !IsAbs(p)
  {
    if !IsAbs(p) then ""
    else if "//" <= p && !("///" <= p) then "//"
    else "/"
  }

  /** `posixpath.normpath(p)`. */
  function NormPath(p: string): (r: string)
    ensures |r| > 0
    ensures IsAbs(p) ==> IsAbs(r)
  {
    var lead := Lead(p);
    var out := lead + Join(NormComps(lead != "", [], Split(p, "/")), "/");
    if |out| == 0 then "." else out
  }

  /** `os.path.abspath(p)`, with `cwd` standing for `os.getcwd()`. */
  function AbsPath(p: string, cwd: string): (r: string)
    requires IsAbs(cwd)
    ensures IsAbs(r)
  {
    NormPath(if IsAbs(p) then p else PathJoin(cwd, p))
  }

  /** `path_traversal_check(unsafe_path, known_safe_path)`: the normalised unsafe path, or the exception naming it. */
  function PathTraversalCheck(unsafePath: string, knownSafePath: string, cwd: string): (r: Result<string, SuspiciousFileOperation>)
    requires IsAbs(cwd)
    ensures r.Ok? ==> r.value == AbsPath(unsafePath, cwd) && AbsPath(knownSafePath, cwd) <= r.value
    ensures r.Err? ==> r.error.message == AbsPath(unsafePath, cwd) + " is not safe"
  {
    var safe := AbsPath(knownSafePath, cwd);
    var path := AbsPath(unsafePath, cwd);
    if CommonPrefix(safe, path) != safe then
      Err(SuspiciousFileOperation(path + " is not safe"))
    else Ok(path)
  }

  /** The check passes exactly when the normalised safe path is a string prefix of the normalised unsafe one. */
  lemma PassesIffPrefix(unsafePath: string, knownSafePath: string, cwd: string)
    requires IsAbs(cwd)
    ensures PathTraversalCheck(unsafePath, knownSafePath, cwd).Ok? <==> AbsPath(knownSafePath, cwd) <= AbsPath(unsafePath, cwd)
  {
  }

  /** The safe directory itself passes, normalised. */
  lemma SafePathPasses(knownSafePath: string, cwd: string)
    requires IsAbs(cwd)
    ensures PathTraversalCheck(knownSafePath, knownSafePath, cwd) == Ok(AbsPath(knownSafePath, cwd))
  {
    PassesIffPrefix(knownSafePath, knownSafePath, cwd);
  }

  lemma {:induction false} NormCompsConcat(rooted: bool, stack: seq<string>, xs: seq<string>, ys: seq<string>)
    ensures NormComps(rooted, stack, xs + ys) == NormComps(rooted, NormComps(rooted, stack, xs), ys)
    decreases |xs|
  {
    if |xs| > 0 {
      assert (xs + ys)[0] == xs[0] && (xs + ys)[1..] == xs[1..] + ys;
      NormCompsConcat(rooted, NormStep(rooted, stack, xs[0]), xs[1..], ys);
    } else {
      assert xs + ys == ys;
    }
  }

  /** Ordinary names are all kept, in order. */
  lemma {:induction false} NormCompsNames(rooted: bool, stack: seq<string>, cs: seq<string>)
    requires AllNames(cs)
    ensures NormComps(rooted, stack, cs) == stack + cs
    decreases |cs|
  {
    if |cs| > 0 {
      NormCompsNames(rooted, stack + [cs[0]], cs[1..]);
      assert stack + [cs[0]] + cs[1..] == stack + cs;
    }
  }

  /** On a rooted path only ordinary names are ever kept. */
  lemma {:induction false} RootedKeepsNames(stack: seq<string>, comps: seq<string>)
    requires AllNames(stack)
    requires forall i :: 0 <= i < |comps| ==> '/' !in comps[i]
    ensures AllNames(NormComps(true, stack, comps))
    decreases |comps|
  {
    if |comps| > 0 {
      RootedKeepsNames(NormStep(true, stack, comps[0]), comps[1..]);
    }
  }

  /** A normalised absolute path is its leading slashes followed by '/'-joined ordinary names. */
  lemma RootedShape(p: string)
    requires IsAbs(p)
    ensures var cs := NormComps(true, [], Split(p, "/"));
      AllNames(cs) && (Lead(p) == "/" || Lead(p) == "//") && NormPath(p) == Lead(p) + Join(cs, "/")
  {
    SplitFromPiecesAvoid(p, '/', []);
    RootedKeepsNames([], Split(p, "/"));
  }

  /** The leading slashes of a rooted path whose remainder does not start with a slash. */
  lemma LeadOf(lead: string, rest: string)
    requires lead == "/" || lead == "//"
    requires |rest| == 0 || rest[0] != '/'
    ensures Lead(lead + rest) == lead
  {
    var p := lead + rest;
    if |rest| > 0 {
      assert p[|lead|] == rest[0];
    }
  }

  /** The empty pieces a rooted path's leading slashes split into. */
  function LeadPieces(lead: string): seq<string>
  {
    if lead == "/" then [""] else ["", ""]
  }

  /** Splitting a rooted path: one empty piece per leading slash, then the pieces of the rest. */
  lemma SplitRooted(lead: string, rest: string)
    requires lead == "/" || lead == "//"
    ensures Split(lead + rest, "/") == LeadPieces(lead) + Split(rest, "/")
  {
    assert Split("", "/") == [""];
    if lead == "/" {
      assert lead + rest == "" + ['/'] + rest;
      SplitConcat("", rest, '/');
    } else {
      assert lead + rest == "" + ['/'] + ("/" + rest);
      SplitConcat("", "/" + rest, '/');
      assert "/" + rest == "" + ['/'] + rest;
      SplitConcat("", rest, '/');
    }
  }

  /** Empty pieces change nothing. */
  lemma LeadPiecesSkipped(rooted: bool, stack: seq<string>, lead: string, rest: seq<string>)
    ensures NormComps(rooted, stack, LeadPieces(lead) + rest) == NormComps(rooted, stack, rest)
  {
    NormCompsConcat(rooted, stack, LeadPieces(lead), rest);
  }

  /** A '/'-join of ordinary names neither starts nor ends with a slash, and is not empty. */
  lemma {:induction false} NamesJoinShape(cs: seq<string>)
    requires AllNames(cs) && |cs| > 0
    ensures var j := Join(cs, "/"); |j| > 0 && j[0] != '/' && j[|j| - 1] != '/'
    decreases |cs|
  {
    var j := Join(cs, "/");
    assert cs[0][0] in cs[0];
    if |cs| > 1 {
      NamesJoinShape(cs[1..]);
      assert j == cs[0] + "/" + Join(cs[1..], "/");
      assert j[|j| - 1] == Join(cs[1..], "/")[|Join(cs[1..], "/")| - 1];
    } else {
      assert cs[0][|cs[0]| - 1] in cs[0];
    }
  }

  /** A path already in normal form is left as it is, and its components are its names. */
  lemma NormalFixed(lead: string, cs: seq<string>)
    requires (lead == "/" || lead == "//") && AllNames(cs)
    ensures Lead(lead + Join(cs, "/")) == lead
    ensures NormComps(true, [], Split(lead + Join(cs, "/"), "/")) == cs
    ensures NormPath(lead + Join(cs, "/")) == lead + Join(cs, "/")
  {
    var j := Join(cs, "/");
    SplitRooted(lead, j);
    if |cs| > 0 {
      NamesJoinShape(cs);
      SplitJoin(cs, '/');
      NormCompsNames(true, [], cs);
    } else {
      assert Split(j, "/") == [""];
    }
    LeadOf(lead, j);
    LeadPiecesSkipped(true, [], lead, Split(j, "/"));
  }

  /** `os.path.abspath` is idempotent. */
  lemma AbsPathIdempotent(p: string, cwd: string)
    requires IsAbs(cwd)
    ensures AbsPath(AbsPath(p, cwd), cwd) == AbsPath(p, cwd)
  {
    var x := if IsAbs(p) then p else PathJoin(cwd, p);
    RootedShape(x);
    NormalFixed(Lead(x), NormComps(true, [], Split(x, "/")));
  }

  /** normpath of a rooted path, given its leading slashes and the names its components reduce to. */
  lemma NormPathOf(p: string, lead: string, names: seq<string>)
    requires lead != "" && Lead(p) == lead && NormComps(true, [], Split(p, "/")) == names
    ensures NormPath(p) == lead + Join(names, "/")
  {
  }

  /** Normalising a normal path extended by "/" and more: the extension's components are processed on top of the path's names. */
  lemma ExtendNormal(lead: string, cs: seq<string>, t: string)
    requires (lead == "/" || lead == "//") && AllNames(cs) && |cs| > 0
    ensures NormPath(lead + Join(cs, "/") + "/" + t) == lead + Join(NormComps(true, cs, Split(t, "/")), "/")
  {
    var j := Join(cs, "/");
    var rest := j + "/" + t;
    var p := lead + rest;
    ConcatAssoc(lead, j, "/", t);
    NamesJoinShape(cs);
    LeadOf(lead, rest);
    var pieces := Split(t, "/");
    calc {
      NormComps(true, [], Split(p, "/"));
      { SplitRooted(lead, rest); }
      NormComps(true, [], LeadPieces(lead) + Split(rest, "/"));
      { LeadPiecesSkipped(true, [], lead, Split(rest, "/")); }
      NormComps(true, [], Split(rest, "/"));
      { SplitConcat(j, t, '/'); SplitJoin(cs, '/'); }
      NormComps(true, [], cs + pieces);
      { NormCompsConcat(true, [], cs, pieces); NormCompsNames(true, [], cs); assert [] + cs == cs; }
      NormComps(true, cs, pieces);
    }
    NormPathOf(p, lead, NormComps(true, cs, pieces));
  }

  /** The last name goes and the rest stays joined as before. */
  lemma DropLastName(lead: string, cs: seq<string>)
    requires AllNames(cs) && |cs| > 0
    ensures |lead + Join(cs[..|cs| - 1], "/")| < |lead + Join(cs, "/")|
  {
    var init := cs[..|cs| - 1];
    NamesJoinShape(cs);
    if |cs| > 1 {
      JoinAppend(init, [cs[|cs| - 1]], "/");
      assert init + [cs[|cs| - 1]] == cs;
    }
  }

  /** On a rooted path, ".." removes the last name. */
  lemma ParentStep(cs: seq<string>)
    requires AllNames(cs) && |cs| > 0
    ensures NormComps(true, cs, [".."]) == cs[..|cs| - 1]
  {
    assert IsName(cs[|cs| - 1]);
    assert NormStep(true, cs, "..") == cs[..|cs| - 1];
  }

  /**
   * Climbing out with "/.." from a normalised directory is refused, and the
   * message names the parent directory.
   */
  lemma ClimbOutFails(lead: string, cs: seq<string>, cwd: string)
    requires (lead == "/" || lead == "//") && AllNames(cs) && |cs| > 0 && IsAbs(cwd)
    ensures var s := lead + Join(cs, "/");
      PathTraversalCheck(s + "/" + "..", s, cwd) == Err(SuspiciousFileOperation(lead + Join(cs[..|cs| - 1], "/") + " is not safe"))
  {
    var s := lead + Join(cs, "/");
    var u := s + "/" + "..";
    var up := lead + Join(cs[..|cs| - 1], "/");
    NormalFixed(lead, cs);
    assert AbsPath(s, cwd) == s;
    ExtendNormal(lead, cs, "..");
    SplitAbsent("..", '/');
    ParentStep(cs);
    assert AbsPath(u, cwd) == up;
    DropLastName(lead, cs);
    assert !(s <= up);
    PassesIffPrefix(u, s, cwd);
  }

  /** A trailing slash is dropped. */
  lemma TrailingSlashDropped(lead: string, cs: seq<string>, cwd: string)
    requires (lead == "/" || lead == "//") && AllNames(cs) && |cs| > 0 && IsAbs(cwd)
    ensures AbsPath(lead + Join(cs, "/") + "/", cwd) == lead + Join(cs, "/")
  {
    ExtendNormal(lead, cs, "");
    assert Split("", "/") == [""];
    assert lead + Join(cs, "/") + "/" + "" == lead + Join(cs, "/") + "/";
  }

  /** A "." component is dropped. */
  lemma CurrentDirDropped(lead: string, cs: seq<string>, ds: seq<string>, cwd: string)
    requires (lead == "/" || lead == "//") && AllNames(cs) && AllNames(ds) && |cs| > 0 && |ds| > 0 && IsAbs(cwd)
    ensures AbsPath(lead + Join(cs, "/") + "/./" + Join(ds, "/"), cwd) == lead + Join(cs + ds, "/")
  {
    var t := "." + ['/'] + Join(ds, "/");
    assert lead + Join(cs, "/") + "/./" + Join(ds, "/") == lead + Join(cs, "/") + "/" + t;
    ExtendNormal(lead, cs, t);
    SplitConcat(".", Join(ds, "/"), '/');
    SplitAbsent(".", '/');
    SplitJoin(ds, '/');
    NormCompsNames(true, cs, ds);
    JoinAppend(cs, ds, "/");
  }

  /** A relative name is resolved inside the working directory. */
  lemma RelativeInsideCwd(lead: string, cs: seq<string>, ds: seq<string>)
    requires (lead == "/" || lead == "//") && AllNames(cs) && AllNames(ds) && |cs| > 0 && |ds| > 0
    ensures AbsPath(Join(ds, "/"), lead + Join(cs, "/")) == lead + Join(cs + ds, "/")
  {
    var cwd := lead + Join(cs, "/");
    var t := Join(ds, "/");
    NamesJoinShape(cs);
    NamesJoinShape(ds);
    assert cwd[|cwd| - 1] == Join(cs, "/")[|Join(cs, "/")| - 1];
    JoinRelative(cwd, t);
    ExtendNormal(lead, cs, t);
    SplitJoin(ds, '/');
    NormCompsNames(true, cs, ds);
    JoinAppend(cs, ds, "/");
  }

  /** Normal paths are their own absolute forms, so the check is a plain prefix test on them. */
  lemma NormalPrefixPasses(lead: string, cs: seq<string>, ds: seq<string>, cwd: string)
    requires (lead == "/" || lead == "//") && AllNames(cs) && AllNames(ds) && IsAbs(cwd)
    requires lead + Join(cs, "/") <= lead + Join(ds, "/")
    ensures PathTraversalCheck(lead + Join(ds, "/"), lead + Join(cs, "/"), cwd) == Ok(lead + Join(ds, "/"))
  {
    NormalFixed(lead, cs);
    NormalFixed(lead, ds);
    PassesIffPrefix(lead + Join(ds, "/"), lead + Join(cs, "/"), cwd);
  }

  /**
   * The download handler joins a file name to the upload directory and
   * checks the result: a plain name inside a normal directory passes and is
   * returned as the joined path.
   */
  lemma UploadFilePasses(lead: string, cs: seq<string>, name: string, cwd: string)
    requires (lead == "/" || lead == "//") && AllNames(cs) && |cs| > 0 && IsName(name) && IsAbs(cwd)
    ensures PathTraversalCheck(PathJoin(lead + Join(cs, "/"), name), lead + Join(cs, "/"), cwd) == Ok(lead + Join(cs + [name], "/"))
  {
    JoinName(lead, cs, name);
    NormalPrefixPasses(lead, cs, cs + [name], cwd);
  }

  /** Joining a plain name to a normal directory gives the normal path with one more name. */
  lemma JoinName(lead: string, cs: seq<string>, name: string)
    requires (lead == "/" || lead == "//") && AllNames(cs) && |cs| > 0 && IsName(name)
    ensures PathJoin(lead + Join(cs, "/"), name) == lead + Join(cs + [name], "/")
    ensures AllNames(cs + [name]) && lead + Join(cs, "/") <= lead + Join(cs + [name], "/")
  {
    NamesJoinShape(cs);
    assert name[0] in name;
    JoinOneMore(lead, cs, name);
    AppendName(cs, name);
  }

  lemma JoinOneMore(lead: string, cs: seq<string>, name: string)
    requires |cs| > 0 && |Join(cs, "/")| > 0 && Join(cs, "/")[|Join(cs, "/")| - 1] != '/'
    requires |name| > 0 && name[0] != '/'
    ensures PathJoin(lead + Join(cs, "/"), name) == lead + Join(cs + [name], "/")
  {
    var j := Join(cs, "/");
    JoinRelative(lead + j, name);
    assert (lead + j)[|lead + j| - 1] == j[|j| - 1];
    JoinAppend(cs, [name], "/");
    assert Join([name], "/") == name;
    ConcatAssoc(lead, j, "/", name);
  }

  lemma ConcatAssoc(a: string, b: string, c: string, d: string)
    ensures (a + b) + c + d == a + (b + c + d)
  {
  }

  /** Joining a relative name to a directory not ending in "/" inserts one "/". */
  lemma JoinRelative(dir: string, name: string)
    requires |dir| > 0 && dir[|dir| - 1] != '/' && |name| > 0 && name[0] != '/'
    ensures PathJoin(dir, name) == dir + "/" + name
  {
  }

  lemma AppendName(cs: seq<string>, name: string)
    requires AllNames(cs) && IsName(name)
    ensures AllNames(cs + [name])
  {
    forall i | 0 <= i < |cs + [name]| ensures IsName((cs + [name])[i]) {
      if i < |cs| { assert (cs + [name])[i] == cs[i]; }
    }
  }

  /** An absolute file name replaces the upload directory in the join, so only the check stops it. */
  lemma AbsoluteNameEscapes(dir: string, name: string, cwd: string)
    requires IsAbs(name) && IsAbs(cwd)
    ensures PathTraversalCheck(PathJoin(dir, name), dir, cwd).Ok? <==> AbsPath(dir, cwd) <= AbsPath(name, cwd)
  {
    PassesIffPrefix(PathJoin(dir, name), dir, cwd);
  }

  /** The test is on characters, not path components: a sibling directory sharing the prefix passes. */
  lemma SiblingDirectoryPasses(unsafePath: string, safePath: string, cwd: string)
    requires unsafePath == "/tmp/upload-x/f" && safePath == "/tmp/up" && IsAbs(cwd)
    ensures PathTraversalCheck(unsafePath, safePath, cwd) == Ok("/tmp/upload-x/f")
  {
    var us := ["tmp", "upload-x", "f"];
    var ss := ["tmp", "up"];
    calc {
      PathTraversalCheck(unsafePath, safePath, cwd);
      { assert unsafePath == "/" + Join(us, "/"); assert safePath == "/" + Join(ss, "/"); }
      PathTraversalCheck("/" + Join(us, "/"), "/" + Join(ss, "/"), cwd);
      { assert "/" + Join(ss, "/") <= "/" + Join(us, "/") by { assert unsafePath[..|safePath|] == safePath; }
        NormalPrefixPasses("/", ss, us, cwd); }
      Ok("/" + Join(us, "/"));
      { assert "/" + Join(us, "/") == "/tmp/upload-x/f"; }
      Ok("/tmp/upload-x/f");
    }
  }

  /** A path elsewhere fails. */
  lemma ParentDirectoryFails(cwd: string)
    requires IsAbs(cwd)
    ensures PathTraversalCheck("/etc/passwd", "/tmp/up", cwd).Err?
  {
    assert "/etc/passwd" == "/" + Join(["etc", "passwd"], "/");
    assert "/tmp/up" == "/" + Join(["tmp", "up"], "/");
    NormalFixed("/", ["etc", "passwd"]);
    NormalFixed("/", ["tmp", "up"]);
    PassesIffPrefix("/etc/passwd", "/tmp/up", cwd);
    assert "/etc/passwd"[1] != "/tmp/up"[1];
  }

  /** "/tmp/up/.." normalises to "/tmp", which is outside "/tmp/up". */
  lemma DotDotExampleFails(unsafePath: string, safePath: string, cwd: string)
    requires unsafePath == "/tmp/up/.." && safePath == "/tmp/up" && IsAbs(cwd)
    ensures PathTraversalCheck(unsafePath, safePath, cwd) == Err(SuspiciousFileOperation("/tmp is not safe"))
  {
    var cs := ["tmp", "up"];
    var s := "/" + Join(cs, "/");
    var parent := "/" + Join(cs[..|cs| - 1], "/");
    calc {
      PathTraversalCheck(unsafePath, safePath, cwd);
      { assert safePath == s; assert unsafePath == s + "/" + ".."; }
      PathTraversalCheck(s + "/" + "..", s, cwd);
      { ClimbOutFails("/", cs, cwd); }
      Err(SuspiciousFileOperation(parent + " is not safe"));
      { assert cs[..|cs| - 1] == ["tmp"]; assert parent == "/tmp"; assert parent + " is not safe" == "/tmp is not safe"; }
      Err(SuspiciousFileOperation("/tmp is not safe"));
    }
  }

  /** "/tmp/up/./f" passes as "/tmp/up/f". */
  lemma DotExamplePasses(cwd: string)
    requires IsAbs(cwd)
    ensures PathTraversalCheck("/tmp/up/./f", "/tmp/up", cwd) == Ok("/tmp/up/f")
  {
    assert "/tmp/up" == "/" + Join(["tmp", "up"], "/");
    assert "/tmp/up/./f" == "/" + Join(["tmp", "up"], "/") + "/./" + Join(["f"], "/");
    CurrentDirDropped("/", ["tmp", "up"], ["f"], cwd);
    assert ["tmp", "up"] + ["f"] == ["tmp", "up", "f"];
    assert "/" + Join(["tmp", "up", "f"], "/") == "/tmp/up/f";
    NormalFixed("/", ["tmp", "up"]);
    PassesIffPrefix("/tmp/up/./f", "/tmp/up", cwd);
    assert "/tmp/up" <= "/tmp/up/f";
  }
}

=== FILE: sorting.dfy ===
/** Python's string ordering and its stable `sorted(..., key=...)`, as an insertion sort. */
module Sorting {

  /** Python's `a <= b` on strings: code-point lexicographic order. */
  predicate LexLe(a: string, b: string)
    decreases |a|
  {
    |a| == 0 || (|b| > 0 && (a[0] < b[0] || (a[0] == b[0] && LexLe(a[1..], b[1..]))))
  }

  lemma {:induction false} LexLeTotal(a: string, b: string)
    ensures LexLe(a, b) || LexLe(b, a)
    decreases |a|
  {
    if |a| > 0 && |b| > 0 && a[0] == b[0] {
      LexLeTotal(a[1..], b[1..]);
    }
  }

  lemma {:induction false} LexLeTransitive(a: string, b: string, c: string)
    requires LexLe(a, b) && LexLe(b, c)
    ensures LexLe(a, c)
    decreases |a|
  {
    if |a| > 0 && a[0] == b[0] && b[0] == c[0] {
      LexLeTransitive(a[1..], b[1..], c[1..]);
    }
  }

  lemma {:induction false} LexLeAntisymmetric(a: string, b: string)
    requires LexLe(a, b) && LexLe(b, a)
    ensures a == b
    decreases |a|
  {
    if |a| > 0 {
      LexLeAntisymmetric(a[1..], b[1..]);
      assert a == [a[0]] + a[1..] && b == [b[0]] + b[1..];
    }
  }

  ghost predicate SortedBy<T>(s: seq<T>, key: T -> string)
  {
    forall i, j :: 0 <= i < j < |s| ==> LexLe(key(s[i]), key(s[j]))
  }

  /** Two orderings of the same elements have the same members. */
  lemma SameMembers<T>(a: seq<T>, b: seq<T>)
    requires multiset(a) == multiset(b)
    ensures forall x :: x in a <==> x in b
  {
    forall x
      ensures x in a <==> x in b
    {
      assert x in a <==> x in multiset(a);
      assert x in b <==> x in multiset(b);
    }
  }

  /** Every key in `s` is at least `b`. */
  predicate KeysAtLeast<T>(b: string, s: seq<T>, key: T -> string)
  {
    forall j :: 0 <= j < |s| ==> LexLe(b, key(s[j]))
  }

  /** The tail of a sorted sequence is sorted and bounded below by the head's key. */
  lemma SortedTail<T>(s: seq<T>, key: T -> string)
    requires |s| > 0 && SortedBy(s, key)
    ensures SortedBy(s[1..], key) && KeysAtLeast(key(s[0]), s[1..], key)
  {
  }

  /** An element whose key bounds a sorted sequence from below can go in front of it. */
  lemma ConsSorted<T>(y: T, s: seq<T>, key: T -> string)
    requires SortedBy(s, key) && KeysAtLeast(key(y), s, key)
    ensures SortedBy([y] + s, key)
  {
    forall i, j | 0 <= i < j < |[y] + s| ensures LexLe(key(([y] + s)[i]), key(([y] + s)[j])) {
      assert ([y] + s)[j] == s[j - 1];
      if i > 0 {
        assert ([y] + s)[i] == s[i - 1];
      }
    }
  }

  /** A key at most the head's bounds the whole of a sorted sequence. */
  lemma SortedLowerBound<T>(b: string, s: seq<T>, key: T -> string)
    requires |s| > 0 && SortedBy(s, key) && LexLe(b, key(s[0]))
    ensures KeysAtLeast(b, s, key)
  {
    forall j | 0 < j < |s| ensures LexLe(b, key(s[j])) {
      LexLeTransitive(b, key(s[0]), key(s[j]));
    }
  }

  /** A lower bound on the keys survives adding one more bounded element and reordering. */
  lemma KeysAtLeastPermutation<T>(b: string, x: T, t: seq<T>, u: seq<T>, key: T -> string)
    requires multiset(u) == multiset(t) + multiset{x}
    requires LexLe(b, key(x)) && KeysAtLeast(b, t, key)
    ensures KeysAtLeast(b, u, key)
  {
    forall j | 0 <= j < |u| ensures LexLe(b, key(u[j])) {
      assert u[j] in multiset(u);
      if u[j] != x {
        assert u[j] in multiset(t);
        var k :| 0 <= k < |t| && t[k] == u[j];
      }
    }
  }

  /** Inserts `x` after every element whose key is at most `key(x)`, which keeps equal keys in arrival order. */
  function InsertBy<T>(x: T, s: seq<T>, key: T -> string): (r: seq<T>)
    requires SortedBy(s, key)
    ensures SortedBy(r, key)
    ensures multiset(r) == multiset(s) + multiset{x}
    decreases |s|
  {
    if |s| == 0 then [x]
    else if !LexLe(key(s[0]), key(x)) then
      LexLeTotal(key(s[0]), key(x));
      SortedLowerBound(key(x), s, key);
      ConsSorted(x, s, key);
      [x] + s
    else
      SortedTail(s, key);
      var rest := InsertBy(x, s[1..], key);
      KeysAtLeastPermutation(key(s[0]), x, s[1..], rest, key);
      ConsSorted(s[0], rest, key);
      assert s == [s[0]] + s[1..];
      [s[0]] + rest
  }

  /** Python's `sorted(s, key=key)`: a stable sort by the string key. */
  function SortBy<T>(s: seq<T>, key: T -> string): (r: seq<T>)
    ensures SortedBy(r, key)
    ensures multiset(r) == multiset(s)
    ensures |r| == |s|
  {
    if |s| == 0 then []
    else
      var init := s[..|s| - 1];
      var last := s[|s| - 1];
      assert s == init + [last];
      assert multiset(s) == multiset(init) + multiset{last};
      InsertBy(last, SortBy(init, key), key)
  }
}

=== FILE: storage.dfy ===
/**
 * The shared key/counter store (libretranslate/storage.py). The in-memory
 * backend keeps ONE dictionary: a key holds either a scalar (bool, int or
 * string) or a hash namespace of integer fields, so a scalar and a namespace
 * with the same name clash. Python exceptions become `Err`.
 */
module Storage {
  import opened Wrappers
  import Numbers

  datatype Scalar = SBool(b: bool) | SInt(i: int) | SStr(s: string)

  /** What one key of the memory store holds. */
  datatype Entry = Scalar(v: Scalar) | Hash(fields: map<string, int>)

  type Store = map<string, Entry>

  datatype StoreError =
    | KeyError(key: string)
    | TypeError
    | AttributeError
    | ValueError
    /** `str()` of a namespace dictionary is its repr, which the model does not reproduce. */
    | ReprNotModelled
    | InvalidUri(message: string)

  /** The two backends `setup` can select. */
  datatype Backend = Memory | Redis

  const Empty: Store := map[]

  /** `setup(storage_uri)`: the backend is chosen by the URI's scheme prefix; any other URI raises. */
  function Setup(uri: string): (r: Result<Backend, StoreError>)
    ensures r == Ok(Memory) <==> "memory://" <= uri
    ensures r == Ok(Redis) <==> "redis://" <= uri
    ensures r.Err? <==> !("memory://" <= uri) && !("redis://" <= uri)
    ensures r.Err? ==> r.error == InvalidUri("Invalid storage URI: " + uri)
  {
    if "memory://" <= uri then
      assert uri[0] == 'm';
      Ok(Memory)
    else if "redis://" <= uri then
      assert uri[0] == 'r';
      Ok(Redis)
    else Err(InvalidUri("Invalid storage URI: " + uri))
  }

  predicate Exists(st: Store, key: string) { key in st }

  function SetBool(st: Store, key: string, value: bool): Store { st[key := Scalar(SBool(value))] }

  /** `bool(self.store[key])`: a missing key raises; any other entry is judged by Python truthiness. */
  function GetBool(st: Store, key: string): Result<bool, StoreError>
  {
    if key !in st then Err(KeyError(key))
    else match st[key]
      case Scalar(SBool(b)) => Ok(b)
      case Scalar(SInt(i)) => Ok(i != 0)
      case Scalar(SStr(s)) => Ok(|s| > 0)
      case Hash(f) => Ok(|f| > 0)
  }

  function SetInt(st: Store, key: string, value: int): Store { st[key := Scalar(SInt(value))] }

  /** `int(self.store.get(key, 0))`. */
  function GetInt(st: Store, key: string): Result<int, StoreError>
  {
    if key !in st then Ok(0)
    else match st[key]
      case Scalar(SBool(b)) => Ok(if b then 1 else 0)
      case Scalar(SInt(i)) => Ok(i)
      case Scalar(SStr(s)) =>
        (match Numbers.ParseInt(s)
         case Some(i) => Ok(i)
         case None => Err(ValueError))
      case Hash(_) => Err(TypeError)
  }

  function SetStr(st: Store, key: string, value: string): Store { st[key := Scalar(SStr(value))] }

  /** `str(self.store.get(key, ""))`. */
  function GetStr(st: Store, key: string): Result<string, StoreError>
  {
    if key !in st then Ok("")
    else match st[key]
      case Scalar(SBool(b)) => Ok(if b then "True" else "False")
      case Scalar(SInt(i)) => Ok(Numbers.IntToString(i))
      case Scalar(SStr(s)) => Ok(s)
      case Hash(_) => Err(ReprNotModelled)
  }

  /** A field of a namespace; an absent field reads as 0. */
  function FieldGet(fields: map<string, int>, key: string): int
  {
    if key in fields then fields[key] else 0
  }

  /** The in-memory increment: an ABSENT field is initialised to 0, a present one gains 1. */
  function IncField(fields: map<string, int>, key: string): map<string, int>
  {
    if key !in fields then fields[key := 0] else fields[key := fields[key] + 1]
  }

  /** The in-memory decrement: an absent field is initialised to 0, a present one loses 1 (no floor). */
  function DecField(fields: map<string, int>, key: string): map<string, int>
  {
    if key !in fields then fields[key := 0] else fields[key := fields[key] - 1]
  }

  /** Redis `HINCRBY key field 1`: an absent field counts as 0 before the increment, so it becomes 1. */
  function RedisIncField(fields: map<string, int>, key: string): map<string, int>
  {
    fields[key := FieldGet(fields, key) + 1]
  }

  /** The namespace `ns`, created empty when absent; a scalar under that name cannot be indexed. */
  function Namespace(st: Store, ns: string): Result<map<string, int>, StoreError>
  {
    if ns !in st then Ok(map[])
    else match st[ns]
      case Hash(f) => Ok(f)
      case Scalar(_) => Err(TypeError)
  }

  function SetHashInt(st: Store, ns: string, key: string, value: int): Result<Store, StoreError>
  {
    var f :- Namespace(st, ns);
    Ok(st[ns := Hash(f[key := value])])
  }

  /** `self.store.get(ns, {}).get(key, 0)`: a scalar under `ns` has no `.get`. */
  function GetHashInt(st: Store, ns: string, key: string): Result<int, StoreError>
  {
    if ns !in st then Ok(0)
    else match st[ns]
      case Hash(f) => Ok(FieldGet(f, key))
      case Scalar(_) => Err(AttributeError)
  }

  function IncHashInt(st: Store, ns: string, key: string): Result<Store, StoreError>
  {
    var f :- Namespace(st, ns);
    Ok(st[ns := Hash(IncField(f, key))])
  }

  function DecHashInt(st: Store, ns: string, key: string): Result<Store, StoreError>
  {
    var f :- Namespace(st, ns);
    Ok(st[ns := Hash(DecField(f, key))])
  }

  /** The namespace as a dictionary, the shape the Redis backend returns; an absent namespace is empty. */
  function GetAllHashIntDict(st: Store, ns: string): Result<map<string, int>, StoreError>
  {
    if ns !in st then Ok(map[])
    else match st[ns]
      case Hash(f) => Ok(f)
      case Scalar(_) => Err(AttributeError)
  }

  /**
   * The LENGTH of the list the memory backend's `get_all_hash_int` returns:
   * one single-entry dictionary per field (or `[]` for an absent namespace).
   */
  function GetAllHashIntListLength(st: Store, ns: string): Result<nat, StoreError>
  {
    if ns !in st then Ok(0)
    else match st[ns]
      case Hash(f) => Ok(|f|)
      case Scalar(_) => Err(AttributeError)
  }

  /** `del self.store[ns][key]`: a missing namespace or field raises `KeyError`. */
  function DelHash(st: Store, ns: string, key: string): Result<Store, StoreError>
  {
    if ns !in st then Err(KeyError(ns))
    else match st[ns]
      case Hash(f) => if key in f then Ok(st[ns := Hash(f - {key})]) else Err(KeyError(key))
      case Scalar(_) => Err(TypeError)
  }

  // ---- Properties of the memory backend ----

  /** Absent keys, namespaces and fields read as the defaults 0 and "". */
  lemma AbsentDefaults(st: Store, key: string, ns: string)
    requires key !in st
    ensures GetInt(st, key) == Ok(0)
    ensures GetStr(st, key) == Ok("")
    ensures GetBool(st, key).Err?
    ensures GetHashInt(st, key, ns) == Ok(0)
    ensures ns in st && st[ns].Hash? && key !in st[ns].fields ==> GetHashInt(st, ns, key) == Ok(0)
  {
  }

  /** Every setter is read back by its getter; no other key changes. */
  lemma SetThenGet(st: Store, key: string, other: string, i: int, s: string, b: bool)
    requires other != key
    ensures GetInt(SetInt(st, key, i), key) == Ok(i)
    ensures GetStr(SetStr(st, key, s), key) == Ok(s)
    ensures GetBool(SetBool(st, key, b), key) == Ok(b)
    ensures other in st ==>
      && SetInt(st, key, i)[other] == st[other]
      && SetStr(st, key, s)[other] == st[other]
      && SetBool(st, key, b)[other] == st[other]
    ensures other !in st ==> other !in SetInt(st, key, i) && other !in SetStr(st, key, s) && other !in SetBool(st, key, b)
  {
  }

  /** `set_hash_int` is read back by `get_hash_int`; other fields and other keys keep their values. */
  lemma SetHashThenGet(st: Store, ns: string, key: string, v: int, otherKey: string, otherNs: string)
    requires ns !in st || st[ns].Hash?
    requires otherKey != key && otherNs != ns
    ensures SetHashInt(st, ns, key, v).Ok?
    ensures GetHashInt(SetHashInt(st, ns, key, v).value, ns, key) == Ok(v)
    ensures GetHashInt(SetHashInt(st, ns, key, v).value, ns, otherKey) == GetHashInt(st, ns, otherKey)
    ensures otherNs in st ==> SetHashInt(st, ns, key, v).value[otherNs] == st[otherNs]
  {
  }

  /** `inc_hash_int` on the memory backend: an absent field reads 0 afterwards, a present one gains exactly 1. */
  lemma IncHashIntSpec(st: Store, ns: string, key: string)
    requires ns !in st || st[ns].Hash?
    ensures IncHashInt(st, ns, key).Ok?
    ensures var after := IncHashInt(st, ns, key).value;
      && after[ns].Hash? && key in after[ns].fields
      && GetHashInt(after, ns, key) == Ok(if ns in st && key in st[ns].fields then st[ns].fields[key] + 1 else 0)
  {
  }

  /**
   * The two backends disagree exactly on the first increment of a field:
   * memory leaves it at 0, Redis at 1; from then on both add 1.
   */
  lemma MemoryAndRedisIncrement(f: map<string, int>, key: string)
    ensures key !in f ==> IncField(f, key)[key] == 0 && RedisIncField(f, key)[key] == 1
    ensures key in f ==> IncField(f, key) == RedisIncField(f, key)
    ensures IncField(f, key) - {key} == f - {key} && RedisIncField(f, key) - {key} == f - {key}
  {
  }

  /** `dec_hash_int` has no floor: a field at 0 goes to -1; an absent field becomes 0. */
  lemma DecHashIntHasNoFloor(f: map<string, int>, key: string)
    ensures key !in f ==> DecField(f, key)[key] == 0
    ensures key in f ==> DecField(f, key)[key] == f[key] - 1
    ensures key in f && f[key] == 0 ==> DecField(f, key)[key] < 0
  {
  }

  /** `del_hash` removes exactly one field of one namespace, and fails when the field is absent. */
  lemma DelHashSpec(st: Store, ns: string, key: string)
    requires ns in st && st[ns].Hash?
    ensures key in st[ns].fields <==> DelHash(st, ns, key).Ok?
    ensures DelHash(st, ns, key).Ok? ==>
      var after := DelHash(st, ns, key).value;
      && after.Keys == st.Keys
      && (forall other :: other in st && other != ns ==> after[other] == st[other])
      && after[ns].Hash? && after[ns].fields.Keys == st[ns].fields.Keys - {key}
      && (forall k :: k in after[ns].fields ==> after[ns].fields[k] == st[ns].fields[k])
  {
  }

  /**
   * Scalars and namespaces share one dictionary: after `set_int(k, ..)` the
   * hash operations on namespace `k` fail.
   */
  lemma ScalarsAndNamespacesShareKeys(st: Store, k: string, i: int, field: string)
    ensures GetHashInt(SetInt(st, k, i), k, field).Err?
    ensures IncHashInt(SetInt(st, k, i), k, field).Err?
    ensures SetHashInt(SetInt(st, k, i), k, field, i).Err?
  {
  }
}

=== FILE: text.dfy ===
/**
 * String helpers with Python's semantics: `str.replace`, `str.split`,
 * `str.join`, `in`, `str.strip`, and the ASCII part of `str.lower`,
 * `str.upper`, `str.islower`, `str.isupper`.
 */
module Text {
  import opened Wrappers

  /** Python's `p in s` on strings: `p` occurs somewhere in `s`. */
  predicate Contains(s: string, p: string)
    decreases |s|
  {
    p <= s || (|s| > 0 && Contains(s[1..], p))
  }

  /** Python's `s.replace(p, r)`: every non-overlapping occurrence of `p`, scanned left to right, becomes `r`. */
  function ReplaceAll(s: string, p: string, r: string): string
    requires |p| > 0
    decreases |s|
  {
    if |s| == 0 then []
    else if p <= s then r + ReplaceAll(s[|p|..], p, r)
    else [s[0]] + ReplaceAll(s[1..], p, r)
  }

  /** Python's `sep.join(parts)`. */
  function Join(parts: seq<string>, sep: string): string
  {
    if |parts| == 0 then []
    else if |parts| == 1 then parts[0]
    else parts[0] + sep + Join(parts[1..], sep)
  }

  /** Python's `s.split(p)` for a non-empty separator. */
  function Split(s: string, p: string): (parts: seq<string>)
    requires |p| > 0
    ensures |parts| >= 1
  {
    SplitFrom(s, p, [])
  }

  /** Splitting `s` when the piece `cur` has already been collected. */
  function SplitFrom(s: string, p: string, cur: string): (parts: seq<string>)
    requires |p| > 0
    ensures |parts| >= 1
    decreases |s|
  {
    if |s| == 0 then [cur]
    else if p <= s then [cur] + SplitFrom(s[|p|..], p, [])
    else SplitFrom(s[1..], p, cur + [s[0]])
  }

  lemma {:induction false} JoinSplitFrom(s: string, p: string, cur: string, sep: string)
    requires |p| > 0
    ensures Join(SplitFrom(s, p, cur), sep) == cur + ReplaceAll(s, p, sep)
    decreases |s|
  {
    if |s| == 0 {
    } else if p <= s {
      JoinSplitFrom(s[|p|..], p, [], sep);
      assert [] + ReplaceAll(s[|p|..], p, sep) == ReplaceAll(s[|p|..], p, sep);
    } else {
      JoinSplitFrom(s[1..], p, cur + [s[0]], sep);
    }
  }

  /** `s.replace(p, r)` is `r.join(s.split(p))`: the two Python idioms agree. */
  lemma ReplaceIsJoinOfSplit(s: string, p: string, r: string)
    requires |p| > 0
    ensures ReplaceAll(s, p, r) == Join(Split(s, p), r)
  {
    JoinSplitFrom(s, p, [], r);
  }

  /** Replacing a pattern by itself changes nothing. */
  lemma {:induction false} ReplaceBySelf(s: string, p: string)
    requires |p| > 0
    ensures ReplaceAll(s, p, p) == s
    decreases |s|
  {
    if |s| == 0 {
    } else if p <= s {
      ReplaceBySelf(s[|p|..], p);
      assert s == p + s[|p|..];
    } else {
      ReplaceBySelf(s[1..], p);
      assert s == [s[0]] + s[1..];
    }
  }

  /** Joining the pieces of a split with the same separator gives the original string back. */
  lemma JoinSplitRoundTrip(s: string, p: string)
    requires |p| > 0
    ensures Join(Split(s, p), p) == s
  {
    ReplaceIsJoinOfSplit(s, p, p);
    ReplaceBySelf(s, p);
  }

  /** Replacing a pattern that does not occur is the identity. */
  lemma {:induction false} ReplaceAbsent(s: string, p: string, r: string)
    requires |p| > 0
    requires !Contains(s, p)
    ensures ReplaceAll(s, p, r) == s
    decreases |s|
  {
    if |s| > 0 {
      ReplaceAbsent(s[1..], p, r);
      assert s == [s[0]] + s[1..];
    }
  }

  /** Nothing longer than a string occurs in it. */
  lemma {:induction false} ShortNoContains(s: string, p: string)
    requires |s| < |p|
    ensures !Contains(s, p)
    decreases |s|
  {
    if |s| > 0 {
      ShortNoContains(s[1..], p);
    }
  }

  /** A string occurs in every string that starts with it. */
  lemma ContainsPrefix(s: string, p: string)
    requires p <= s
    ensures Contains(s, p)
  {
  }

  /** An occurrence inside `a` or `b` is an occurrence inside `a + b`. */
  lemma {:induction false} ContainsConcat(a: string, b: string, p: string)
    requires Contains(a, p) || Contains(b, p)
    ensures Contains(a + b, p)
    decreases |a|
  {
    if p <= a {
      assert p <= a + b;
    } else if |a| > 0 && Contains(a[1..], p) {
      ContainsConcat(a[1..], b, p);
      assert (a + b)[1..] == a[1..] + b;
    } else if |a| > 0 {
      ContainsConcat(a[1..], b, p);
      assert (a + b)[1..] == a[1..] + b;
    } else {
      assert a + b == b;
    }
  }

  /** Python's `s.endswith(suffix)`. */
  predicate EndsWith(s: string, suffix: string)
  {
    |suffix| <= |s| && s[|s| - |suffix|..] == suffix
  }

  /** A concatenation starts with its first part and ends with its second. */
  lemma ConcatEnds(a: string, b: string)
    ensures a <= a + b && EndsWith(a + b, b)
  {
    assert (a + b)[..|a|] == a;
    assert (a + b)[|a|..] == b;
  }

  /** The index of the first `c` in `s`, if any. */
  function FirstIndex(s: string, c: char): (r: Option<nat>)
    ensures r.None? <==> c !in s
    ensures r.Some? ==> r.value < |s| && s[r.value] == c && c !in s[..r.value]
  {
    if |s| == 0 then None
    else if s[0] == c then Some(0)
    else match FirstIndex(s[1..], c)
      case None => None
      case Some(k) =>
        assert s[..k + 1] == [s[0]] + s[1..][..k];
        Some(k + 1)
  }

  /** Splitting on a character that does not occur gives one piece. */
  lemma {:induction false} SplitFromAbsent(s: string, c: char, cur: string)
    requires c !in s
    ensures SplitFrom(s, [c], cur) == [cur + s]
    decreases |s|
  {
    if |s| > 0 {
      assert s[0] in s;
      assert !([c] <= s);
      assert forall x :: x in s[1..] ==> x in s;
      SplitFromAbsent(s[1..], c, cur + [s[0]]);
      assert cur + [s[0]] + s[1..] == cur + s;
    } else {
      assert cur + s == cur;
    }
  }

  /** Splitting cuts at a position holding the first `c`. */
  lemma {:induction false} SplitFromAt(s: string, c: char, cur: string, k: nat)
    requires k < |s| && s[k] == c && c !in s[..k]
    ensures SplitFrom(s, [c], cur) == [cur + s[..k]] + SplitFrom(s[k + 1..], [c], [])
    decreases k
  {
    if k == 0 {
      assert [c] <= s;
      assert cur + s[..0] == cur;
      assert s[|[c]|..] == s[0 + 1..];
    } else {
      assert s[0] == s[..k][0];
      assert !([c] <= s);
      assert s[1..][..k - 1] == s[..k][1..];
      assert forall x :: x in s[..k][1..] ==> x in s[..k];
      SplitFromAt(s[1..], c, cur + [s[0]], k - 1);
      assert cur + [s[0]] + s[1..][..k - 1] == cur + s[..k];
      assert s[1..][k - 1 + 1..] == s[k + 1..];
    }
  }

  /** Splitting on one character cuts at its first occurrence, and the rest is split the same way. */
  lemma SplitFromAtFirst(s: string, c: char, cur: string)
    ensures FirstIndex(s, c).None? ==> SplitFrom(s, [c], cur) == [cur + s]
    ensures FirstIndex(s, c).Some? ==>
      var k := FirstIndex(s, c).value;
      SplitFrom(s, [c], cur) == [cur + s[..k]] + SplitFrom(s[k + 1..], [c], [])
  {
    match FirstIndex(s, c)
    case None => SplitFromAbsent(s, c, cur);
    case Some(k) => SplitFromAt(s, c, cur, k);
  }

  /** The first piece of `s.split(c)` is `s` up to its first `c`, or all of `s`. */
  lemma SplitFirstPiece(s: string, c: char)
    ensures FirstIndex(s, c).None? ==> Split(s, [c]) == [s]
    ensures FirstIndex(s, c).Some? ==> Split(s, [c])[0] == s[..FirstIndex(s, c).value]
  {
    SplitFromAtFirst(s, c, []);
    assert [] + s == s;
  }

  /** The pieces after the first of `s.split(c)`, re-joined with `c`, are `s` after its first `c`. */
  lemma JoinTailOfSplit(s: string, c: char)
    ensures FirstIndex(s, c).None? ==> Join(Split(s, [c])[1..], [c]) == []
    ensures FirstIndex(s, c).Some? ==> Join(Split(s, [c])[1..], [c]) == s[FirstIndex(s, c).value + 1..]
  {
    SplitFromAtFirst(s, c, []);
    if FirstIndex(s, c).Some? {
      var k := FirstIndex(s, c).value;
      assert Split(s, [c])[1..] == Split(s[k + 1..], [c]);
      JoinSplitRoundTrip(s[k + 1..], [c]);
    }
  }

  /** `s.split(c)` has one more piece than `s` has occurrences of `c`. */
  lemma {:induction false} SplitCount(s: string, c: char, cur: string)
    ensures |SplitFrom(s, [c], cur)| == multiset(s)[c] + 1
    decreases |s|
  {
    if |s| > 0 {
      assert s == [s[0]] + s[1..];
      if [c] <= s {
        SplitCount(s[1..], c, []);
      } else {
        SplitCount(s[1..], c, cur + [s[0]]);
      }
    }
  }

  /** A string without the separator splits into itself. */
  lemma SplitAbsent(s: string, c: char)
    requires c !in s
    ensures Split(s, [c]) == [s]
  {
    SplitFromAbsent(s, c, []);
    assert [] + s == s;
  }

  /** Splitting around one separator splits each side of it. */
  lemma {:induction false} SplitFromConcat(a: string, b: string, c: char, cur: string)
    ensures SplitFrom(a + [c] + b, [c], cur) == SplitFrom(a, [c], cur) + SplitFrom(b, [c], [])
    decreases |a|
  {
    var s := a + [c] + b;
    if |a| == 0 {
      assert s == [c] + b;
      assert [c] <= s;
      assert s[|[c]|..] == b;
    } else {
      assert s[0] == a[0];
      assert s[1..] == a[1..] + [c] + b;
      if a[0] == c {
        assert [c] <= s && [c] <= a;
        SplitFromConcat(a[1..], b, c, []);
        assert s[|[c]|..] == s[1..];
        assert a[|[c]|..] == a[1..];
      } else {
        assert !([c] <= s) && !([c] <= a);
        SplitFromConcat(a[1..], b, c, cur + [a[0]]);
      }
    }
  }

  /** `(a + c + b).split(c)` is `a.split(c) + b.split(c)`. */
  lemma SplitConcat(a: string, b: string, c: char)
    ensures Split(a + [c] + b, [c]) == Split(a, [c]) + Split(b, [c])
  {
    SplitFromConcat(a, b, c, []);
  }

  /** Joining two non-empty lists is joining each and putting one separator between. */
  lemma {:induction false} JoinAppend(xs: seq<string>, ys: seq<string>, sep: string)
    requires |xs| > 0 && |ys| > 0
    ensures Join(xs + ys, sep) == Join(xs, sep) + sep + Join(ys, sep)
    decreases |xs|
  {
    if |xs| == 1 {
      assert (xs + ys)[1..] == ys;
    } else {
      JoinAppend(xs[1..], ys, sep);
      assert (xs + ys)[1..] == xs[1..] + ys;
    }
  }

  /** A join starts with its first piece. */
  lemma JoinStartsWithFirst(parts: seq<string>, sep: string)
    requires |parts| > 0
    ensures parts[0] <= Join(parts, sep)
  {
  }

  /** Splitting the join of pieces that do not contain the separator gives the pieces back. */
  lemma {:induction false} SplitJoin(parts: seq<string>, c: char)
    requires |parts| > 0 && forall i :: 0 <= i < |parts| ==> c !in parts[i]
    ensures Split(Join(parts, [c]), [c]) == parts
    decreases |parts|
  {
    SplitFromAbsent(parts[0], c, []);
    assert [] + parts[0] == parts[0];
    if |parts| > 1 {
      SplitJoin(parts[1..], c);
      SplitConcat(parts[0], Join(parts[1..], [c]), c);
      assert parts == [parts[0]] + parts[1..];
    }
  }

  /** No piece of `s.split(c)` contains `c`. */
  lemma {:induction false} SplitFromPiecesAvoid(s: string, c: char, cur: string)
    requires c !in cur
    ensures forall i :: 0 <= i < |SplitFrom(s, [c], cur)| ==> c !in SplitFrom(s, [c], cur)[i]
    decreases |s|
  {
    if |s| > 0 {
      if [c] <= s {
        SplitFromPiecesAvoid(s[|[c]|..], c, []);
      } else {
        assert s[0] != c;
        SplitFromPiecesAvoid(s[1..], c, cur + [s[0]]);
      }
    }
  }

  /** A one-character pattern occurs exactly when the character does. */
  lemma {:induction false} ContainsChar(s: string, c: char)
    ensures Contains(s, [c]) <==> c in s
    decreases |s|
  {
    if |s| > 0 {
      ContainsChar(s[1..], c);
      assert c in s <==> s[0] == c || c in s[1..];
    }
  }

  /** Replacing one character by another that `s` lacks can be undone. */
  lemma {:induction false} ReplaceCharRoundTrip(s: string, a: char, b: char)
    requires b !in s
    ensures ReplaceAll(ReplaceAll(s, [a], [b]), [b], [a]) == s
    decreases |s|
  {
    if |s| > 0 {
      var rest := ReplaceAll(s[1..], [a], [b]);
      assert b !in s[1..];
      ReplaceCharRoundTrip(s[1..], a, b);
      if s[0] == a {
        assert [a] <= s;
        assert ReplaceAll(s, [a], [b]) == [b] + rest;
        assert ([b] + rest)[1..] == rest;
        assert ReplaceAll([b] + rest, [b], [a]) == [a] + ReplaceAll(rest, [b], [a]);
      } else {
        assert !([a] <= s);
        assert ReplaceAll(s, [a], [b]) == [s[0]] + rest;
        assert ([s[0]] + rest)[1..] == rest;
        assert !([b] <= [s[0]] + rest);
        assert ReplaceAll([s[0]] + rest, [b], [a]) == [s[0]] + ReplaceAll(rest, [b], [a]);
      }
      assert s == [s[0]] + s[1..];
    }
  }

  /** Neither string disagrees with the other where both have characters: one is a prefix of the other. */
  predicate Compatible(u: string, p: string)
  {
    forall d :: 0 <= d < |u| && d < |p| ==> u[d] == p[d]
  }

  /** No occurrence of `p` can start inside `x`, whatever follows `x`. */
  predicate Blocks(x: string, p: string)
  {
    forall m :: 0 <= m < |x| ==> !Compatible(x[m..], p)
  }

  /** A string without `p`'s first character blocks `p`. */
  lemma BlocksByFirstChar(x: string, p: string)
    requires |p| > 0 && p[0] !in x
    ensures Blocks(x, p)
  {
    forall m | 0 <= m < |x|
      ensures !Compatible(x[m..], p)
    {
      assert x[m..][0] == x[m];
    }
  }

  /** Replacement leaves a blocking prefix untouched. */
  lemma {:induction false} ReplaceSkip(x: string, y: string, p: string, r: string)
    requires |p| > 0 && Blocks(x, p)
    ensures ReplaceAll(x + y, p, r) == x + ReplaceAll(y, p, r)
    decreases |x|
  {
    if |x| > 0 {
      assert !Compatible(x[0..], p);
      assert x[0..] == x;
      assert !(p <= x + y);
      assert Blocks(x[1..], p) by {
        forall m | 0 <= m < |x[1..]|
          ensures !Compatible(x[1..][m..], p)
        {
          assert x[1..][m..] == x[m + 1..];
        }
      }
      ReplaceSkip(x[1..], y, p, r);
      assert (x + y)[1..] == x[1..] + y;
      assert ReplaceAll(x + y, p, r) == [x[0]] + ReplaceAll(x[1..] + y, p, r);
      assert x == [x[0]] + x[1..];
      assert x + ReplaceAll(y, p, r) == [x[0]] + (x[1..] + ReplaceAll(y, p, r));
    } else {
      assert x + y == y;
    }
  }

  /** Replacement at a leading occurrence. */
  lemma ReplaceLeading(y: string, p: string, r: string)
    requires |p| > 0
    ensures ReplaceAll(p + y, p, r) == r + ReplaceAll(y, p, r)
  {
    assert p <= p + y;
    assert (p + y)[|p|..] == y;
  }

  /** Every character of an occurring string occurs. */
  lemma {:induction false} ContainsChars(s: string, p: string, c: char)
    requires Contains(s, p) && c in p
    ensures c in s
    decreases |s|
  {
    if p <= s {
    } else {
      ContainsChars(s[1..], p, c);
    }
  }

  /** Python's `str.isspace` for a single character. */
  predicate IsSpace(c: char)
  {
    var n := c as int;
    (9 <= n <= 13) || (28 <= n <= 32) || n == 0x85 || n == 0xA0 || n == 0x1680
    || (0x2000 <= n <= 0x200A) || n == 0x2028 || n == 0x2029 || n == 0x202F
    || n == 0x205F || n == 0x3000
  }

  /** Python's `s.lstrip()`. */
  function StripLeft(s: string): (r: string)
    ensures |r| <= |s| && r == s[|s| - |r|..]
    ensures forall i :: 0 <= i < |s| - |r| ==> IsSpace(s[i])
    ensures |r| > 0 ==> !IsSpace(r[0])
    decreases |s|
  {
    if |s| > 0 && IsSpace(s[0]) then StripLeft(s[1..]) else s
  }

  /** Python's `s.rstrip()`. */
  function StripRight(s: string): (r: string)
    ensures |r| <= |s| && r == s[..|r|]
    ensures forall i :: |r| <= i < |s| ==> IsSpace(s[i])
    ensures |r| > 0 ==> !IsSpace(r[|r| - 1])
    decreases |s|
  {
    if |s| > 0 && IsSpace(s[|s| - 1]) then StripRight(s[..|s| - 1]) else s
  }

  /** Python's `s.strip()`. */
  function Strip(s: string): (r: string)
  {
    StripRight(StripLeft(s))
  }

  /** `s.strip()` is the slice `s[i..j]`, and everything it drops is whitespace. */
  lemma StripSpec(s: string) returns (i: nat, j: nat)
    ensures i <= j <= |s| && Strip(s) == s[i..j]
    ensures forall k :: 0 <= k < i ==> IsSpace(s[k])
    ensures forall k :: j <= k < |s| ==> IsSpace(s[k])
  {
    var l := StripLeft(s);
    var r := StripRight(l);
    i := |s| - |l|;
    j := i + |r|;
    assert l == s[i..];
    forall k | j <= k < |s|
      ensures IsSpace(s[k])
    {
      assert s[k] == l[k - i];
    }
  }

  /** A string with no whitespace at either end is its own strip. */
  lemma StripNoSpace(s: string)
    requires |s| > 0 ==> !IsSpace(s[0]) && !IsSpace(s[|s| - 1])
    ensures Strip(s) == s
  {
  }

  predicate IsLowerChar(c: char) { 'a' <= c <= 'z' }

  predicate IsUpperChar(c: char) { 'A' <= c <= 'Z' }

  /** Python's `c.lower()` on one ASCII character. */
  function LowerChar(c: char): (d: char)
    ensures !IsUpperChar(d)
    ensures IsUpperChar(c) ==> IsLowerChar(d)
    ensures !IsUpperChar(c) ==> d == c
  {
    if IsUpperChar(c) then (c as int + 32) as char else c
  }

  /** Python's `c.upper()` on one ASCII character. */
  function UpperChar(c: char): (d: char)
    ensures !IsLowerChar(d)
    ensures IsLowerChar(c) ==> IsUpperChar(d)
    ensures !IsLowerChar(c) ==> d == c
  {
    if IsLowerChar(c) then (c as int - 32) as char else c
  }

  /** Python's `s.lower()` on ASCII letters. */
  function Lower(s: string): (r: string)
    ensures |r| == |s|
    ensures forall i :: 0 <= i < |s| ==> r[i] == LowerChar(s[i])
  {
    seq(|s|, i requires 0 <= i < |s| => LowerChar(s[i]))
  }

  /** Python's `s.upper()` on ASCII letters. */
  function Upper(s: string): (r: string)
    ensures |r| == |s|
    ensures forall i :: 0 <= i < |s| ==> r[i] == UpperChar(s[i])
  {
    seq(|s|, i requires 0 <= i < |s| => UpperChar(s[i]))
  }

  predicate IsCased(c: char) { IsLowerChar(c) || IsUpperChar(c) }

  /** Python's `s.islower()`: some cased character, and none of them upper-case. */
  predicate IsLowerStr(s: string)
  {
    (exists i :: 0 <= i < |s| && IsCased(s[i])) && forall i :: 0 <= i < |s| ==> !IsUpperChar(s[i])
  }

  /** Python's `s.isupper()`: some cased character, and none of them lower-case. */
  predicate IsUpperStr(s: string)
  {
    (exists i :: 0 <= i < |s| && IsCased(s[i])) && forall i :: 0 <= i < |s| ==> !IsLowerChar(s[i])
  }
}

=== FILE: translation_cache.dfy ===
/**
 * The translation cache of libretranslate/cache.py: which requests consult
 * it, how a request is keyed, and how stored values are read and written
 * through the shared store. md5 and gzip are foreign and arrive as function
 * parameters.
 */
module TranslationCache {
  import opened Wrappers
  import opened Text
  import opened Numbers
  import Storage

  /** The settings `TranslationCache.__init__` derives from the configured key list. */
  datatype Cache = Cache(enabled: bool, apiKeys: seq<string>, cacheAll: bool)

  /** Seconds a cached translation lives (seven days). */
  const Expire := 604800

  /** The entries of `aks` that do not lower-case to "all", in order. */
  function NonAllKeys(aks: seq<string>): (r: seq<string>)
    ensures forall k :: k in r <==> k in aks && Lower(k) != "all"
    ensures |r| <= |aks|
  {
    if |aks| == 0 then []
    else (if Lower(aks[0]) != "all" then [aks[0]] else []) + NonAllKeys(aks[1..])
  }

  function Init(aks: seq<string>): (c: Cache)
    ensures c.enabled <==> |aks| > 0
    ensures c.cacheAll <==> exists i :: 0 <= i < |aks| && Lower(aks[i]) == "all"
    ensures forall k :: k in c.apiKeys <==> k in aks && Lower(k) != "all"
  {
    Cache(|aks| > 0, NonAllKeys(aks), exists i :: 0 <= i < |aks| && Lower(aks[i]) == "all")
  }

  /** `should_check(ak)`; a request without a key is never in the list. */
  predicate ShouldCheck(c: Cache, ak: Option<string>)
  {
    c.enabled && (c.cacheAll || (ak.Some? && ak.value in c.apiKeys))
  }

  /** Which requests consult a cache configured from `aks`. */
  lemma ShouldCheckFromSettings(aks: seq<string>, ak: Option<string>)
    ensures ShouldCheck(Init(aks), ak) <==>
      (exists i :: 0 <= i < |aks| && Lower(aks[i]) == "all") ||
      (ak.Some? && ak.value in aks && Lower(ak.value) != "all")
  {
    if exists i :: 0 <= i < |aks| && Lower(aks[i]) == "all" {
      assert |aks| > 0;
    }
  }

  /** A configuration entry spelled "ALL" or "All" switches on caching for everyone. */
  lemma AllInAnyCase(ak: Option<string>)
    ensures ShouldCheck(Init(["ALL"]), ak)
  {
    assert Lower("ALL") == "all";
  }

  /** The request's texts: a single string or a list. */
  datatype Texts = One(text: string) | Many(texts: seq<string>)

  function TextBlob(t: Texts): string
  {
    match t
    case One(s) => s
    case Many(ts) => Join(ts, "|")
  }

  /** `blob:source:target:format:alternatives`. */
  function Fingerprint(t: Texts, source: string, target: string, format: string, alternatives: int): (f: string)
    ensures TextBlob(t) <= f
    ensures |f| == |TextBlob(t)| + |source| + |target| + |format| + |IntToString(alternatives)| + 4
    ensures f[|TextBlob(t)|..] == ":" + source + ":" + target + ":" + format + ":" + IntToString(alternatives)
  {
    var tail := ":" + source + ":" + target + ":" + format + ":" + IntToString(alternatives);
    TextBlob(t) + tail
  }

  /** "tcache_" followed by the md5 hex digest of the fingerprint. */
  function CacheKey(md5: string -> string, t: Texts, source: string, target: string, format: string, alternatives: int): (k: string)
    ensures |k| >= 7 && k[..7] == "tcache_" && k[7..] == md5(Fingerprint(t, source, target, format, alternatives))
  {
    "tcache_" + md5(Fingerprint(t, source, target, format, alternatives))
  }

  /** A list of texts and the single text equal to its "|"-join share one cache key. */
  lemma ListAndJoinedTextShareKey(md5: string -> string, ts: seq<string>, source: string, target: string, format: string, n: int)
    ensures CacheKey(md5, Many(ts), source, target, format, n) == CacheKey(md5, One(Join(ts, "|")), source, target, format, n)
  {
  }

  /** So do two different batches: ["a|b"] and ["a", "b"]. */
  lemma DifferentBatchesShareKey(md5: string -> string, source: string, target: string, format: string, n: int)
    ensures CacheKey(md5, Many(["a|b"]), source, target, format, n) == CacheKey(md5, Many(["a", "b"]), source, target, format, n)
  {
    assert Join(["a", "b"], "|") == "a|b";
  }

  /**
   * A call into a store method. Both stores declare `get_str(key)` and
   * `set_str(key, value)` only, so an extra keyword or positional argument
   * raises TypeError before the method body runs.
   */
  function CallGetStr(st: Storage.Store, key: string, keywords: seq<string>): (r: Result<string, Storage.StoreError>)
    ensures |keywords| > 0 ==> r == Err(Storage.TypeError)
    ensures |keywords| == 0 ==> r == Storage.GetStr(st, key)
  {
    if |keywords| > 0 then Err(Storage.TypeError) else Storage.GetStr(st, key)
  }

  function CallSetStr(st: Storage.Store, key: string, value: string, extraArgs: nat): (r: Result<Storage.Store, Storage.StoreError>)
    ensures extraArgs > 0 ==> r == Err(Storage.TypeError)
    ensures extraArgs == 0 ==> r == Ok(Storage.SetStr(st, key, value))
  {
    if extraArgs > 0 then Err(Storage.TypeError) else Ok(Storage.SetStr(st, key, value))
  }

  /** The read half of `hit`, passing `keywords` to `get_str`. */
  function ReadVia(st: Storage.Store, key: string, keywords: seq<string>, decompress: string -> Option<string>): (r: Result<Option<string>, Storage.StoreError>)
    ensures |keywords| > 0 ==> r == Err(Storage.TypeError)
  {
    var stored :- CallGetStr(st, key, keywords);
    if |stored| == 0 then Ok(None)
    else Ok(Some(decompress(stored).GetOr(stored)))
  }

  /** `hit` as written: `get_str(cache_key, raw=True)` sits outside the `try`, so its TypeError escapes. */
  function ReadAsWritten(st: Storage.Store, key: string, decompress: string -> Option<string>): (r: Result<Option<string>, Storage.StoreError>)
  {
    ReadVia(st, key, ["raw"], decompress)
  }

  /** The write half of `cache`, passing `extraArgs` arguments to `set_str` after the value. */
  function WriteVia(st: Storage.Store, key: string, content: Content, compress: string -> string, extraArgs: nat): (r: Storage.Store)
    ensures extraArgs > 0 ==> r == st
  {
    match content
    case Dict(json) =>
      (match CallSetStr(st, key, compress(json), extraArgs)
       case Ok(st1) => st1
       case Err(_) => st)
    case Other => st
  }

  /**
   * `cache` as written: `set_str(cache_key, compressed, self.expire)` raises
   * TypeError for a dict, and for anything else `compressed` is unbound and
   * raises UnboundLocalError; the `except` swallows both.
   */
  function WriteAsWritten(st: Storage.Store, key: string, content: Content, compress: string -> string): (r: Storage.Store)
  {
    WriteVia(st, key, content, compress, 1)
  }

  /** Without the extra arguments, the calls are the corrected read and write. */
  lemma CorrectedCalls(st: Storage.Store, key: string, content: Content, compress: string -> string, decompress: string -> Option<string>)
    ensures ReadVia(st, key, [], decompress) == Read(st, key, decompress)
    ensures WriteVia(st, key, content, compress, 0) == Write(st, key, content, compress)
  {
  }

  /** As written, every lookup raises and no write stores anything. */
  lemma CacheAsWrittenIsInert(st: Storage.Store, key: string, content: Content, compress: string -> string, decompress: string -> Option<string>)
    ensures ReadAsWritten(st, key, decompress) == Err(Storage.TypeError)
    ensures WriteAsWritten(st, key, content, compress) == st
  {
  }

  /** So the round trip the corrected pair completes fails as written, even on an empty store. */
  lemma AsWrittenRoundTripFails(key: string, json: string, compress: string -> string, decompress: string -> Option<string>)
    requires forall s :: decompress(compress(s)) == Some(s)
    requires forall s :: compress(s) != ""
    ensures Read(Write(Storage.Empty, key, Dict(json), compress), key, decompress) == Ok(Some(json))
    ensures ReadAsWritten(WriteAsWritten(Storage.Empty, key, Dict(json), compress), key, decompress) == Err(Storage.TypeError)
    ensures key !in WriteAsWritten(Storage.Empty, key, Dict(json), compress)
  {
    WriteThenRead(Storage.Empty, key, json, compress, decompress);
    CacheAsWrittenIsInert(Storage.Empty, key, Dict(json), compress, decompress);
  }

  /**
   * The read half of `hit`, as evidently intended (`get_str(cache_key)`): an empty stored value is a miss; otherwise the
   * value is decompressed, or kept as it is when decompression fails.
   */
  function Read(st: Storage.Store, key: string, decompress: string -> Option<string>): (r: Result<Option<string>, Storage.StoreError>)
    ensures Storage.GetStr(st, key).Err? ==> r.Err?
    ensures Storage.GetStr(st, key) == Ok("") ==> r == Ok(None)
    ensures key !in st ==> r == Ok(None)
  {
    var stored :- Storage.GetStr(st, key);
    if |stored| == 0 then Ok(None)
    else Ok(Some(decompress(stored).GetOr(stored)))
  }

  /** What `cache(key, content)` is handed: a dict (as its JSON text) or anything else. */
  datatype Content = Dict(json: string) | Other

  /**
   * The write half, as evidently intended (`set_str(cache_key, compressed)`):
   * only dict content is compressed and stored; for anything else nothing is stored.
   */
  function Write(st: Storage.Store, key: string, content: Content, compress: string -> string): (r: Storage.Store)
    ensures content.Other? ==> r == st
    ensures content.Dict? ==> r.Keys == st.Keys + {key}
    ensures forall k :: k in st && k != key ==> k in r && r[k] == st[k]
  {
    match content
    case Dict(json) => Storage.SetStr(st, key, compress(json))
    case Other => st
  }

  /** When decompression undoes compression and compressed text is never empty, a stored dict reads back as its JSON. */
  lemma WriteThenRead(st: Storage.Store, key: string, json: string, compress: string -> string, decompress: string -> Option<string>)
    requires forall s :: decompress(compress(s)) == Some(s)
    requires forall s :: compress(s) != ""
    ensures Read(Write(st, key, Dict(json), compress), key, decompress) == Ok(Some(json))
  {
    var st1 := Write(st, key, Dict(json), compress);
    Storage.SetThenGet(st, key, key + "'", 0, compress(json), false);
  }
}

=== FILE: translation_memory.dfy ===
/**
 * The translation-memory table of libretranslate/tm_db.py as a sequence of
 * rows in insertion order, with sqlite's AUTOINCREMENT counter and the clock
 * (`CURRENT_TIMESTAMP`, whole seconds) passed in as `now`.
 */
module TranslationMemory {
  import opened Wrappers

  datatype Entry = Entry(
    id: nat,
    sourceText: string,
    targetText: string,
    sourceLang: string,
    targetLang: string,
    createdAt: nat,
    lastUsedAt: nat,
    userId: Option<int>,
    confidence: Option<real>)

  /** The table's rows in insertion order and the highest id ever handed out. */
  datatype Tm = Tm(rows: seq<Entry>, lastId: nat)

  const Empty := Tm([], 0)

  /** Ids grow strictly along the rows. */
  predicate IdsAscending(rows: seq<Entry>)
  {
    forall i, j :: 0 <= i < j < |rows| ==> rows[i].id < rows[j].id
  }

  /** Ids grow along the rows and never exceed the counter. */
  ghost predicate Valid(tm: Tm)
  {
    IdsAscending(tm.rows) &&
    (forall i :: 0 <= i < |tm.rows| ==> 1 <= tm.rows[i].id <= tm.lastId)
  }

  /** `add_entry(...)` at time `now`: one row, with the next id, created and last used now. */
  function AddEntry(tm: Tm, sourceText: string, targetText: string, sourceLang: string, targetLang: string,
                    userId: Option<int>, confidence: Option<real>, now: nat): (r: Tm)
    ensures |r.rows| == |tm.rows| + 1 && r.rows[..|tm.rows|] == tm.rows
    ensures var e := r.rows[|tm.rows|];
      e.id == r.lastId && e.lastUsedAt == now && e.createdAt == now &&
      e.sourceText == sourceText && e.targetText == targetText &&
      e.sourceLang == sourceLang && e.targetLang == targetLang &&
      e.userId == userId && e.confidence == confidence
    ensures Valid(tm) ==> Valid(r) && forall e :: e in tm.rows ==> e.id < r.lastId
  {
    var id := tm.lastId + 1;
    Tm(tm.rows + [Entry(id, sourceText, targetText, sourceLang, targetLang, now, now, userId, confidence)], id)
  }

  predicate Matches(e: Entry, sourceText: string, sourceLang: string, targetLang: string)
  {
    e.sourceText == sourceText && e.sourceLang == sourceLang && e.targetLang == targetLang
  }

  /** `confidence DESC` puts NULL last: `a` sorts before `b`. */
  predicate ConfidenceAbove(a: Option<real>, b: Option<real>)
  {
    a.Some? && (b.None? || a.value > b.value)
  }

  /** `ORDER BY last_used_at DESC, confidence DESC`: `a` sorts strictly before `b`. */
  predicate Ranks(a: Entry, b: Entry)
  {
    a.lastUsedAt > b.lastUsedAt || (a.lastUsedAt == b.lastUsedAt && ConfidenceAbove(a.confidence, b.confidence))
  }

  /** `Ranks` is a strict weak order: outranking something that is not below a third row outranks that row too. */
  lemma RanksThrough(a: Entry, b: Entry, c: Entry)
    ensures Ranks(a, b) && !Ranks(c, b) ==> Ranks(a, c)
    ensures Ranks(a, b) && Ranks(b, c) ==> Ranks(a, c)
  {
  }

  /**
   * The index of the row `lookup_entry` returns: a matching row that outranks
   * every earlier match and that no later match outranks.
   */
  function BestIndex(rows: seq<Entry>, sourceText: string, sourceLang: string, targetLang: string): (r: Option<nat>)
    ensures r.None? <==> forall k :: 0 <= k < |rows| ==> !Matches(rows[k], sourceText, sourceLang, targetLang)
    ensures r.Some? ==> r.value < |rows| && Matches(rows[r.value], sourceText, sourceLang, targetLang)
    ensures r.Some? ==> forall k :: 0 <= k < r.value && Matches(rows[k], sourceText, sourceLang, targetLang) ==>
      Ranks(rows[r.value], rows[k])
    ensures r.Some? ==> forall k :: r.value < k < |rows| && Matches(rows[k], sourceText, sourceLang, targetLang) ==>
      !Ranks(rows[k], rows[r.value])
  {
    if |rows| == 0 then None
    else
      var n := |rows| - 1;
      var b := BestIndex(rows[..n], sourceText, sourceLang, targetLang);
      if !Matches(rows[n], sourceText, sourceLang, targetLang) then b
      else if b.None? || Ranks(rows[n], rows[b.value]) then
        assert b.Some? ==> forall k :: 0 <= k < n && Matches(rows[k], sourceText, sourceLang, targetLang) ==>
          Ranks(rows[n], rows[k]) by {
          if b.Some? {
            forall k | 0 <= k < n && Matches(rows[k], sourceText, sourceLang, targetLang)
              ensures Ranks(rows[n], rows[k])
            {
              assert rows[..n][k] == rows[k];
              RanksThrough(rows[n], rows[b.value], rows[k]);
            }
          }
        }
        Some(n)
      else b
  }

  /** `lookup_entry(...)`: `(target_text, id)` of the best-ranked matching row; ties go to the earlier row. */
  function LookupEntry(tm: Tm, sourceText: string, sourceLang: string, targetLang: string): (r: Option<(string, nat)>)
    ensures r.None? <==> forall e :: e in tm.rows ==> !Matches(e, sourceText, sourceLang, targetLang)
    ensures r.Some? ==> (BestIndex(tm.rows, sourceText, sourceLang, targetLang).Some? &&
      var e := tm.rows[BestIndex(tm.rows, sourceText, sourceLang, targetLang).value];
      r.value == (e.targetText, e.id))
  {
    match BestIndex(tm.rows, sourceText, sourceLang, targetLang)
    case None => None
    case Some(k) => Some((tm.rows[k].targetText, tm.rows[k].id))
  }

  /** `update_last_used(id)`: only that row's last-used time becomes `now`. */
  function UpdateLastUsed(tm: Tm, id: nat, now: nat): (r: Tm)
    ensures r.lastId == tm.lastId && |r.rows| == |tm.rows|
    ensures forall i :: 0 <= i < |tm.rows| ==>
      r.rows[i] == if tm.rows[i].id == id then tm.rows[i].(lastUsedAt := now) else tm.rows[i]
    ensures Valid(tm) ==> Valid(r)
  {
    Tm(seq(|tm.rows|, i requires 0 <= i < |tm.rows| =>
      if tm.rows[i].id == id then tm.rows[i].(lastUsedAt := now) else tm.rows[i]), tm.lastId)
  }

  /** The rows other than `id`, in order. */
  function Without(rows: seq<Entry>, id: nat): (r: seq<Entry>)
    ensures forall e :: e in r <==> e in rows && e.id != id
    ensures |r| <= |rows|
    ensures IdsAscending(rows) ==> IdsAscending(r)
  {
    if |rows| == 0 then []
    else
      var rest := Without(rows[1..], id);
      assert forall e :: e in rows[1..] ==> e in rows;
      if rows[0].id == id then
        assert IdsAscending(rows) ==> IdsAscending(rows[1..]);
        rest
      else
        assert IdsAscending(rows) ==> IdsAscending([rows[0]] + rest) by {
          if IdsAscending(rows) {
            assert IdsAscending(rows[1..]);
            PrependAscending(rows, rest);
          }
        }
        [rows[0]] + rest
  }

  /** Putting the first row back in front of an ascending selection of the later rows keeps the ids ascending. */
  lemma PrependAscending(rows: seq<Entry>, rest: seq<Entry>)
    requires |rows| > 0 && IdsAscending(rows) && IdsAscending(rest)
    requires forall e :: e in rest ==> e in rows[1..]
    ensures IdsAscending([rows[0]] + rest)
  {
    forall e | e in rest
      ensures rows[0].id < e.id
    {
      var k :| 0 <= k < |rows[1..]| && rows[1..][k] == e;
      assert rows[k + 1] == e;
    }
    var s := [rows[0]] + rest;
    forall i, j | 0 <= i < j < |s|
      ensures s[i].id < s[j].id
    {
      assert s[j] == rest[j - 1] && s[j] in rest;
      if i > 0 {
        assert s[i] == rest[i - 1];
      }
    }
  }

  /** `delete_entry(id)`: true iff a row with that id existed; the row is gone afterwards. */
  function DeleteEntry(tm: Tm, id: nat): (r: (bool, Tm))
    ensures r.0 <==> exists e :: e in tm.rows && e.id == id
    ensures forall e :: e in r.1.rows <==> e in tm.rows && e.id != id
    ensures r.1.lastId == tm.lastId
    ensures Valid(tm) ==> Valid(r.1)
  {
    var rows := Without(tm.rows, id);
    assert forall i :: 0 <= i < |rows| ==> rows[i] in rows;
    ((exists e :: e in tm.rows && e.id == id), Tm(rows, tm.lastId))
  }

  /** `get_entry_by_id(id)`: that row, or None. */
  function GetEntryById(tm: Tm, id: nat): (r: Option<Entry>)
    ensures r.None? <==> forall e :: e in tm.rows ==> e.id != id
    ensures r.Some? ==> r.value in tm.rows && r.value.id == id
  {
    FindId(tm.rows, id)
  }

  function FindId(rows: seq<Entry>, id: nat): (r: Option<Entry>)
    ensures r.None? <==> forall e :: e in rows ==> e.id != id
    ensures r.Some? ==> r.value in rows && r.value.id == id
  {
    if |rows| == 0 then None
    else if rows[0].id == id then Some(rows[0])
    else
      assert forall e :: e in rows ==> e == rows[0] || e in rows[1..];
      FindId(rows[1..], id)
  }

  /** A deleted entry is seen by neither `get_entry_by_id` nor `lookup_entry`. */
  lemma DeletedIsGone(tm: Tm, id: nat, sourceText: string, sourceLang: string, targetLang: string)
    requires Valid(tm)
    ensures GetEntryById(DeleteEntry(tm, id).1, id).None?
    ensures var r := LookupEntry(DeleteEntry(tm, id).1, sourceText, sourceLang, targetLang);
      r.None? || r.value.1 != id
  {
  }

  /** A language filter is applied only when the argument is truthy. */
  predicate PassesFilter(value: string, filter: Option<string>)
  {
    filter.None? || filter.value == "" || value == filter.value
  }

  predicate Listed(e: Entry, sourceLang: Option<string>, targetLang: Option<string>)
  {
    PassesFilter(e.sourceLang, sourceLang) && PassesFilter(e.targetLang, targetLang)
  }

  predicate IdsDescending(rows: seq<Entry>)
  {
    forall i, j :: 0 <= i < j < |rows| ==> rows[i].id > rows[j].id
  }

  /** A row older than every row of a descending list can go at its end. */
  lemma AppendDescending(rest: seq<Entry>, e: Entry)
    requires IdsDescending(rest) && forall x :: x in rest ==> e.id < x.id
    ensures IdsDescending(rest + [e])
  {
    var s := rest + [e];
    forall i, j | 0 <= i < j < |s|
      ensures s[i].id > s[j].id
    {
      assert s[i] == rest[i] && s[i] in rest;
      if j < |rest| {
        assert s[j] == rest[j];
      }
    }
  }

  /** The matching rows, newest first. */
  function MatchingNewestFirst(rows: seq<Entry>, sourceLang: Option<string>, targetLang: Option<string>): (r: seq<Entry>)
    ensures forall e :: e in r <==> e in rows && Listed(e, sourceLang, targetLang)
    ensures IdsAscending(rows) ==> IdsDescending(r)
  {
    if |rows| == 0 then []
    else
      var rest := MatchingNewestFirst(rows[1..], sourceLang, targetLang);
      assert forall e :: e in rows ==> e == rows[0] || e in rows[1..];
      assert IdsAscending(rows) ==> IdsAscending(rows[1..]);
      if Listed(rows[0], sourceLang, targetLang) then
        assert IdsAscending(rows) ==> IdsDescending(rest + [rows[0]]) by {
          if IdsAscending(rows) {
            forall x | x in rest
              ensures rows[0].id < x.id
            {
              var k :| 0 <= k < |rows[1..]| && rows[1..][k] == x;
              assert rows[k + 1] == x;
            }
            AppendDescending(rest, rows[0]);
          }
        }
        rest + [rows[0]]
      else rest
  }

  /**
   * The slice `LIMIT per_page OFFSET (page - 1) * per_page` selects from
   * `count` rows; sqlite reads a negative offset as 0 and a negative limit as
   * no limit.
   */
  function PageBounds(page: int, perPage: int, count: nat): (b: (nat, nat))
    ensures b.0 <= b.1 <= count
    ensures (page - 1) * perPage <= 0 ==> b.0 == 0
    ensures 0 <= (page - 1) * perPage <= count ==> b.0 == (page - 1) * perPage
    ensures (page - 1) * perPage >= count ==> b.0 == count
    ensures perPage < 0 ==> b.1 == count
    ensures perPage >= 0 ==> b.1 - b.0 == (if count - b.0 < perPage then count - b.0 else perPage)
  {
    var offset := (page - 1) * perPage;
    var start: nat := if offset < 0 then 0 else if offset > count then count else offset;
    var end: nat := if perPage < 0 || count - start < perPage then count else start + perPage;
    (start, end)
  }

  /** For a positive page size, page `p + 1` starts where page `p` ends. */
  lemma PagesAreConsecutive(page: int, perPage: int, count: nat)
    requires page >= 1 && perPage > 0
    ensures PageBounds(page + 1, perPage, count).0 == PageBounds(page, perPage, count).1
  {
    assert (page + 1 - 1) * perPage == (page - 1) * perPage + perPage;
    assert (page - 1) * perPage >= 0;
  }

  /** `list_entries(page, per_page, source_lang, target_lang)`: one page of the matching rows, newest first, and how many match. */
  function ListEntries(tm: Tm, page: int, perPage: int, sourceLang: Option<string>, targetLang: Option<string>): (r: (seq<Entry>, nat))
    ensures var all := MatchingNewestFirst(tm.rows, sourceLang, targetLang);
      var b := PageBounds(page, perPage, |all|);
      r.1 == |all| && r.0 == all[b.0..b.1]
    ensures forall e :: e in r.0 ==> e in tm.rows && Listed(e, sourceLang, targetLang)
    ensures Valid(tm) ==> forall i, j :: 0 <= i < j < |r.0| ==> r.0[i].id > r.0[j].id
  {
    var all := MatchingNewestFirst(tm.rows, sourceLang, targetLang);
    var b := PageBounds(page, perPage, |all|);
    assert forall e :: e in all[b.0..b.1] ==> e in all;
    assert forall i :: 0 <= i < b.1 - b.0 ==> all[b.0..b.1][i] == all[b.0 + i];
    (all[b.0..b.1], |all|)
  }

  /** Two consecutive pages together are the matching rows from the first page's start, without gap or overlap. */
  lemma ConsecutivePagesJoin(tm: Tm, page: int, perPage: int, sourceLang: Option<string>, targetLang: Option<string>)
    requires page >= 1 && perPage > 0
    ensures var all := MatchingNewestFirst(tm.rows, sourceLang, targetLang);
      ListEntries(tm, page, perPage, sourceLang, targetLang).0 + ListEntries(tm, page + 1, perPage, sourceLang, targetLang).0 ==
      all[PageBounds(page, perPage, |all|).0..PageBounds(page + 1, perPage, |all|).1]
  {
    var all := MatchingNewestFirst(tm.rows, sourceLang, targetLang);
    PagesAreConsecutive(page, perPage, |all|);
  }

  /** A lookup right after an add at a time later than every existing use returns the new row. */
  lemma NewestEntryWins(tm: Tm, sourceText: string, targetText: string, sourceLang: string, targetLang: string,
                        userId: Option<int>, confidence: Option<real>, now: nat)
    requires forall e :: e in tm.rows ==> e.lastUsedAt < now
    ensures var r := AddEntry(tm, sourceText, targetText, sourceLang, targetLang, userId, confidence, now);
      LookupEntry(r, sourceText, sourceLang, targetLang) == Some((targetText, r.lastId))
  {
    var r := AddEntry(tm, sourceText, targetText, sourceLang, targetLang, userId, confidence, now);
    var n := |tm.rows|;
    var b := BestIndex(r.rows, sourceText, sourceLang, targetLang);
    assert Matches(r.rows[n], sourceText, sourceLang, targetLang);
  }

  /** Using a row at a time later than every other use makes it the row lookup returns. */
  lemma UsedRowWins(tm: Tm, i: nat, now: nat, sourceText: string, sourceLang: string, targetLang: string)
    requires Valid(tm) && i < |tm.rows|
    requires Matches(tm.rows[i], sourceText, sourceLang, targetLang)
    requires forall e :: e in tm.rows ==> e.lastUsedAt < now
    ensures LookupEntry(UpdateLastUsed(tm, tm.rows[i].id, now), sourceText, sourceLang, targetLang) ==
      Some((tm.rows[i].targetText, tm.rows[i].id))
  {
    var r := UpdateLastUsed(tm, tm.rows[i].id, now);
    var b := BestIndex(r.rows, sourceText, sourceLang, targetLang);
    assert r.rows[i] == tm.rows[i].(lastUsedAt := now);
    assert b.Some?;
    if b.value != i {
      assert tm.rows[b.value] in tm.rows;
      assert r.rows[b.value] == tm.rows[b.value];
      assert Ranks(r.rows[i], r.rows[b.value]);
    }
  }

  /**
   * With whole-second timestamps, using a row within the same second as a
   * higher-confidence match does not make it the answer.
   */
  lemma SameSecondUseKeepsConfidenceOrder(tm: Tm, a: Entry, b: Entry, now: nat)
    requires tm.rows == [a, b] && a.id < b.id
    requires Matches(a, b.sourceText, b.sourceLang, b.targetLang)
    requires b.lastUsedAt == now && ConfidenceAbove(b.confidence, a.confidence)
    ensures LookupEntry(UpdateLastUsed(tm, a.id, now), b.sourceText, b.sourceLang, b.targetLang) == Some((b.targetText, b.id))
  {
    var r := UpdateLastUsed(tm, a.id, now);
    assert r.rows == [a.(lastUsedAt := now), b];
    assert BestIndex(r.rows, b.sourceText, b.sourceLang, b.targetLang) == Some(1);
  }
}

=== FILE: wrappers.dfy ===
/** Failure-carrying result types shared by every module of the model. */
module Wrappers {

  datatype Option<+T> = None | Some(value: T) {
    /** The wrapped value, or `default` when absent. */
    function GetOr(default: T): T {
      match this
      case Some(v) => v
      case None => default
    }
  }

  /** The outcome of an operation that the source lets raise an exception. */
  datatype Result<+T, +E> = Ok(value: T) | Err(error: E) {
    predicate IsFailure() {
      Err?
    }

    function PropagateFailure<U>(): Result<U, E>
      requires Err?
    {
      Err(error)
    }

    function Extract(): T
      requires Ok?
    {
      value
    }
  }
}
